=== FILE: README.md ===
# FabricTable grid engine, modelled in Dafny

This project models the grid engine of the FabricTable object of
`fabricjs-plugins` and the property batching mixed into every fabric object.

The table is a grid of columns and rows. Each column has a width and a left
offset; each row has a height and a top offset. A dense matrix gives, for every
slot, the cell that covers it. A merged cell is one cell object whose identity
fills every slot of its rectangle. The cell is anchored at its top-left slot
and carries a column span, a row span and a text.

The model covers the operations of `src/Table.ts` that change or read this grid:
- the property setters `columns`, `rows`, `cells`, `width` and `height`, and the
  `onSet` coordinator that settles them after a batch;
- `getColumns`, `getRows` and `getCells`, which publish the grid back;
- inserting and deleting columns and rows, singly and for the selection;
- merging and unmerging the selection;
- range selection and drag selection, and the selection queries the context
  menu consults;
- interactive column and row resizing;
- the cell-geometry pass.

From `src/ObjectOptions.ts` it models:
- the order in which `setOptions` applies keys (`propertyApplyOrder`);
- `_set`, with its setter dispatch, negative-scale flip and dirty marking;
- the re-entrancy guard of `set` and `setOptions` around `onSet`;
- the default filtering of `toDatalessObject`.

The modules follow the source's structure:

| file | module | what it holds |
|---|---|---|
| wrappers.dfy | `Wrappers` | `Option` and `Result` |
| seqs.dfy | `Seqs` | `splice`, element removal, de-duplicating push |
| ledger.dfy | `Ledger` | lines, offsets as running totals, totals, the last-line clamp |
| grid.dfy | `Grid` | the table state and its invariants (`Valid`) |
| serial.dfy | `Serial` | `_getCellData` and `getCells` |
| setters.dfy | `Setters` | `__setcolumns`/`__setrows` on lines, `getColumns`/`getRows`, `__setwidth`/`__setheight` |
| geometry.dfy | `Geometry` | `_updateCellsGeometry` |
| expand.dfy | `Expand` | `selectRange` and its rectangle growth |
| selection.dfy | `Selection` | `getSelectionBounds` and the `is…` queries |
| drag.dfy | `Drag` | `setSelection`, `clearSelection`, `selectCell`, drag selection |
| insert.dfy | `Insert` | `insertColumn`, `insertRow` |
| delete.dfy | `Delete` | `_deleteColumn`/`_deleteRow`, `deleteColumn`/`deleteRow`, `deleteSelected…` |
| merge.dfy | `Merge` | `mergeSelection`, `unmergeSelection` |
| layout.dfy | `Layout` | `__setcells` and the matrix part of `_createCell` |
| resize.dfy | `Resize` | `column…/rowResizingBegin`, `…Resizing`, `…ResizingFinish` |
| options.dfy | `Options` | `setOptions` order, `_set`, `set`/`setOptions` guard, `toDatalessObject` |
| coordinator.dfy | `Coordinator` | the grid properties' setters, dirty flags and `onSet` |

Conventions:
- Positions, sizes and spans are unbounded integers. The source's JavaScript
  numbers are used as integers throughout the grid engine.
- A cell's text `""` stands both for the empty string and for an absent text;
  the source treats the two alike, since both are falsy.
- Cell identities are natural numbers. Operations that create cells draw fresh
  ids from `nextId`.
- Where the source would throw, leave a `null`, or leave the matrix with holes,
  the model returns a `Failure`, or the operation's precondition excludes the
  state. Each such case is listed under "Left out".

## Model

Some definitions model source functions directly but have no contract of their own. They are covered by the rows of the lemmas that state their properties:
- `Selection.IsSelectionMergeable` (`isSelectionMergeble`, src/Table.ts:649-651): by `Selection.MergeableSpansSeveralSlots`.
- `Serial.GetCells` (`getCells`, src/Table.ts:561-579): by `Serial.GetCellsAnchors`, `Serial.GetCellsAlike` and `Layout.SetCellsGetCells`.
- `Delete.DeleteColumnRaw` (`_deleteColumn`, src/Table.ts:1412-1446): by `Delete.DeleteColumnMatrixValid`, `Delete.DeleteColumnRawSound` and `Delete.DeleteColumnKeeps`, with `Delete.ColumnFates`, `Delete.SlotsLessColumn` and `Delete.CellsLessColumn` describing the parts it builds.
- `Delete.DeleteRowRaw` (`_deleteRow`, src/Table.ts:1449-1479): by `Delete.DeleteRowMatrixValid`, `Delete.DeleteRowRawSound` and `Delete.DeleteRowKeeps`, with `Delete.RowFates`, `Delete.SlotsLessRow` and `Delete.CellsLessRow` describing the parts it builds.
- `Layout.Layout` (the loop of `__setcells`, src/Table.ts:747-758): by `Layout.LayoutRebuilds` and `Layout.SetCells`, with `Layout.NextFree` for its search for a free slot.
- `Merge.MergedText` (the text join of `mergeSelection`, src/Table.ts:341-353): by `Merge.MergeKeepsTexts` and `Merge.MergedTextLeadingSpace`.

| member | source | states |
|---|---|---|
| Seqs.Splice | src/Table.ts:494-526 | `Array.prototype.splice` inserting one element: the element lands at the position, earlier elements stay and later ones move up by one |
| Seqs.RemoveAt | src/Table.ts:1412-1446 | `splice(p, 1)`: one element fewer, earlier elements stay, later ones move down by one |
| Seqs.Without | src/Table.ts:1482-1497 | removing deleted cells from the selection: an element is kept exactly when it was there and is not deleted; order and distinctness are kept; nothing changes when nothing is deleted |
| Seqs.WithoutTwice | src/Table.ts:1482-1497 | deleting cells in two rounds takes out of the selection exactly what one round with their union does |
| Seqs.Dedup | src/Table.ts:957-960 | the `includes`/`push` pattern: the result holds exactly the accumulated and the new elements, each once, and extends the accumulator |
| Ledger.GrowLines | src/Table.ts:1129-1154 | lines `_createCell` pushes for missing positions: the old lines are kept as a prefix, and each new line has its position as index, the minimum size, no header flag and offset 0 |
| Ledger.AssignOffsets | src/Table.ts:1392-1399 | the loop of `_updateColumns`: each line's offset is the start plus the sizes of the lines before it; nothing else changes |
| Ledger.UpdateOffsets | src/Table.ts:1392-1409 | `_updateColumns`/`_updateRows`: offsets become running totals from 0, with sizes, indices and header flags unchanged |
| Ledger.UpdateOffsetsIdempotent | src/Table.ts:1392-1399 | recomputing offsets that are already running totals changes nothing |
| Ledger.ClampLast | src/Table.ts:787-803 | `__setwidth` with columns: the total is raised to at least all-but-last plus the minimum; the request is honoured when it is large enough; the last line absorbs the difference; the flag is raised exactly when the recorded total changes; from a consistent ledger the total stays the sum and the last line stays at least the minimum |
| Ledger.Settle | src/Table.ts:1378-1399 | `_updateColumns` then `_updateTableWidth`: offsets current, sizes kept except the last; from a consistent total the ledger ends consistent; a last line already at the minimum keeps every size |
| Ledger.SpliceLine | src/Table.ts:494-526 | the `_cols.splice` of `insertColumn`: the new line of the given size sits at `p`, with later lines renumbered one up; contiguity is kept |
| Ledger.SpliceLineTotal | src/Table.ts:494-526 | an inserted line adds its size to the total |
| Ledger.SpliceSettled | src/Table.ts:494-526 | after insertion and settling, the other lines keep sizes and header flags around the new line, which is no header and keeps its size unless it is appended below the minimum |
| Ledger.RemoveLine | src/Table.ts:1412-1446 | `_deleteColumn` on the lines: one line fewer, later lines renumbered one down, contiguity kept |
| Ledger.RemoveLineTotal | src/Table.ts:1412-1446 | a removed line takes its size off the total |
| Ledger.RemoveSettled | src/Table.ts:452-459 | after one removal and settling, the remaining lines keep sizes and header flags, except that a new last line below the minimum is raised |
| Ledger.ExciseTotal | src/Table.ts:439-449 | cutting a run of lines takes exactly their sizes off the total |
| Ledger.ExcisedLines | src/Table.ts:439-449 | after a run of lines is cut: the count drops by the run's length, the total by its sizes, and the last line is the old last line, or the one before the run when the run ended the table |
| Ledger.Extent | src/Table.ts:1338-1347 | the span loop of `_updateCellsGeometry`: the sum of the spanned sizes, equal to the difference of offsets when these are current |
| Ledger.ExampleTotals | src/test/Table.test.ts:10-47 | the example table of the repository's test: six 110-wide columns make 660, its seven rows make 176, and a cell spanning all columns is 660 wide |
| Grid.SameSlot | src/Table.ts:1320-1374 | two slots hold the same cell exactly when that cell's rectangle covers both |
| Grid.AnchorsUnique | src/Table.ts:561-579 | distinct cells have distinct anchors, so a scan meets each cell first at one slot |
| Grid.SettleColumns | src/Table.ts:166-171 | the column part of `onSet` on the grid: only columns and width change; offsets current; every width but the last kept; a consistent width stays the sum with the last column at least the minimum |
| Grid.SettleRows | src/Table.ts:173-178 | the row-wise mirror of `Grid.SettleColumns` |
| Grid.SettleColumnsValid | src/Table.ts:166-171 | settling the columns of a table whose matrix and selection are sound and whose width is the column total gives a valid table |
| Grid.SettleRowsValid | src/Table.ts:173-178 | the row-wise mirror of `Grid.SettleColumnsValid` |
| Grid.ReselectValid | src/Table.ts:417-421 | replacing the selection by known cells without repeats keeps the table valid |
| Serial.CellDataOf | src/Table.ts:1049-1082 | `_getCellData` with default options: spans of 1 and empty text are omitted, and reading the data back (`colspan || 1`, absent text) gives the cell's spans and text again |
| Serial.GetCellsAnchors | src/Table.ts:561-579 | `getCells` writes, row by row, each distinct cell once at its anchor, left to right, equal to the reference reading `Serialised` |
| Serial.ScanRowAnchors | src/Table.ts:566-576 | one row of the `processed` scan yields exactly the cells anchored in that row, and `processed` then lists every cell anchored in it or above |
| Serial.MetUnlessAnchor | src/Table.ts:569-570 | a slot's cell is already `processed` exactly when the slot is not its anchor |
| Serial.GetCellsAlike | src/Table.ts:561-579 | `getCells` depends only on which cell each slot holds, not on the cells' ids |
| Setters.SetLines | src/Table.ts:699-717 | `__setcolumns` on the lines: as many lines as entries; a truthy size replaces the old one and a falsy one keeps it; the header flag is taken from the entry; fails exactly when a new line has no size |
| Setters.GetLines | src/Table.ts:255-264 | `getColumns`: each line's size and header flag, in order |
| Setters.SetLinesGetLines | src/Table.ts:699-717 | assigning the lines what `getColumns` writes changes nothing, zero sizes included |
| Setters.SetWidth | src/Table.ts:787-803 | `__setwidth` with columns: only columns and width change; the width is at least all-but-last plus the minimum and equals a large enough request; the flag is raised exactly when the width changes, and an unchanged width leaves the table alone |
| Setters.SetHeight | src/Table.ts:769-784 | the row-wise mirror of `Setters.SetWidth` |
| Setters.SetWidthValid | src/Table.ts:787-803 | assigning the width keeps a valid table valid |
| Setters.SetHeightValid | src/Table.ts:769-784 | assigning the height keeps a valid table valid |
| Setters.SetWidthTwice | src/Table.ts:787-803 | assigning the same width again changes nothing and raises no flag |
| Setters.SetHeightTwice | src/Table.ts:769-784 | assigning the same height again changes nothing and raises no flag |
| Geometry.FrameSpans | src/Table.ts:1320-1374 | a cell's width is the sum of its columns' widths and its right edge meets the next column's left; likewise for height and rows |
| Geometry.Frames | src/Table.ts:1320-1374 | every cell, and only the table's cells, gets its frame |
| Geometry.ScanStep | src/Table.ts:1330-1368 | one slot of the scan keeps the invariant: running `left`/`top`, and frames for exactly the cells anchored before the slot |
| Geometry.UpdateCellsGeometry | src/Table.ts:1320-1374 | the loop over rows and columns with running `top` and `left` gives each cell, at its anchor, the frame of the lines it spans, and no other entries |
| Expand.Hull | src/Table.ts:962-992 | the four bound tests of `_addCellToSelection`: the bounds only grow, and they come to contain the cell |
| Expand.Grow | src/Table.ts:957-1008 | the growth of `_currentSelectionBounds`: the result lies in the grid, contains the start, and is merge-closed (every cell touching it lies inside it) |
| Expand.GrowLeast | src/Table.ts:957-1008 | the grown rectangle is the least merge-closed rectangle containing the start |
| Expand.GrowClosed | src/Table.ts:957-1008 | a rectangle that is already merge-closed does not grow |
| Expand.Span | src/Table.ts:463-468 | the corners normalised with `Math.min`/`Math.max`: both corners lie inside, and each bound is one of the corners' coordinates |
| Expand.RangeRect | src/Table.ts:462-483 | the rectangle `selectRange` ends with: in the grid, merge-closed, containing both corners |
| Expand.MeetsClosed | src/Table.ts:957-994 | a cell touching a merge-closed rectangle lies wholly inside it |
| Expand.RectIds | src/Table.ts:476-480 | the ids met in the scan of a rectangle are cells touching it, and every slot's id is met |
| Expand.RangeSelection | src/Table.ts:476-481 | the pushed cells, each once: exactly the cells lying inside the closed rectangle |
| Expand.SelectRange | src/Table.ts:462-483 | `selectRange`: only the selection changes; it is sound; a cell is selected exactly when it lies inside the grown rectangle |
| Expand.SelectRangeSymmetric | src/Table.ts:463-468 | the order of the two corners makes no difference |
| Expand.SelectRangeBounds | src/Table.ts:383-400 | the bounds of a range selection are exactly the grown rectangle |
| Selection.FoldMin | src/Table.ts:385-388 | the `reduce` for the smallest value: at most every value and the start, and equal to one of them |
| Selection.FoldMax | src/Table.ts:389-396 | the `reduce` for the largest value: at least every value and the start, and equal to one of them |
| Selection.SelectionBounds | src/Table.ts:383-400 | `getSelectionBounds`: null exactly for an empty selection; otherwise width and height agree with the corners and every selected cell lies inside |
| Selection.SelectionBoundsTight | src/Table.ts:383-400 | each of the four bounds is reached by some selected cell |
| Selection.BoundsInGrid | src/Table.ts:383-400 | the bounds of a non-empty selection lie inside the grid |
| Selection.MergeableSpansSeveralSlots | src/Table.ts:649-651 | a selection of more than one cell spans more than one slot |
| Selection.IsSelectionUnmergeable | src/Table.ts:654-656 | true exactly when some selected cell spans more than one slot |
| Selection.IsInsertColumnAvailable | src/Table.ts:659-664 | true exactly when the selection is non-empty and every selected cell is anchored in the first one's column; then that column is the bounds' left |
| Selection.IsInsertRowAvailable | src/Table.ts:667-672 | the row-wise mirror of `Selection.IsInsertColumnAvailable` |
| Selection.IsRemoveColumnAvailableAsWritten | src/Table.ts:675-681 | the check as written: a non-empty selection whose number of columns differs from the number of rows |
| Selection.IsRemoveColumnAvailable | src/Table.ts:675-681 | the check as intended: a non-empty selection that leaves at least one column |
| Selection.IsRemoveRowAvailable | src/Table.ts:684-690 | a non-empty selection that leaves at least one row |
| Selection.RemoveColumnCheckLetsAllThrough | src/Table.ts:678 | a valid one-row, two-column table with both cells selected: the written check offers to remove every column, the intended one refuses |
| Drag.Anchor | src/Table.ts:1333 | a cell's anchor slot lies in the grid and holds the cell |
| Drag.SetSelection | src/Table.ts:417-421 | `setSelection`: the selection becomes the given cells and nothing else changes |
| Drag.ClearSelection | src/Table.ts:424-431 | `clearSelection`: the selection becomes empty and nothing else changes |
| Drag.SelectCell | src/Table.ts:434-436 | `selectCell`: the selection becomes the single cell covering the slot, and nothing else changes |
| Drag.SelectionBegin | src/Table.ts:904-912 | `selectionBegin`: the cell becomes the selection and the drag begins and ends at it |
| Drag.SelectionProcess | src/Table.ts:915-922 | `_selectionProcess`: nothing outside a drag or over the last cell reached; otherwise the change fires, the cell becomes the last reached, and the selection becomes exactly the cells inside the range from the first cell |
| Drag.SelectionFinish | src/Table.ts:925-932 | `selectionFinish`: no drag is in progress afterwards |
| Drag.SelectRangeSingle | src/Table.ts:904-912 | the range from a cell to itself selects exactly that cell |
| Drag.ProcessStep | src/Table.ts:915-922 | one drag step from the range to `l` reaching `id` gives the range to `id`, reporting a change unless `id` is `l` |
| Drag.SweepEnds | src/Table.ts:904-922 | whatever path the pointer takes, the selection during a drag is the range from the first cell to the last cell reached |
| Drag.ProcessTwice | src/Table.ts:915-922 | reaching the same cell twice in a row changes nothing the second time |
| Insert.ExpandedByColumnCrosses | src/Table.ts:500-512 | the slot test of `insertColumn` (left and right neighbours are the same cell) holds exactly when that cell's span crosses the insertion point, and the expanded cells are exactly the crossing ones |
| Insert.ColumnSlots | src/Table.ts:494-526 | the matrix after `insertColumn`: slots before `p` kept, slots after it shifted right, and the new slot holding the shared neighbour or a fresh cell |
| Insert.ColumnCells | src/Table.ts:494-526 | the cells after `insertColumn`: each old cell widened if it crossed `p` and shifted if anchored at or after it; one fresh 1x1 empty cell per row that did not absorb the new slot, and no other new cell |
| Insert.InsertColumnSettled | src/Table.ts:494-526 | the settled table is valid, and the width grows by the new column's width unless it is appended below the minimum |
| Insert.InsertColumn | src/Table.ts:494-526 | `insertColumn`: valid; one more column; rows and selection kept; slots and cells as described; other columns keep sizes and header flags in order; the new column is no header and has the given width unless appended below the minimum |
| Insert.AppendColumn | src/Table.ts:494 | `insertColumn()` with its defaults: a column as wide as the last, at the right edge, adding its width |
| Insert.ExpandedByRowCrosses | src/Table.ts:535-546 | the row-wise mirror of `Insert.ExpandedByColumnCrosses` |
| Insert.RowSlots | src/Table.ts:529-558 | the matrix after `insertRow`, the row-wise mirror of `Insert.ColumnSlots` |
| Insert.RowCells | src/Table.ts:529-558 | the cells after `insertRow`, the row-wise mirror of `Insert.ColumnCells` |
| Insert.InsertRowSettled | src/Table.ts:529-558 | the row-wise mirror of `Insert.InsertColumnSettled` |
| Insert.InsertRow | src/Table.ts:529-558 | `insertRow`, the row-wise mirror of `Insert.InsertColumn` |
| Insert.AppendRow | src/Table.ts:529 | `insertRow()` with its defaults: a row as tall as the last, at the bottom, adding its height |
| Delete.SpansPositive | src/Table.ts:1412-1446 | every cell of a sound matrix spans at least one column and one row |
| Delete.ColumnFates | src/Table.ts:1412-1446 | the cells `_deleteColumn` visits are exactly those covering the column; the slot tests `left === mid` and `right === mid` decide by geometry whether a cell shrinks, is re-anchored or is deleted |
| Delete.SlotsLessColumn | src/Table.ts:1440-1444 | every row of the matrix without the removed slot, the others in order |
| Delete.CellsLessColumn | src/Table.ts:1412-1446 | the surviving cells are those not wholly in the column, each narrowed or shifted left |
| Delete.DeleteColumnMatrixValid | src/Table.ts:1412-1446 | `_deleteColumn` keeps a sound matrix sound: every remaining slot holds a known cell that covers it, and every cell fits the smaller grid |
| Delete.DeleteColumnRawSound | src/Table.ts:1412-1446 | after `_deleteColumn` and before the columns are settled, the matrix, selection and rows stay sound and the recorded width is still the column total |
| Delete.DeleteColumnKeeps | src/Table.ts:452-459 | removing a column and settling leaves rows and height alone, gives the matrix without the column's slots and the surviving cells narrowed or shifted, and takes the destroyed cells out of the selection |
| Delete.DeleteColumnSettled | src/Table.ts:452-459 | after one removal and settling the table is valid, and the width loses the column's width unless the new last column was raised |
| Delete.DeleteColumn | src/Table.ts:452-459 | `deleteColumn`: valid; one column fewer; rows and height kept; slots, cells and selection as described; width drops by the column's width unless the new last column was raised |
| Delete.DeleteColumnCells | src/Table.ts:1412-1446 | a cell is deleted exactly when its only column is the removed one, and it leaves the selection; every other cell survives narrowed or shifted; no cell is created |
| Delete.DeleteColumnLines | src/Table.ts:452-459 | the other columns keep widths and header flags in order, except that a new last column below the minimum is raised |
| Delete.DeleteColumnsDown | src/Table.ts:440-445 | the loop from `x2` down to `x`: those columns leave the ledger and every row of the matrix, and the other columns keep their widths in order |
| Delete.ColumnsRemovedStep | src/Table.ts:440-445 | removing the last column of a run and then the rest does to a cell what removing the whole run does |
| Delete.DeleteColumnsDownCells | src/Table.ts:440-445 | the loop deletes exactly the cells lying wholly within the columns, which leave the selection, and every other cell loses those columns from its span and shifts |
| Delete.DeleteColumnsDownLedger | src/Table.ts:440-446 | the loop drops the width by the removed widths, and its last column is the old last, or the one before the run when the run ended the table |
| Delete.DeleteSelectedColumns | src/Table.ts:439-449 | `deleteSelectedColumns`: valid; the bounds' columns leave the ledger and every row; cells inside them are destroyed and leave the selection, others lose those columns; the width drops by their widths unless the new last column was raised |
| Delete.SelectedBounds | src/Table.ts:383-400 | the bounds of a non-empty selection, which lie in the grid |
| Delete.DeleteColumnsRange | src/Table.ts:439-449 | removing a run of columns and settling: the same outcome as `Delete.DeleteSelectedColumns`, for any run that leaves a column |
| Delete.RowFates | src/Table.ts:1449-1479 | the row-wise mirror of `Delete.ColumnFates` |
| Delete.SlotsLessRow | src/Table.ts:1474-1477 | the matrix without the removed row |
| Delete.CellsLessRow | src/Table.ts:1449-1479 | the row-wise mirror of `Delete.CellsLessColumn` |
| Delete.DeleteRowMatrixValid | src/Table.ts:1449-1479 | the row-wise mirror of `Delete.DeleteColumnMatrixValid` |
| Delete.DeleteRowRawSound | src/Table.ts:1449-1479 | the row-wise mirror of `Delete.DeleteColumnRawSound` |
| Delete.DeleteRowKeeps | src/Table.ts:326-333 | the row-wise mirror of `Delete.DeleteColumnKeeps` |
| Delete.DeleteRowSettled | src/Table.ts:326-333 | the row-wise mirror of `Delete.DeleteColumnSettled` |
| Delete.DeleteRow | src/Table.ts:326-333 | `deleteRow`, the row-wise mirror of `Delete.DeleteColumn` |
| Delete.DeleteRowCells | src/Table.ts:1449-1479 | the row-wise mirror of `Delete.DeleteColumnCells` |
| Delete.DeleteRowLines | src/Table.ts:326-333 | the row-wise mirror of `Delete.DeleteColumnLines` |
| Delete.DeleteRowsDown | src/Table.ts:314-319 | the loop of `deleteSelectedRows`, the row-wise mirror of `Delete.DeleteColumnsDown` |
| Delete.RowsRemovedStep | src/Table.ts:314-319 | the row-wise mirror of `Delete.ColumnsRemovedStep` |
| Delete.DeleteRowsDownCells | src/Table.ts:314-319 | the row-wise mirror of `Delete.DeleteColumnsDownCells` |
| Delete.DeleteRowsDownLedger | src/Table.ts:314-320 | the row-wise mirror of `Delete.DeleteColumnsDownLedger` |
| Delete.DeleteSelectedRows | src/Table.ts:313-323 | `deleteSelectedRows`, the row-wise mirror of `Delete.DeleteSelectedColumns` |
| Delete.DeleteRowsRange | src/Table.ts:313-323 | the row-wise mirror of `Delete.DeleteColumnsRange` |
| Merge.Join | src/Table.ts:353 | `Array.prototype.join`: empty for no parts, the part itself for one, and the first part leads |
| Merge.AwayTexts | src/Table.ts:341-352 | the texts the merge loop pushes are all non-empty |
| Merge.AwayTextsSound | src/Table.ts:341-352 | every pushed text is the text of a deleted cell |
| Merge.AwayTextsComplete | src/Table.ts:341-352 | every deleted cell with text, anchored later in the column-major scan, contributes its text |
| Merge.MergedSlots | src/Table.ts:341-352 | every slot of the bounds holds the kept cell, every other slot is unchanged |
| Merge.MergedCells | src/Table.ts:336-353 | the kept cell spans the bounds and carries the merged text; the cells anchored elsewhere in the bounds are gone; the rest are unchanged |
| Merge.MergeGeometry | src/Table.ts:337-338 | the top-left slot of a merge-closed rectangle is its cell's anchor, and a cell is anchored in it exactly when it lies inside it |
| Merge.MergeRectValid | src/Table.ts:336-357 | merging a merge-closed rectangle keeps the table valid |
| Merge.MergeSelection | src/Table.ts:336-357 | `mergeSelection`: valid; lines, width and height kept; every slot of the bounds holds the top-left cell, every other slot is unchanged; the selection is that cell alone |
| Merge.MergeSelectionCells | src/Table.ts:336-357 | the top-left cell spans the bounds with the merged text, the other cells inside the bounds are gone, and every cell outside is untouched |
| Merge.MergeKeepsTexts | src/Table.ts:341-353 | the merged text is the top-left cell's text joined with spaces to the collected texts, which are exactly the non-empty texts of the deleted cells |
| Merge.MergedTextLeadingSpace | src/Table.ts:341-353 | an empty top-left text still takes the first place: merging in "b" gives " b" |
| Merge.FreshIdSlot | src/Table.ts:1119-1173 | each slot gets its own fresh id, below the grid's limit, from which the slot can be recovered |
| Merge.FreshSlotId | src/Table.ts:1119-1173 | every id from `nextId` on is the fresh id of its slot |
| Merge.SplitSlots | src/Table.ts:362-373 | after the split, a vacated slot holds its new cell and every other slot holds its old cell |
| Merge.SplitCells | src/Table.ts:362-373 | a split cell shrinks to its anchor slot, each vacated slot gets a new empty 1x1 cell, and the other cells are unchanged |
| Merge.Split | src/Table.ts:362-373 | the split changes neither lines, sizes, selection nor configuration |
| Merge.SplitValid | src/Table.ts:362-373 | the split keeps the table valid |
| Merge.SplitContents | src/Table.ts:362-373 | each slot then holds a one-slot cell of its own where a selected spanning cell covered it (with that cell's text at the anchor, none elsewhere), and its old cell otherwise |
| Merge.UnmergeSelection | src/Table.ts:360-380 | `unmergeSelection`: the table stays valid and its lines, width and height do not change |
| Merge.UnmergeContents | src/Table.ts:360-380 | what each slot holds after `unmergeSelection`, as in `Merge.SplitContents` |
| Merge.UnmergeSelects | src/Table.ts:376 | the new selection is exactly the cells inside the range grown from the old bounds' corners, which covers the old bounds |
| Merge.UnmergeOne | src/Table.ts:360-380 | unmerging one selected cell splits it into one-slot cells, the anchor keeping the text, and leaves every other slot alone |
| Merge.MergeThenUnmerge | src/Table.ts:336-380 | unmerging right after a merge splits the merged rectangle into one-slot cells, the top-left one carrying the merged text, and leaves every other slot as before the merge |
| Layout.Footprint | src/Table.ts:1155 | the slots a cell takes are exactly those of its rectangle |
| Layout.Create | src/Table.ts:1119-1173 | `_createCell` on the matrix: the new cell is appended with its spans (`colspan || 1`) and text, and takes every slot of its rectangle, over whatever held it |
| Layout.NextFree | src/Table.ts:750-752 | the `while` loop: the first free slot of the row at or after the cursor |
| Layout.ColReach | src/Table.ts:1129-1134 | the column just past the rightmost created cell, reached by some cell |
| Layout.RowReach | src/Table.ts:1149-1154 | the row just past the lowest created cell, reached by some cell |
| Layout.RebuiltSound | src/Table.ts:741-766 | the table `__setcells` leaves for a tiling layout: sound matrix; lines grown by minimum-size lines where the cells reach past them; each slot holds the cell laid there under a fresh id; selection empty; width and height kept |
| Layout.RebuiltValid | src/Table.ts:741-766 | with no line added, a valid table stays valid |
| Layout.SetCells | src/Table.ts:741-766 | `__setcells`: succeeds exactly when the layout tiles the grown grid, and then holds what `Layout.RebuiltSound` states |
| Layout.LayRowsRebuilds | src/Table.ts:747-758 | laying out, row by row, the data `getCells` wrote rebuilds every cell |
| Layout.LayoutRebuilds | src/Table.ts:747-758 | laying out what `getCells` wrote tiles the grid and puts in each slot the cell the table had there |
| Layout.LaidWithin | src/Table.ts:1129-1154 | a layout tiling the grid as it is adds no lines |
| Layout.SetCellsGetCells | src/Table.ts:741-766 | the round trip: setting the cells `getCells` wrote gives a valid table with the same cell in each slot, which writes out to the same data |
| Layout.WideCellLayout | src/Table.ts:747-758 | a single cell two columns wide is laid out at the origin over the first two slots |
| Layout.SetCellsGrows | src/Table.ts:1129-1134 | a one-column table given a cell two columns wide gains a column of the minimum width, and the new cell fills both slots |
| Resize.Begin | src/Table.ts:1195-1199 | `columnResizingBegin`: the resize tracks the line, starting from its size |
| Resize.Edge | src/Table.ts:1220-1235 | the far edge follows the pointer but not below the lowest edge position |
| Resize.Stretch | src/Table.ts:1220-1235 | one drag step: as many lines with the same indices and header flags; the event fires exactly when the dragged line's size changed |
| Resize.Finish | src/Table.ts:1238-1249 | `columnResizingFinish`: no resize in progress afterwards, and a modification only if one was in progress |
| Resize.StretchSizes | src/Table.ts:1220-1235 | the dragged line's far edge lands on the pointer, or the line takes the minimum when the pointer is too near; no other size changes |
| Resize.StretchReady | src/Table.ts:1220-1235 | a drag step keeps the ledger consistent and the resize tracking its line |
| Resize.StretchTwice | src/Table.ts:1220-1235 | a second step to the same pointer position changes nothing and fires nothing |
| Resize.StretchMonotone | src/Table.ts:1220-1235 | dragging further never makes the line smaller |
| Resize.ReturnUnmodified | src/Table.ts:1238-1249 | dragging back to the starting edge makes finishing report no modification |
| Resize.BeginFinish | src/Table.ts:1195-1249 | finishing right after beginning reports no modification |
| Resize.ColumnResizingBegin | src/Table.ts:1195-1199 | `columnResizingBegin` on a column: tracks the column from its width |
| Resize.RowResizingBegin | src/Table.ts:1176-1182 | `rowResizingBegin` on a row: tracks the row from its height |
| Resize.ColumnResizing | src/Table.ts:1220-1235 | `columnResizing`: only columns and width change; the event fires exactly when the column's width changed |
| Resize.RowResizing | src/Table.ts:1202-1217 | the row-wise mirror of `Resize.ColumnResizing` |
| Resize.ColumnResizingFinish | src/Table.ts:1238-1249 | `columnResizingFinish`: the `modified` event fires exactly when the column's width differs from its width at the start |
| Resize.RowResizingFinish | src/Table.ts:1252-1263 | the row-wise mirror of `Resize.ColumnResizingFinish` |
| Resize.ColumnResizingValid | src/Table.ts:1220-1235 | a drag step keeps a valid table valid and the resize tracking its column |
| Resize.RowResizingValid | src/Table.ts:1202-1217 | the row-wise mirror of `Resize.ColumnResizingValid` |
| Resize.ColumnResizingWidth | src/Table.ts:1220-1235 | the column's width becomes the pointer's distance from its left, at least the minimum; the others are unchanged; the table width changes by the same amount |
| Resize.RowResizingHeight | src/Table.ts:1202-1217 | the row-wise mirror of `Resize.ColumnResizingWidth` |
| Options.Keys | src/ObjectOptions.ts:5 | the keys of an options object, in order |
| Options.Lookup | src/ObjectOptions.ts:7 | `options[key]`: the entry's value, the only one when keys are distinct |
| Options.Unlisted | src/ObjectOptions.ts:5-9 | the first loop: entries whose keys are not in `propertyApplyOrder`, in the options' order |
| Options.UnlistedKeeps | src/ObjectOptions.ts:5-9 | every unlisted entry is applied by the first loop |
| Options.Listed | src/ObjectOptions.ts:10-16 | the second loop: for each listed key the options name, that entry |
| Options.ListedKeeps | src/ObjectOptions.ts:10-16 | every listed entry is applied by the second loop |
| Options.ListedFollowsOrder | src/ObjectOptions.ts:10-16 | the second loop applies keys in `propertyApplyOrder`'s order |
| Options.ListedOrderFree | src/ObjectOptions.ts:10-16 | the second loop does not depend on the options' key order |
| Options.Schedule | src/ObjectOptions.ts:3-17 | `setOptions`' order: every applied entry comes from the options, and no unlisted key comes after a listed one |
| Options.ScheduleOnce | src/ObjectOptions.ts:3-17 | with distinct keys every entry is applied exactly once |
| Options.ScheduleOrderFree | src/ObjectOptions.ts:3-17 | when every key is listed, the options' own key order makes no difference |
| Options.ScheduleAllListed | src/ObjectOptions.ts:3-17 | when every key is listed, each entry is applied once, in the listed order |
| Options.Unflipped | src/ObjectOptions.ts:68-75 | a negative scale toggles the flip and is stored as its positive magnitude |
| Options.SetProp | src/ObjectOptions.ts:61-102 | `_set`: a plain key takes the value and nothing else but `dirty` changes; a changed cached property marks the object dirty; a negative `scaleX` toggles `flipX` and is stored negated |
| Options.SetPropTwice | src/ObjectOptions.ts:61-102 | setting a plain property to the same value twice is the same as once |
| Options.NegativeScaleTwice | src/ObjectOptions.ts:68-75 | setting the same negative scale twice flips twice, back to the start |
| Options.Guarded | src/ObjectOptions.ts:36-41 | the guard: `onSet` is entered at most once, exactly when present and not already running, with the guard raised, and the guard is cleared afterwards |
| Options.Set | src/ObjectOptions.ts:25-43 | `set`: `onSet` is entered exactly when present and not running, at most once, and the guard is clear afterwards |
| Options.SetOptions | src/ObjectOptions.ts:44-55 | `setOptions`: the same guard around the whole batch |
| Options.NestedSetSkipsOnSet | src/ObjectOptions.ts:36 | a `set` issued while `onSet` runs does not enter it again and leaves the guard raised |
| Options.OutermostSetOnce | src/ObjectOptions.ts:25-43 | an outermost `set` enters `onSet` once, and every `set` inside it skips `onSet` |
| Options.Dataless | src/ObjectOptions.ts:104-124 | `toDatalessObject`: `version` dropped, `type` always kept, values kept unchanged, and another property kept exactly when it differs from its fallback |
| Options.DatalessRestores | src/ObjectOptions.ts:104-124 | every property but `version` is either kept or equal to its fallback, so it can be restored |
| Options.DatalessIdempotent | src/ObjectOptions.ts:104-124 | filtering twice is filtering once |
| Coordinator.OnSet | src/Table.ts:160-191 | `onSet`: nothing happens unless a flag is raised; otherwise no flag is raised afterwards, the passes run are those of the raised flags, in order, then geometry, and `cells` reads the matrix whichever flag was raised |
| Coordinator.PassesFor | src/Table.ts:166-189 | the passes, strictly in the fixed order: columns exactly when its flag is up, likewise rows and cells, and geometry last |
| Coordinator.RunPasses | src/Table.ts:166-189 | the dirty `onSet`: flags cleared; matrix and selection kept; every cell has its frame; a columns pass makes offsets current and publishes the widths as they were before the clamp; likewise rows; `cells` is republished from the matrix even when its flag was down |
| Coordinator.GeometryOf | src/Table.ts:1320-1374 | the geometry pass: every cell of the matrix gets its frame and `cells` is published from the matrix; nothing else changes |
| Coordinator.GeometryRepublishesCells | src/Table.ts:185-186 | a host with only the column flag up and an empty `cells` ends `onSet` with `cells` reading the matrix's one row |
| Coordinator.ColumnsPassOf | src/Table.ts:166-171 | the columns pass as written: the table is settled, `columns` is published from the widths before the width setter's clamp, and so matches the columns when the last width already met the minimum |
| Coordinator.RowsPassOf | src/Table.ts:173-178 | the row-wise mirror of `Coordinator.ColumnsPassOf` |
| Coordinator.ColumnsPublishedStale | src/Table.ts:1398 | the columns pass as written, on a table whose last column is below the minimum, leaves `columns` reading 10 where the column is 30 |
| Coordinator.ColumnsPassRepublished | src/Table.ts:166-171 | the columns pass as intended: the same settled table, with `columns` reading every column's final width and header flag |
| Coordinator.RepublishedAsWritten | src/Table.ts:166-171 | the written and intended passes agree exactly when the clamp leaves the last column's width alone |
| Coordinator.RowsPublishedStale | src/Table.ts:1408 | the rows pass as written, on a table whose last row is below the minimum, leaves `rows` reading 5 where the row is 20 |
| Coordinator.RowsPassRepublished | src/Table.ts:173-178 | the rows pass as intended: the same settled table, with `rows` reading every row's final height and header flag |
| Coordinator.RowsRepublishedAsWritten | src/Table.ts:173-178 | the written and intended rows passes agree exactly when the clamp leaves the last row's height alone |
| Coordinator.ColumnsPassSettles | src/Table.ts:166-171 | the columns pass leaves the column part clean, with every width unchanged |
| Coordinator.RowsPassSettles | src/Table.ts:173-178 | the rows pass leaves the row part clean, with every height unchanged |
| Coordinator.CellsPassSettles | src/Table.ts:180-189 | with the lines clean, the cells and geometry passes settle the host |
| Coordinator.OnSetSettles | src/Table.ts:160-191 | from what the setters leave (a sound matrix and selection, ready line sets, and, on a clean host only, current `cells` and frames), `onSet` succeeds and reaches a settled host: published properties agree with the grid, the grid is valid, nothing pending |
| Coordinator.SettledPending | src/Table.ts:160-164 | a settled host is already what `onSet` expects |
| Coordinator.Apply | src/Table.ts:699-803 | a grid setter never lowers a flag and never touches the published properties; width and height always apply |
| Coordinator.SetColumns | src/Table.ts:699-717 | `__setcolumns`: succeeds exactly when the lines can be set; then only the columns change, the selection is cleared and the column flag is raised |
| Coordinator.SetRows | src/Table.ts:720-738 | the row-wise mirror of `Coordinator.SetColumns` |
| Coordinator.SetCellsOf | src/Table.ts:741-766 | `__setcells`: succeeds exactly when the layout tiles the grown grid; then the matrix is sound, the selection empty, lines only grow (by minimum-size lines), width and height are not touched, and only the cell flag is raised |
| Coordinator.SetWidthOf | src/Table.ts:787-803 | `__setwidth`: only columns, width and the column flag change; with columns the flag is raised exactly when the width changes; without them the width is held at the minimum column width |
| Coordinator.SetHeightOf | src/Table.ts:769-784 | the row-wise mirror of `Coordinator.SetWidthOf` |
| Coordinator.SetCellsPending | src/Table.ts:741-766 | assigning the cells leaves the host ready for `onSet`, unless the layout grows a line set whose flag is down |
| Coordinator.SetWidthPending | src/Table.ts:787-803 | assigning the width leaves the host ready for `onSet` |
| Coordinator.SetHeightPending | src/Table.ts:769-784 | assigning the height leaves the host ready for `onSet` |
| Coordinator.SetColumnsPending | src/Table.ts:699-717 | assigning as many columns, the last at least the minimum, leaves the host ready for `onSet` |
| Coordinator.SetRowsPending | src/Table.ts:720-738 | the row-wise mirror of `Coordinator.SetColumnsPending` |
| Coordinator.ApplyEntries | src/ObjectOptions.ts:10-16 | a batch of grid setters never lowers a flag and never touches the published properties |
| Coordinator.TableSetOptions | src/ObjectOptions.ts:44-55 | the table's `setOptions`: after the batch and `onSet`, no flag is raised |
| Coordinator.TableSchedule | src/Table.ts:104 | the grid properties are all listed in `propertyApplyOrder`, so a batch applies exactly its values in the order columns, rows, cells, width, height |
| Coordinator.TableOrderDistinct | src/Table.ts:104 | `propertyApplyOrder` names each property once |
| Coordinator.TableSetOptionsOrderFree | src/Table.ts:104 | the order in which the grid values are given makes no difference |

## Left out

- Rendering and fabric primitives are not modelled: cell fills and borders, text objects, controls, hover, `_refillCells` (it only restyles cells), canvas redraws, pointer and zoom handling. The geometry pass is modelled as the frames it computes.
- Events (`modified`, `selection:*`, `column`, `row`) are not modelled as events. Where an operation decides whether one fires, the model returns that as a flag.
- Sizes are integers. The source's numbers are floating point; no fractional sizes are modelled.
- The constructor's default-options loop is not modelled; a table is any `Grid.Valid` state. Also left out: `setHeaderColumn`/`setHeaderRow`, `setCellText`, the undo mixin and the cell controls. None of them belongs to the grid engine's matrix or ledger.
- `getCells` options (`includeAll`, `includePosition`, offsets, sizes, coordinates) are not modelled; only the default output is.
- Text is modelled without the distinction between absent text and `""`. The source treats both alike.
- Options.SetProp: group dirtiness, shadows and gradients of `_set` are not modelled. `_constrainScale` and the setters are parameters, because they belong to the object, not to the mixin.
- Layout.SetCells: a layout whose cells overlap, or leave holes in the grown grid, is a `Failure`. The source overwrites the overlapped slots and leaves holes. New lines get offset 0 until the next columns pass, and the recorded width and height are not updated (the source's own updates are commented out).
- Coordinator.SetCellsOf: the same restriction as `Layout.SetCells`. It also fails when the existing lines are not numbered contiguously, which a table never produces.
- Coordinator.SetCellsPending: readiness is promised only when no line set grows while its flag is down. When one does grow, the published `columns`/`rows` and the recorded width/height stay stale, because `__setcells` does not refresh them and the flag that would make `onSet` do so is down.
- Expand.RangeSelection: the model lists the selected cells in column-major slot order. The source pushes them in the order its recursive growth meets them. Only the set of selected cells is promised, not the order of the `selection` array.
- Expand.SelectRange: the same as `Expand.RangeSelection`: same cells, not the same push order.
- Merge.UnmergeSelection: requires a non-empty selection. On an empty one the source throws while reading the bounds of `null`.
- Merge.UnmergeContents: requires a non-empty selection, as `Merge.UnmergeSelection` does.
- Merge.MergeSelection: requires a valid table and a non-empty, merge-closed selection (`MergeReady`), as `selectRange` leaves it. The source does not check this; on other selections it produces an unsound matrix, which the model does not represent.
- Delete.DeleteColumn: requires at least two columns and a position inside the table. Removing the only column leaves an empty grid, which the model does not represent. At any other position `_deleteColumn` finds no cells to visit and then throws reading the width of the missing column (src/Table.ts:1441).
- Delete.DeleteRow: requires at least two rows, for the same reason, and a position inside the table. At any other position `_deleteRow` throws on its first read of the missing row of the matrix (src/Table.ts:1454).
- Drag.SelectCell: requires the slot to lie in the grid. Outside it the source throws for a row past the matrix, and selects `undefined` for a column past its row (src/Table.ts:435); the model has no selection entry standing for no cell.
- Delete.DeleteSelectedColumns: requires `IsRemoveColumnAvailable` (a non-empty selection that leaves a column), the check the context menu evidently intends (see Findings). On an empty selection the source throws.
- Delete.DeleteSelectedRows: requires `IsRemoveRowAvailable`, for the same reasons.
- Setters.SetLines: a new line whose entry gives no size is a `Failure`. In the source its width would be `undefined`.
- Coordinator.SetColumns: fails exactly when `Setters.SetLines` does.
- Coordinator.SetRows: fails exactly when `Setters.SetLines` does, that is on a new row entry without a height, where the source stores `undefined`.
- Coordinator.OnSet: on a dirty host with an unsound matrix, the result is a `Failure`; the passes are defined only on a sound matrix.
- Coordinator.SetWidthOf: treats an empty column list like an absent one. In the source, `_cols = []` is truthy, so `__setwidth` takes the first branch and throws on `_cols[-1]`.
- Coordinator.SetHeightOf: treats an empty row list like an absent one, where the source throws, as for `Coordinator.SetWidthOf`.
- Insert.InsertColumn: `position` and `width` are given explicitly; only `Insert.AppendColumn` models the defaults. Positions outside 0 to the column count are excluded by the precondition.
  - A negative position throws at once, on `this._cols[-1]` (src/Table.ts:496-497).
  - A position past the end corrupts the table. The new column is appended with `position` as its index. Each row gets `null` at the old end. `_createCell` then pushes a second column and writes the cell at `position`, leaving a hole in every row (src/Table.ts:500-516, 1132-1134, 1152-1155).
- Insert.InsertRow: `position` and `height` are given explicitly; only `Insert.AppendRow` models the defaults. Positions outside 0 to the row count are excluded by the precondition.
  - A negative position throws at once, on `this._rows[-1]` (src/Table.ts:530-531).
  - A position one past the end leaves an empty row `[]` at the old end, and the new cells go into a second pushed row (src/Table.ts:534-546, 1129-1130, 1146-1155).
  - Any larger position throws reading `this._cells[position - 1][x]` (src/Table.ts:538).

## Findings

| source | as written | input that shows it | evidently intended | confidence | as-written member | corrected member |
|---|---|---|---|---|---|---|
| src/Table.ts:678 | `isRemoveColumnAvailableForSelection` compares `this._rows.length` with the selection's column count `bounds.w` | a one-row table of two 100-wide columns with both cells selected: 1 row differs from 2 selected columns, so removing every column is offered | compare the column count with `bounds.w`, as the row check does with rows, so that at least one column remains | not executed | Selection.IsRemoveColumnAvailableAsWritten, Selection.RemoveColumnCheckLetsAllThrough | Selection.IsRemoveColumnAvailable |
| src/Table.ts:1398 | `_updateColumns` publishes `columns` before `_updateTableWidth`'s clamp can widen the last column; the nested `set` skips `onSet`, so `columns` is never refreshed (likewise `rows` at line 1408) | columns of widths 100 and 10, minimum column width 30, recorded width 200: the last column becomes 30 while `columns` still reads 10; likewise rows of heights 40 and 5 with minimum row height 20 leave `rows` reading 5 | publish `columns` (`rows`) once the width (height) has settled, so that it always reads the lines' sizes | not executed | Coordinator.ColumnsPassOf, Coordinator.ColumnsPublishedStale, Coordinator.RowsPassOf, Coordinator.RowsPublishedStale | Coordinator.ColumnsPassRepublished, Coordinator.RepublishedAsWritten, Coordinator.RowsPassRepublished, Coordinator.RowsRepublishedAsWritten |

The first finding: the rest of the model uses the corrected check as the precondition of `Delete.DeleteSelectedColumns`.

The second finding: `Coordinator.OnSet` keeps the behaviour as written, because the stale `columns` and `rows` values are observable. The states `onSet` is proved to settle (`Coordinator.OnSetSettles`) never trigger the clamp. On those states the written and intended passes agree, for columns by `Coordinator.RepublishedAsWritten` and for rows by `Coordinator.RowsRepublishedAsWritten`.

=== FILE: coordinator.dfy ===
/** The table's update coordinator: the grid properties (`columns`, `rows`,
    `cells`, `width`, `height`) are applied by their setters, which only raise
    dirty flags, and `onSet` then runs the pending passes once, in the order
    columns, rows, cells, geometry. */
module Coordinator {
  import opened Wrappers
  import opened Seqs
  import opened Ledger
  import opened Grid
  import opened Serial
  import opened Layout
  import opened Setters
  import opened Geometry
  import opened Options

  /** The table as the coordinator sees it: the grid, the three dirty flags
      (`_columnsmodified`, `_rowsmodified`, `_cellsmodified`), and the published
      properties `columns`, `rows`, `cells` and the cell frames. */
  datatype Host = Host(
    t: Table,
    columnsModified: bool,
    rowsModified: bool,
    cellsModified: bool,
    columns: seq<LineSpec>,
    rows: seq<LineSpec>,
    cells: seq<seq<CellData>>,
    frames: map<CellId, Frame>)

  predicate Dirty(h: Host)
  {
    h.columnsModified || h.rowsModified || h.cellsModified
  }

  /** The passes `onSet` can run. */
  datatype Pass = ColumnsPass | RowsPass | CellsPass | GeometryPass

  /** The position of a pass in `onSet`'s fixed order. */
  function Rank(p: Pass): nat
  {
    match p
    case ColumnsPass => 0
    case RowsPass => 1
    case CellsPass => 2
    case GeometryPass => 3
  }

  /** `onSet`: nothing happens unless a flag is raised; otherwise the pending
      passes run (`RunPasses`), are reported in order (`PassesFor`), and
      leave `cells` reading the matrix. The
      passes are only defined on a sound matrix; on any other the result is an
      error. */
  function OnSet(h: Host): (r: Result<(Host, seq<Pass>), string>)
    ensures !Dirty(h) ==> r == Success((h, []))
    ensures r.Success? <==> !Dirty(h) || MatrixValid(h.t)
    ensures r.Success? ==> !Dirty(r.value.0)
    ensures r.Success? && Dirty(h) ==> r.value.1 == PassesFor(h)
    ensures r.Success? && Dirty(h) ==> MatrixValid(r.value.0.t) && r.value.0.cells == GetCells(r.value.0.t)
  {
    if !Dirty(h) then Success((h, []))
    else if !MatrixValid(h.t) then Failure("the matrix is not sound")
    else Success((RunPasses(h), PassesFor(h)))
  }

  /** The passes a dirty host runs: one per raised flag, in the fixed order,
      then the geometry pass. */
  function PassesFor(h: Host): (ps: seq<Pass>)
    ensures forall i, j | 0 <= i < j < |ps| :: Rank(ps[i]) < Rank(ps[j])
    ensures ColumnsPass in ps <==> h.columnsModified
    ensures RowsPass in ps <==> h.rowsModified
    ensures CellsPass in ps <==> h.cellsModified
    ensures GeometryPass in ps && ps[|ps| - 1] == GeometryPass
  {
    (if h.columnsModified then [ColumnsPass] else [])
    + (if h.rowsModified then [RowsPass] else [])
    + (if h.cellsModified then [CellsPass] else [])
    + [GeometryPass]
  }

  /** The body of a dirty `onSet`: the columns pass settles the column ledger
      (`_updateColumns`, `_updateTableWidth`) and republishes `columns`; the
      rows pass does the same for rows; the cells pass republishes `cells`;
      the geometry pass recomputes every frame and, whichever flags were
      raised, republishes `cells` once more; the flags are cleared. */
  function RunPasses(h: Host): (u: Host)
    requires MatrixValid(h.t)
    ensures !Dirty(u) && MatrixValid(u.t)
    ensures u.t.slots == h.t.slots && u.t.cells == h.t.cells && u.t.selection == h.t.selection
    ensures u.frames.Keys == u.t.cells.Keys
    ensures forall id | id in u.frames :: u.frames[id] == FrameOf(u.t, u.t.cells[id])
    ensures h.columnsModified ==> OffsetsCurrent(u.t.cols) && u.columns == GetLines(h.t.cols)
    ensures h.rowsModified ==> OffsetsCurrent(u.t.rows) && u.rows == GetLines(h.t.rows)
    ensures u.cells == GetCells(u.t)
  {
    var h1 := if h.columnsModified then ColumnsPassOf(h) else h;
    var h2 := if h.rowsModified then RowsPassOf(h1) else h1;
    var h3 := if h.cellsModified then h2.(cells := GetCells(h2.t)) else h2;
    GeometryOf(h3).(columnsModified := false, rowsModified := false, cellsModified := false)
  }

  /** The geometry pass, `_updateCellsGeometry`: every cell gets its frame, and
      `cells` is published from the matrix as it now stands. */
  function GeometryOf(h: Host): (u: Host)
    requires MatrixValid(h.t)
    ensures u == h.(cells := u.cells, frames := u.frames)
    ensures u.frames.Keys == h.t.cells.Keys
    ensures forall id | id in u.frames :: u.frames[id] == FrameOf(h.t, h.t.cells[id])
    ensures u.cells == GetCells(h.t)
  {
    h.(frames := Frames(h.t), cells := GetCells(h.t))
  }

  /** The columns pass: `_updateColumns` recomputes the offsets and publishes
      `columns` from them; `_updateTableWidth` then assigns the width through
      the width setter, whose clamp may widen the last column after `columns`
      was published (the nested `set` does not re-enter `onSet`). So `columns`
      holds the widths as they were before the clamp. */
  function ColumnsPassOf(h: Host): (r: Host)
    requires MatrixValid(h.t)
    ensures MatrixValid(r.t) && r.t == SettleColumns(h.t)
    ensures r == h.(t := r.t, columns := r.columns)
    ensures r.columns == GetLines(h.t.cols)
    ensures h.t.cols[|h.t.cols| - 1].size >= h.t.config.minColumnWidth ==> r.columns == GetLines(r.t.cols)
  {
    var u := SettleColumns(h.t);
    SettleColumnsMatrix(h.t);
    var offsets := UpdateOffsets(h.t.cols);
    GetLinesAlike(offsets, h.t.cols);
    ColumnsSettledPublished(h.t);
    h.(t := u, columns := GetLines(offsets))
  }

  /** The rows pass, the row-wise mirror of `ColumnsPassOf`: `rows` holds the
      heights as they were before the height setter's clamp. */
  function RowsPassOf(h: Host): (r: Host)
    requires MatrixValid(h.t)
    ensures MatrixValid(r.t) && r.t == SettleRows(h.t)
    ensures r == h.(t := r.t, rows := r.rows)
    ensures r.rows == GetLines(h.t.rows)
    ensures h.t.rows[|h.t.rows| - 1].size >= h.t.config.minRowHeight ==> r.rows == GetLines(r.t.rows)
  {
    var u := SettleRows(h.t);
    SettleRowsMatrix(h.t);
    var offsets := UpdateOffsets(h.t.rows);
    GetLinesAlike(offsets, h.t.rows);
    RowsSettledPublished(h.t);
    h.(t := u, rows := GetLines(offsets))
  }

  /** Settling the columns keeps a sound matrix sound. */
  lemma SettleColumnsMatrix(t: Table)
    requires MatrixValid(t)
    ensures MatrixValid(SettleColumns(t))
  {
    assert Contiguous(SettleColumns(t).cols);
  }

  /** Settling the rows keeps a sound matrix sound. */
  lemma SettleRowsMatrix(t: Table)
    requires MatrixValid(t)
    ensures MatrixValid(SettleRows(t))
  {
    assert Contiguous(SettleRows(t).rows);
  }

  /** Settling lines whose last one is at least the minimum leaves what
      `getColumns` writes unchanged. */
  lemma ColumnsSettledPublished(t: Table)
    requires |t.cols| >= 1
    ensures t.cols[|t.cols| - 1].size >= t.config.minColumnWidth ==> GetLines(SettleColumns(t).cols) == GetLines(t.cols)
  {
    if t.cols[|t.cols| - 1].size >= t.config.minColumnWidth {
      GetLinesAlike(SettleColumns(t).cols, t.cols);
    }
  }

  /** The row-wise mirror of `ColumnsSettledPublished`. */
  lemma RowsSettledPublished(t: Table)
    requires |t.rows| >= 1
    ensures t.rows[|t.rows| - 1].size >= t.config.minRowHeight ==> GetLines(SettleRows(t).rows) == GetLines(t.rows)
  {
    if t.rows[|t.rows| - 1].size >= t.config.minRowHeight {
      GetLinesAlike(SettleRows(t).rows, t.rows);
    }
  }

  /** A two-column table whose last column (10) is below the minimum width
      (30) and whose recorded width (200) is stale. */
  function StaleHost(): (h: Host)
    ensures MatrixValid(h.t) && h.columnsModified
  {
    var t := Table([Line(0, 100, false, 0), Line(1, 10, false, 100)], [Line(0, 40, false, 0)],
                   [[0, 0]], map[0 := Cell(0, 0, 2, 1, "")], 1, [], 200, 40, Config(20, 30));
    assert Occupies(t.cells[0], 0, 0) && Occupies(t.cells[0], 1, 0);
    Host(t, true, false, false, [], [], [], map[])
  }

  /** The columns pass as written can leave `columns` out of step with the
      columns: on `StaleHost` the clamp widens the last column to 30 while
      `columns` still says 10. */
  lemma ColumnsPublishedStale()
    ensures var r := ColumnsPassOf(StaleHost());
      && r.t.cols[1].size == 30 && r.columns[1].size == Some(10)
      && r.columns != GetLines(r.t.cols)
  {
    var h := StaleHost();
    var r := ColumnsPassOf(h);
    var u := UpdateOffsets(h.t.cols);
    assert u[0].offset == Total(u[..0]) == 0;
    assert u[..1] == [u[0]] && u[1].offset == Total(u[..1]) == 100;
    assert u == [Line(0, 100, false, 0), Line(1, 10, false, 100)];
    assert u[..|u| - 1] == [u[0]];
    assert r.t.cols[1].size == 30;
    assert GetLines(r.t.cols)[1] != r.columns[1];
  }

  /** The geometry pass republishes `cells` even when only the column flag was
      raised: on `StaleHost`, whose `cells` is empty, `onSet` publishes the
      one row of the matrix. */
  lemma GeometryRepublishesCells()
    ensures var h := StaleHost(); var u := RunPasses(h);
      && !h.cellsModified && h.cells == []
      && u.cells == GetCells(u.t) && |u.cells| == 1
  {
    var u := RunPasses(StaleHost());
    GetCellsAnchors(u.t);
  }

  /** The columns pass as evidently intended: `columns` is published once the
      width has settled, so it always reads what the columns hold. */
  function ColumnsPassRepublished(h: Host): (r: Host)
    requires MatrixValid(h.t)
    ensures r.t == ColumnsPassOf(h).t
    ensures r == h.(t := r.t, columns := r.columns)
    ensures |r.columns| == |r.t.cols|
    ensures forall i | 0 <= i < |r.t.cols| :: r.columns[i].size == Some(r.t.cols[i].size) && r.columns[i].header == r.t.cols[i].header
  {
    var u := ColumnsPassOf(h).t;
    h.(t := u, columns := GetLines(u.cols))
  }

  /** The intended columns pass differs from the written one only when the
      clamp widens the last column. */
  lemma RepublishedAsWritten(h: Host)
    requires MatrixValid(h.t)
    ensures ColumnsPassRepublished(h) == ColumnsPassOf(h) <==>
      ColumnsPassOf(h).t.cols[|h.t.cols| - 1].size == h.t.cols[|h.t.cols| - 1].size
  {
    var r, w := ColumnsPassRepublished(h), ColumnsPassOf(h);
    var n := |h.t.cols|;
    if w.t.cols[n - 1].size == h.t.cols[n - 1].size {
      GetLinesAlike(w.t.cols, h.t.cols);
    } else {
      assert r.columns[n - 1] != w.columns[n - 1];
    }
  }

  /** A one-column table of two rows whose last row (5) is below the minimum
      height (20) and whose recorded height (200) is stale. */
  function StaleRowsHost(): (h: Host)
    ensures MatrixValid(h.t) && h.rowsModified
  {
    var t := Table([Line(0, 100, false, 0)], [Line(0, 40, false, 0), Line(1, 5, false, 40)],
                   [[0], [0]], map[0 := Cell(0, 0, 1, 2, "")], 1, [], 100, 200, Config(20, 30));
    assert Occupies(t.cells[0], 0, 0) && Occupies(t.cells[0], 0, 1);
    Host(t, false, true, false, [], [], [], map[])
  }

  /** The row-wise mirror of `ColumnsPublishedStale`: on `StaleRowsHost` the
      clamp raises the last row to 20 while `rows` still says 5. */
  lemma RowsPublishedStale()
    ensures var r := RowsPassOf(StaleRowsHost());
      && r.t.rows[1].size == 20 && r.rows[1].size == Some(5)
      && r.rows != GetLines(r.t.rows)
  {
    var h := StaleRowsHost();
    var r := RowsPassOf(h);
    var u := UpdateOffsets(h.t.rows);
    assert u[0].offset == Total(u[..0]) == 0;
    assert u[..1] == [u[0]] && u[1].offset == Total(u[..1]) == 40;
    assert u == [Line(0, 40, false, 0), Line(1, 5, false, 40)];
    assert u[..|u| - 1] == [u[0]];
    assert r.t.rows[1].size == 20;
    assert GetLines(r.t.rows)[1] != r.rows[1];
  }

  /** The rows pass as evidently intended: `rows` is published once the
      height has settled, so it always reads what the rows hold. */
  function RowsPassRepublished(h: Host): (r: Host)
    requires MatrixValid(h.t)
    ensures r.t == RowsPassOf(h).t
    ensures r == h.(t := r.t, rows := r.rows)
    ensures |r.rows| == |r.t.rows|
    ensures forall i | 0 <= i < |r.t.rows| :: r.rows[i].size == Some(r.t.rows[i].size) && r.rows[i].header == r.t.rows[i].header
  {
    var u := RowsPassOf(h).t;
    h.(t := u, rows := GetLines(u.rows))
  }

  /** The intended rows pass differs from the written one only when the clamp
      raises the last row. */
  lemma RowsRepublishedAsWritten(h: Host)
    requires MatrixValid(h.t)
    ensures RowsPassRepublished(h) == RowsPassOf(h) <==>
      RowsPassOf(h).t.rows[|h.t.rows| - 1].size == h.t.rows[|h.t.rows| - 1].size
  {
    var r, w := RowsPassRepublished(h), RowsPassOf(h);
    var n := |h.t.rows|;
    if w.t.rows[n - 1].size == h.t.rows[n - 1].size {
      GetLinesAlike(w.t.rows, h.t.rows);
    } else {
      assert r.rows[n - 1] != w.rows[n - 1];
    }
  }

  /** Every published property agrees with the grid, the grid is valid, and no
      pass is pending. */
  ghost predicate Settled(h: Host)
  {
    && Valid(h.t) && !Dirty(h)
    && h.columns == GetLines(h.t.cols) && h.rows == GetLines(h.t.rows)
    && h.cells == GetCells(h.t) && h.frames == Frames(h.t)
  }

  /** What the setters leave for the line passes: a sound matrix and
      selection; for each clean line set, a valid ledger and an up-to-date
      published property; for a dirty line set, a last line at least its
      minimum (so that the width or height pass makes the total the sum
      again). Nothing is asked of `cells`: a dirty `onSet` republishes it in
      the geometry pass whichever flag was raised. */
  ghost predicate Prepared(h: Host)
  {
    MatrixValid(h.t) && SelectionValid(h.t) && ColumnsReady(h) && RowsReady(h)
  }

  /** The column part of `Prepared`. */
  ghost predicate ColumnsReady(h: Host)
  {
    |h.t.cols| >= 1 &&
    if h.columnsModified then h.t.cols[|h.t.cols| - 1].size >= h.t.config.minColumnWidth
    else ColumnLedgerValid(h.t) && h.columns == GetLines(h.t.cols)
  }

  /** The row part of `Prepared`. */
  ghost predicate RowsReady(h: Host)
  {
    |h.t.rows| >= 1 &&
    if h.rowsModified then h.t.rows[|h.t.rows| - 1].size >= h.t.config.minRowHeight
    else RowLedgerValid(h.t) && h.rows == GetLines(h.t.rows)
  }

  /** What the setters leave for `onSet`: prepared, with frames and `cells`
      stale only while something is dirty. */
  ghost predicate Pending(h: Host)
  {
    Prepared(h) && (Dirty(h) || (h.frames == Frames(h.t) && h.cells == GetCells(h.t)))
  }

  /** A settled table is pending nothing. */
  lemma SettledPending(h: Host)
    requires Settled(h)
    ensures Pending(h)
  {
  }

  /** The columns pass leaves the columns clean: the ledger becomes valid with
      the column widths unchanged, and the cells read the same. */
  lemma ColumnsPassSettles(h: Host)
    requires Prepared(h) && h.columnsModified
    ensures Prepared(ColumnsPassOf(h).(columnsModified := false))
    ensures SameSizes(ColumnsPassOf(h).t.cols, h.t.cols)
  {
    SettleColumnsLedger(h.t);
    var u := ColumnsPassOf(h).(columnsModified := false);
    RowsReadyAlike(h, u);
  }

  /** `ColumnsReady` reads only the columns, the width, the configuration, the
      published `columns` and the column flag. */
  lemma ColumnsReadyAlike(h: Host, u: Host)
    requires ColumnsReady(h)
    requires u.t.cols == h.t.cols && u.t.width == h.t.width && u.t.config == h.t.config
    requires u.columns == h.columns && u.columnsModified == h.columnsModified
    ensures ColumnsReady(u)
  {
  }

  /** `RowsReady` reads only the rows, the height, the configuration, the
      published `rows` and the row flag. */
  lemma RowsReadyAlike(h: Host, u: Host)
    requires RowsReady(h)
    requires u.t.rows == h.t.rows && u.t.height == h.t.height && u.t.config == h.t.config
    requires u.rows == h.rows && u.rowsModified == h.rowsModified
    ensures RowsReady(u)
  {
  }

  /** A dirty column part is ready once its last column is at least the
      minimum width. */
  lemma ColumnsReadyDirty(h: Host)
    requires h.columnsModified && |h.t.cols| >= 1
    requires h.t.cols[|h.t.cols| - 1].size >= h.t.config.minColumnWidth
    ensures ColumnsReady(h)
  {
  }

  /** A dirty row part is ready once its last row is at least the minimum
      height. */
  lemma RowsReadyDirty(h: Host)
    requires h.rowsModified && |h.t.rows| >= 1
    requires h.t.rows[|h.t.rows| - 1].size >= h.t.config.minRowHeight
    ensures RowsReady(h)
  {
  }

  /** Settling columns whose last width is at least the minimum: a valid column
      ledger, the widths unchanged, and nothing else changed. */
  lemma SettleColumnsLedger(t: Table)
    requires MatrixValid(t) && t.cols[|t.cols| - 1].size >= t.config.minColumnWidth
    ensures var u := SettleColumns(t);
      && MatrixValid(u) && ColumnLedgerValid(u) && SameSizes(u.cols, t.cols)
      && u == t.(cols := u.cols, width := u.width) && GetCells(u) == GetCells(t)
  {
    var u := SettleColumns(t);
    assert Contiguous(u.cols);
    TotalSameSizes(u.cols, t.cols);
    SameMatrixCells(t, u);
  }

  /** The rows pass on a host whose columns are clean leaves the rows clean. */
  lemma RowsPassSettles(h: Host)
    requires Prepared(h) && !h.columnsModified && h.rowsModified
    ensures Prepared(RowsPassOf(h).(rowsModified := false))
    ensures SameSizes(RowsPassOf(h).t.rows, h.t.rows)
  {
    SettleRowsLedger(h.t);
    var u := RowsPassOf(h).(rowsModified := false);
    ColumnsReadyAlike(h, u);
  }

  /** The row-wise mirror of `SettleColumnsLedger`. */
  lemma SettleRowsLedger(t: Table)
    requires MatrixValid(t) && t.rows[|t.rows| - 1].size >= t.config.minRowHeight
    ensures var u := SettleRows(t);
      && MatrixValid(u) && RowLedgerValid(u) && SameSizes(u.rows, t.rows)
      && u == t.(rows := u.rows, height := u.height) && GetCells(u) == GetCells(t)
  {
    var u := SettleRows(t);
    assert Contiguous(u.rows);
    TotalSameSizes(u.rows, t.rows);
    SameMatrixCells(t, u);
  }

  /** Resizing lines leaves what `getCells` writes unchanged. */
  lemma SameMatrixCells(t: Table, u: Table)
    requires MatrixValid(t) && MatrixValid(u) && u.slots == t.slots && u.cells == t.cells
    requires |u.cols| == |t.cols| && |u.rows| == |t.rows|
    ensures GetCells(u) == GetCells(t)
  {
    GetCellsAlike(t, u);
  }

  /** With the lines clean, the cells and geometry passes settle the host. */
  lemma CellsPassSettles(h: Host)
    requires Prepared(h) && !h.columnsModified && !h.rowsModified
    ensures Settled(h.(cells := GetCells(h.t), frames := Frames(h.t), cellsModified := false))
  {
  }

  /** `onSet` completes what the setters left: from a pending host it reaches a
      settled one. */
  lemma OnSetSettles(h: Host)
    requires Pending(h)
    ensures OnSet(h).Success? && Settled(OnSet(h).value.0)
  {
    if Dirty(h) {
      var h1 := if h.columnsModified then ColumnsPassOf(h) else h;
      if h.columnsModified {
        ColumnsPassSettles(h);
      }
      var c1 := h1.(columnsModified := false);
      assert Prepared(c1);
      var h2 := if h.rowsModified then RowsPassOf(h1) else h1;
      if h.rowsModified {
        RowsPassSettles(c1);
        assert RowsPassOf(c1) == RowsPassOf(h1).(columnsModified := false);
      }
      var c2 := h2.(columnsModified := false, rowsModified := false);
      assert Prepared(c2);
      CellsPassSettles(c2);
      var h3 := if h.cellsModified then h2.(cells := GetCells(h2.t)) else h2;
      assert RunPasses(h) == GeometryOf(h3).(columnsModified := false, rowsModified := false, cellsModified := false);
    }
  }

  // ------------------------------------------------------------ the setters

  /** A value for one of the grid properties. */
  datatype TableValue =
    | ColumnsValue(specs: seq<LineSpec>)
    | RowsValue(specs: seq<LineSpec>)
    | CellsValue(data: seq<seq<CellData>>)
    | WidthValue(width: int)
    | HeightValue(height: int)

  /** The property a value is for. */
  function KeyOf(v: TableValue): string
  {
    match v
    case ColumnsValue(_) => "columns"
    case RowsValue(_) => "rows"
    case CellsValue(_) => "cells"
    case WidthValue(_) => "width"
    case HeightValue(_) => "height"
  }

  /** The table's `propertyApplyOrder`. */
  const TableOrder: seq<string> := ["columns", "rows", "cells", "width", "height"]

  /** `_set(key, value)` for a grid property, through its setter. Setters only
      touch the grid and the flags; the published properties change in
      `onSet` alone. */
  function Apply(h: Host, v: TableValue): (r: Result<Host, string>)
    ensures r.Success? ==> var u := r.value;
      && (h.columnsModified ==> u.columnsModified)
      && (h.rowsModified ==> u.rowsModified)
      && (h.cellsModified ==> u.cellsModified)
      && u.columns == h.columns && u.rows == h.rows && u.cells == h.cells && u.frames == h.frames
    ensures (v.WidthValue? || v.HeightValue?) ==> r.Success?
  {
    match v
    case ColumnsValue(specs) => SetColumns(h, specs)
    case RowsValue(specs) => SetRows(h, specs)
    case CellsValue(data) => SetCellsOf(h, data)
    case WidthValue(w) => Success(SetWidthOf(h, w))
    case HeightValue(w) => Success(SetHeightOf(h, w))
  }

  /** `__setcolumns`: the selection is cleared, the columns are replaced by
      `SetLines` and the column flag is raised. */
  function SetColumns(h: Host, specs: seq<LineSpec>): (r: Result<Host, string>)
    ensures r.Success? <==> SetLines(h.t.cols, specs).Success?
    ensures r.Success? ==> var u := r.value;
      && u.t == h.t.(cols := u.t.cols, selection := []) && |u.t.cols| == |specs|
      && u == h.(t := u.t, columnsModified := true)
  {
    var ls := SetLines(h.t.cols, specs);
    if ls.Failure? then Failure(ls.error)
    else Success(h.(t := h.t.(cols := ls.value, selection := []), columnsModified := true))
  }

  /** `__setrows`, the row-wise mirror of `SetColumns`. */
  function SetRows(h: Host, specs: seq<LineSpec>): (r: Result<Host, string>)
    ensures r.Success? <==> SetLines(h.t.rows, specs).Success?
    ensures r.Success? ==> var u := r.value;
      && u.t == h.t.(rows := u.t.rows, selection := []) && |u.t.rows| == |specs|
      && u == h.(t := u.t, rowsModified := true)
  {
    var ls := SetLines(h.t.rows, specs);
    if ls.Failure? then Failure(ls.error)
    else Success(h.(t := h.t.(rows := ls.value, selection := []), rowsModified := true))
  }

  /** `__setcells`: the matrix is laid out afresh (see `SetCells`), growing
      the lines where the cells reach past them, and the cell flag is raised;
      neither line flag is touched. A layout that does not tile the grown grid
      is an error. */
  function SetCellsOf(h: Host, data: seq<seq<CellData>>): (r: Result<Host, string>)
    ensures r.Success? <==> Contiguous(h.t.cols) && Contiguous(h.t.rows) && TilesGrown(h.t, Layout.Layout(data))
    ensures r.Success? ==> var u := r.value;
      && MatrixValid(u.t) && SelectionValid(u.t) && u.t.selection == []
      && |u.t.cols| >= |h.t.cols| && u.t.cols[..|h.t.cols|] == h.t.cols
      && |u.t.rows| >= |h.t.rows| && u.t.rows[..|h.t.rows|] == h.t.rows
      && (forall i | |h.t.cols| <= i < |u.t.cols| :: u.t.cols[i].size == h.t.config.minColumnWidth)
      && (forall i | |h.t.rows| <= i < |u.t.rows| :: u.t.rows[i].size == h.t.config.minRowHeight)
      && u.t.width == h.t.width && u.t.height == h.t.height && u.t.config == h.t.config
      && u == h.(t := u.t, cellsModified := true)
  {
    if !Contiguous(h.t.cols) || !Contiguous(h.t.rows) then
      Failure("the lines are not numbered in order")
    else
      var u := SetCells(h.t, data);
      if u.Failure? then Failure(u.error)
      else Success(h.(t := u.value, cellsModified := true))
  }

  /** `__setwidth`: with columns, the clamp of `SetWidth`, raising the column
      flag when the width changes; before any column exists, the width is
      only held at the minimum column width. */
  function SetWidthOf(h: Host, w: int): (u: Host)
    ensures u == h.(t := u.t, columnsModified := u.columnsModified)
    ensures u.t == h.t.(cols := u.t.cols, width := u.t.width)
    ensures |h.t.cols| == 0 ==> u.t.width >= h.t.config.minColumnWidth && u.columnsModified == h.columnsModified
    ensures |h.t.cols| == 0 && w >= h.t.config.minColumnWidth ==> u.t.width == w
    ensures |h.t.cols| >= 1 ==> (u.columnsModified <==> h.columnsModified || u.t.width != h.t.width)
  {
    if |h.t.cols| == 0 then
      h.(t := h.t.(width := if w > h.t.config.minColumnWidth then w else h.t.config.minColumnWidth))
    else
      var (u, changed) := SetWidth(h.t, w);
      h.(t := u, columnsModified := h.columnsModified || changed)
  }

  /** `__setheight`, the row-wise mirror of `SetWidthOf`. */
  function SetHeightOf(h: Host, w: int): (u: Host)
    ensures u == h.(t := u.t, rowsModified := u.rowsModified)
    ensures u.t == h.t.(rows := u.t.rows, height := u.t.height)
    ensures |h.t.rows| == 0 ==> u.t.height >= h.t.config.minRowHeight && u.rowsModified == h.rowsModified
    ensures |h.t.rows| == 0 && w >= h.t.config.minRowHeight ==> u.t.height == w
    ensures |h.t.rows| >= 1 ==> (u.rowsModified <==> h.rowsModified || u.t.height != h.t.height)
  {
    if |h.t.rows| == 0 then
      h.(t := h.t.(height := if w > h.t.config.minRowHeight then w else h.t.config.minRowHeight))
    else
      var (u, changed) := SetHeight(h.t, w);
      h.(t := u, rowsModified := h.rowsModified || changed)
  }

  // ------------------------------------------------- the setters and onSet

  /** Assigning the cells of a pending host leaves it pending, unless the
      layout grows a line set whose flag is down: then that set's recorded
      total and published property no longer match it, and `onSet` does not
      repair them. */
  lemma SetCellsPending(h: Host, data: seq<seq<CellData>>)
    requires Pending(h) && SetCellsOf(h, data).Success?
    ensures var u := SetCellsOf(h, data).value;
      (h.columnsModified || |u.t.cols| == |h.t.cols|) && (h.rowsModified || |u.t.rows| == |h.t.rows|) ==> Pending(u)
  {
    var u := SetCellsOf(h, data).value;
    if (h.columnsModified || |u.t.cols| == |h.t.cols|) && (h.rowsModified || |u.t.rows| == |h.t.rows|) {
      SetCellsColumnsReady(h, u);
      SetCellsRowsReady(h, u);
    }
  }

  /** The column part of `SetCellsPending`. */
  lemma SetCellsColumnsReady(h: Host, u: Host)
    requires ColumnsReady(h) && u.columnsModified == h.columnsModified && u.columns == h.columns
    requires u.t.width == h.t.width && u.t.config == h.t.config
    requires |u.t.cols| >= |h.t.cols| && u.t.cols[..|h.t.cols|] == h.t.cols
    requires forall i | |h.t.cols| <= i < |u.t.cols| :: u.t.cols[i].size == h.t.config.minColumnWidth
    requires h.columnsModified || |u.t.cols| == |h.t.cols|
    ensures ColumnsReady(u)
  {
    if |u.t.cols| == |h.t.cols| {
      assert u.t.cols == u.t.cols[..|h.t.cols|];
      ColumnsReadyAlike(h, u);
    } else {
      assert LastSize(u.t.cols) == u.t.cols[|u.t.cols| - 1].size;
    }
  }

  /** The row part of `SetCellsPending`. */
  lemma SetCellsRowsReady(h: Host, u: Host)
    requires RowsReady(h) && u.rowsModified == h.rowsModified && u.rows == h.rows
    requires u.t.height == h.t.height && u.t.config == h.t.config
    requires |u.t.rows| >= |h.t.rows| && u.t.rows[..|h.t.rows|] == h.t.rows
    requires forall i | |h.t.rows| <= i < |u.t.rows| :: u.t.rows[i].size == h.t.config.minRowHeight
    requires h.rowsModified || |u.t.rows| == |h.t.rows|
    ensures RowsReady(u)
  {
    if |u.t.rows| == |h.t.rows| {
      assert u.t.rows == u.t.rows[..|h.t.rows|];
      RowsReadyAlike(h, u);
    } else {
      assert LastSize(u.t.rows) == u.t.rows[|u.t.rows| - 1].size;
    }
  }

  /** A sound matrix stays sound when only the sizes of its lines change. */
  lemma ResizedMatrixValid(t: Table, u: Table)
    requires MatrixValid(t) && u.slots == t.slots && u.cells == t.cells && u.nextId == t.nextId
    requires |u.cols| == |t.cols| && |u.rows| == |t.rows| && Contiguous(u.cols) && Contiguous(u.rows)
    ensures MatrixValid(u)
  {
  }

  /** A setter that only resizes lines, keeps the selection sound and raises a
      flag leaves a prepared host pending, once both line parts are ready. */
  lemma ResizedPending(h: Host, u: Host)
    requires Prepared(h) && Dirty(u) && SelectionValid(u.t) && ColumnsReady(u) && RowsReady(u)
    requires u.t.slots == h.t.slots && u.t.cells == h.t.cells && u.t.nextId == h.t.nextId
    requires |u.t.cols| == |h.t.cols| && |u.t.rows| == |h.t.rows| && Contiguous(u.t.cols) && Contiguous(u.t.rows)
    requires u.cellsModified == h.cellsModified && u.cells == h.cells
    ensures Pending(u)
  {
    ResizedMatrixValid(h.t, u.t);
    SameMatrixCells(h.t, u.t);
  }

  /** Resizing the columns of a pending host (the same number of columns, in
      order, the last at least its minimum), perhaps with a new width and a
      sound selection, and raising the column flag leaves it pending. */
  lemma ColumnsResizedPending(h: Host, cols: seq<Line>, width: int, selection: seq<CellId>)
    requires Prepared(h)
    requires |cols| == |h.t.cols| && Contiguous(cols) && cols[|cols| - 1].size >= h.t.config.minColumnWidth
    requires forall i | 0 <= i < |selection| :: selection[i] in h.t.cells
    requires Distinct(selection)
    ensures Pending(h.(t := h.t.(cols := cols, width := width, selection := selection), columnsModified := true))
  {
    var u := h.(t := h.t.(cols := cols, width := width, selection := selection), columnsModified := true);
    ColumnsReadyDirty(u);
    RowsReadyAlike(h, u);
    ResizedPending(h, u);
  }

  /** The row-wise mirror of `ColumnsResizedPending`. */
  lemma RowsResizedPending(h: Host, rows: seq<Line>, height: int, selection: seq<CellId>)
    requires Prepared(h)
    requires |rows| == |h.t.rows| && Contiguous(rows) && rows[|rows| - 1].size >= h.t.config.minRowHeight
    requires forall i | 0 <= i < |selection| :: selection[i] in h.t.cells
    requires Distinct(selection)
    ensures Pending(h.(t := h.t.(rows := rows, height := height, selection := selection), rowsModified := true))
  {
    var u := h.(t := h.t.(rows := rows, height := height, selection := selection), rowsModified := true);
    RowsReadyDirty(u);
    ColumnsReadyAlike(h, u);
    ResizedPending(h, u);
  }

  /** Assigning the width of a pending host leaves it pending: either nothing
      changes, or the last column takes up the difference, at least its
      minimum, and the column flag is raised. */
  lemma SetWidthPending(h: Host, w: int)
    requires Pending(h)
    ensures Pending(SetWidthOf(h, w))
  {
    assert |h.t.cols| >= 1;
    var (t, changed) := SetWidth(h.t, w);
    if changed {
      assert SetWidthOf(h, w) == h.(t := h.t.(cols := t.cols, width := t.width, selection := h.t.selection), columnsModified := true);
      ColumnsResizedPending(h, t.cols, t.width, h.t.selection);
    } else {
      assert SetWidthOf(h, w) == h;
    }
  }

  /** The row-wise mirror of `SetWidthPending`. */
  lemma SetHeightPending(h: Host, w: int)
    requires Pending(h)
    ensures Pending(SetHeightOf(h, w))
  {
    assert |h.t.rows| >= 1;
    var (t, changed) := SetHeight(h.t, w);
    if changed {
      assert SetHeightOf(h, w) == h.(t := h.t.(rows := t.rows, height := t.height, selection := h.t.selection), rowsModified := true);
      RowsResizedPending(h, t.rows, t.height, h.t.selection);
    } else {
      assert SetHeightOf(h, w) == h;
    }
  }

  /** `SetLines` with as many entries as lines keeps the count and the
      numbering, and its last line is the given size if that is truthy, the
      old one otherwise. */
  lemma SetLinesLast(ls: seq<Line>, specs: seq<LineSpec>, minSize: int)
    requires |specs| == |ls| >= 1 && Contiguous(ls)
    requires var x := |specs| - 1;
      if Given(specs[x].size) then specs[x].size.value >= minSize else ls[x].size >= minSize
    ensures SetLines(ls, specs).Success?
    ensures var r := SetLines(ls, specs).value;
      |r| == |ls| && Contiguous(r) && r[|r| - 1].size >= minSize
  {
  }

  /** Assigning as many columns as there are, with a last width at least the
      minimum, makes a prepared host (a pending one in particular) pending.
      (With a different count the matrix no longer fits the columns until the
      cells are assigned too.) */
  lemma SetColumnsPending(h: Host, specs: seq<LineSpec>)
    requires Prepared(h) && |specs| == |h.t.cols|
    requires var x := |specs| - 1;
      if Given(specs[x].size) then specs[x].size.value >= h.t.config.minColumnWidth else h.t.cols[x].size >= h.t.config.minColumnWidth
    ensures Pending(SetColumns(h, specs).value)
  {
    assert Contiguous(h.t.cols) && |h.t.cols| >= 1;
    SetLinesLast(h.t.cols, specs, h.t.config.minColumnWidth);
    var ls := SetLines(h.t.cols, specs).value;
    SetColumnsShape(h, specs);
    ColumnsResizedPending(h, ls, h.t.width, []);
  }

  /** The row-wise mirror of `SetColumnsPending`. */
  lemma SetRowsPending(h: Host, specs: seq<LineSpec>)
    requires Prepared(h) && |specs| == |h.t.rows|
    requires var y := |specs| - 1;
      if Given(specs[y].size) then specs[y].size.value >= h.t.config.minRowHeight else h.t.rows[y].size >= h.t.config.minRowHeight
    ensures Pending(SetRows(h, specs).value)
  {
    assert Contiguous(h.t.rows) && |h.t.rows| >= 1;
    SetLinesLast(h.t.rows, specs, h.t.config.minRowHeight);
    var ls := SetLines(h.t.rows, specs).value;
    SetRowsShape(h, specs);
    RowsResizedPending(h, ls, h.t.height, []);
  }

  /** A successful `SetColumns` is the host with the new lines, an empty
      selection and the flag raised. */
  lemma SetColumnsShape(h: Host, specs: seq<LineSpec>)
    requires SetColumns(h, specs).Success?
    ensures SetColumns(h, specs).value ==
      h.(t := h.t.(cols := SetLines(h.t.cols, specs).value, width := h.t.width, selection := []), columnsModified := true)
  {
  }

  /** A successful `SetRows` is the host with the new lines, an empty
      selection and the flag raised. */
  lemma SetRowsShape(h: Host, specs: seq<LineSpec>)
    requires SetRows(h, specs).Success?
    ensures SetRows(h, specs).value ==
      h.(t := h.t.(rows := SetLines(h.t.rows, specs).value, height := h.t.height, selection := []), rowsModified := true)
  {
  }

  // ------------------------------------------------------------ setOptions

  /** Each value under its property name, as an options object. */
  function Keyed(vals: seq<TableValue>): (opts: seq<(string, TableValue)>)
    ensures |opts| == |vals| && forall i | 0 <= i < |vals| :: opts[i] == (KeyOf(vals[i]), vals[i])
  {
    seq(|vals|, i requires 0 <= i < |vals| => (KeyOf(vals[i]), vals[i]))
  }

  /** `_set` for each entry in turn; the first error stops the batch. */
  function ApplyEntries(h: Host, entries: seq<(string, TableValue)>): (r: Result<Host, string>)
    ensures r.Success? ==> var u := r.value;
      && (h.columnsModified ==> u.columnsModified)
      && (h.rowsModified ==> u.rowsModified)
      && (h.cellsModified ==> u.cellsModified)
      && u.columns == h.columns && u.rows == h.rows && u.cells == h.cells && u.frames == h.frames
    decreases |entries|
  {
    if entries == [] then Success(h)
    else
      var u := Apply(h, entries[0].1);
      if u.Failure? then Failure(u.error) else ApplyEntries(u.value, entries[1..])
  }

  /** The table's `setOptions` as the outermost call: the grid properties in
      `TableOrder`, then `onSet` once. */
  function TableSetOptions(h: Host, vals: seq<TableValue>): (r: Result<(Host, seq<Pass>), string>)
    ensures r.Success? ==> !Dirty(r.value.0)
  {
    var applied := ApplyEntries(h, Schedule(Keyed(vals), Some(TableOrder)));
    if applied.Failure? then Failure(applied.error) else OnSet(applied.value)
  }

  /** Every grid property is listed in `TableOrder`, so the table's batch is
      exactly its values, applied in `TableOrder`'s order. */
  lemma TableSchedule(vals: seq<TableValue>)
    requires KeysDistinct(Keyed(vals))
    ensures var s := Schedule(Keyed(vals), Some(TableOrder));
      && multiset(s) == multiset(Keyed(vals))
      && forall i, j | 0 <= i < j < |s| :: IndexIn(TableOrder, s[i].0) < IndexIn(TableOrder, s[j].0)
  {
    var opts := Keyed(vals);
    TableOrderDistinct();
    assert forall i | 0 <= i < |opts| :: opts[i].0 in TableOrder;
    ScheduleAllListed(opts, TableOrder);
  }

  /** `TableOrder` names each property once. */
  lemma TableOrderDistinct()
    ensures Distinct(TableOrder)
  {
    forall i, j | 0 <= i < j < |TableOrder|
      ensures TableOrder[i] != TableOrder[j]
    {
      assert TableOrder[i][0] != TableOrder[j][0] || TableOrder[i][1] != TableOrder[j][1];
    }
  }

  /** The order in which the values are given makes no difference to the table. */
  lemma TableSetOptionsOrderFree(h: Host, a: seq<TableValue>, b: seq<TableValue>)
    requires KeysDistinct(Keyed(a)) && KeysDistinct(Keyed(b))
    requires forall v :: v in a <==> v in b
    ensures TableSetOptions(h, a) == TableSetOptions(h, b)
  {
    var ka, kb := Keyed(a), Keyed(b);
    forall e
      ensures e in ka <==> e in kb
    {
      if e in ka {
        var i :| 0 <= i < |ka| && ka[i] == e;
        assert a[i] in b;
        var j :| 0 <= j < |b| && b[j] == a[i];
        assert kb[j] == e;
      }
      if e in kb {
        var j :| 0 <= j < |kb| && kb[j] == e;
        assert b[j] in a;
        var i :| 0 <= i < |a| && a[i] == b[j];
        assert ka[i] == e;
      }
    }
    ScheduleOrderFree(ka, kb, TableOrder);
  }
}

=== FILE: delete.dfy ===
/** `_deleteColumn` / `_deleteRow` and the public operations built on them. Each
    distinct cell of the removed line is visited once, at its anchor: a cell
    that continues on the near side loses one line of span; one that continues
    on the far side loses one line of span and is re-anchored to the next line
    (which then takes the removed line's index); any other cell is deleted and
    leaves the selection. */
module Delete {
  import opened Wrappers
  import opened Seqs
  import opened Ledger
  import opened Grid
  import opened Selection

  /** Cell `c`'s span includes column `p`. */
  predicate CoversColumn(c: Cell, p: int)
  {
    c.col <= p < c.col + c.colspan
  }

  /** Cell `c`'s span includes row `p`. */
  predicate CoversRow(c: Cell, p: int)
  {
    c.row <= p < c.row + c.rowspan
  }

  // ---------------------------------------------------------------- columns

  /** `left === mid`, tested in the cell's anchor row. */
  predicate JoinedLeft(t: Table, p: int, id: CellId)
    requires MatrixValid(t) && 0 <= p < |t.cols| && id in t.cells
  {
    p > 0 && t.slots[t.cells[id].row][p - 1] == id
  }

  /** `right === mid`, tested in the cell's anchor row. */
  predicate JoinedRight(t: Table, p: int, id: CellId)
    requires MatrixValid(t) && 0 <= p < |t.cols| && id in t.cells
  {
    p < |t.cols| - 1 && t.slots[t.cells[id].row][p + 1] == id
  }

  /** Every cell of a sound matrix spans at least one column and one row. */
  lemma SpansPositive(t: Table)
    requires MatrixValid(t)
    ensures forall id | id in t.cells :: 1 <= t.cells[id].colspan && 1 <= t.cells[id].rowspan
  {
    assert forall id | id in t.cells :: Fits(t.cells[id], |t.cols|, |t.rows|);
  }

  /** The cells `_deleteColumn(p)` passes to `_deleteCell`: those whose only
      column is `p`. */
  function DestroyedByColumn(t: Table, p: int): set<CellId>
  {
    set id | id in t.cells && t.cells[id].col == p && t.cells[id].colspan == 1
  }

  /** A surviving cell after column `p` is removed: one column narrower if it
      covered `p` (a cell anchored at `p` keeps the anchor index `p`, now the
      index of the column that followed), one column further left if it lay
      right of `p`. */
  function ColumnRemoved(c: Cell, p: int): Cell
  {
    if c.col > p then c.(col := c.col - 1)
    else if p < c.col + c.colspan then c.(colspan := c.colspan - 1)
    else c
  }

  /** The cells the loop of `_deleteColumn(p)` visits are exactly those covering
      column `p`; of these, the slot tests the source applies at the anchor row
      decide by geometry: a cell joined on the left started before `p`, one
      joined only on the right starts at `p` and is wider than one column, and
      one joined on neither side is deleted. */
  lemma ColumnFates(t: Table, p: int, id: CellId)
    requires MatrixValid(t) && 0 <= p < |t.cols| && id in t.cells
    ensures (exists y | 0 <= y < |t.rows| :: t.slots[y][p] == id) <==> CoversColumn(t.cells[id], p)
    ensures CoversColumn(t.cells[id], p) ==>
      && (JoinedLeft(t, p, id) <==> t.cells[id].col < p)
      && (!JoinedLeft(t, p, id) ==> (JoinedRight(t, p, id) <==> t.cells[id].colspan > 1))
      && (id in DestroyedByColumn(t, p) <==> !JoinedLeft(t, p, id) && !JoinedRight(t, p, id))
  {
    var c := t.cells[id];
    var y := c.row;
    assert Fits(c, |t.cols|, |t.rows|);
    if exists y' | 0 <= y' < |t.rows| :: t.slots[y'][p] == id {
      var y' :| 0 <= y' < |t.rows| && t.slots[y'][p] == id;
      assert Occupies(CellAt(t, p, y'), p, y');
    }
    if CoversColumn(c, p) {
      assert Occupies(c, p, y);
      if p > 0 {
        assert Occupies(CellAt(t, p - 1, y), p - 1, y);
        if c.col < p {
          assert Occupies(c, p - 1, y);
        }
      }
      if p < |t.cols| - 1 {
        assert Occupies(CellAt(t, p + 1, y), p + 1, y);
        if p + 1 < c.col + c.colspan {
          assert Occupies(c, p + 1, y);
        }
      }
    }
  }

  /** Every row of the matrix without slot `p`. */
  function SlotsLessColumn(t: Table, p: int): (s: seq<seq<CellId>>)
    requires Dense(t) && 0 <= p < |t.cols|
    ensures |s| == |t.rows| && forall y | 0 <= y < |s| :: |s[y]| == |t.cols| - 1
    ensures forall y, x | 0 <= y < |t.rows| && 0 <= x < p :: s[y][x] == t.slots[y][x]
    ensures forall y, x | 0 <= y < |t.rows| && p <= x < |t.cols| - 1 :: s[y][x] == t.slots[y][x + 1]
  {
    seq(|t.rows|, y requires 0 <= y < |t.rows| => RemoveAt(t.slots[y], p))
  }

  /** The surviving cells, each adjusted by `ColumnRemoved`. */
  function CellsLessColumn(t: Table, p: int): (m: map<CellId, Cell>)
    ensures forall id :: id in m <==> id in t.cells && id !in DestroyedByColumn(t, p)
    ensures forall id | id in m :: m[id] == ColumnRemoved(t.cells[id], p)
  {
    map id | id in t.cells && id !in DestroyedByColumn(t, p) :: ColumnRemoved(t.cells[id], p)
  }

  /** `_deleteColumn(p)`: the cells are adjusted or deleted, later columns are
      renumbered, the width loses the column's width, and the column and its
      slots are spliced out. Offsets are not recomputed. */
  function DeleteColumnRaw(t: Table, p: int): (r: Table)
    requires MatrixValid(t) && 0 <= p < |t.cols|
  {
    t.(cols := RemoveLine(t.cols, p), slots := SlotsLessColumn(t, p), cells := CellsLessColumn(t, p),
       selection := Without(t.selection, DestroyedByColumn(t, p)), width := t.width - t.cols[p].size)
  }

  lemma LessColumnSlotOwned(t: Table, p: int, y: int, x: int)
    requires MatrixValid(t) && 0 <= p < |t.cols| && 0 <= y < |t.rows| && 0 <= x < |t.cols| - 1
    ensures SlotsLessColumn(t, p)[y][x] in CellsLessColumn(t, p)
    ensures Occupies(CellsLessColumn(t, p)[SlotsLessColumn(t, p)[y][x]], x, y)
  {
    var x0 := if x < p then x else x + 1;
    assert Occupies(CellAt(t, x0, y), x0, y);
  }

  lemma LessColumnCellPlaced(t: Table, p: int, id: CellId, y: int, x: int)
    requires MatrixValid(t) && 0 <= p < |t.cols| && 0 <= y < |t.rows| && 0 <= x < |t.cols| - 1
    requires id in CellsLessColumn(t, p) && Occupies(CellsLessColumn(t, p)[id], x, y)
    ensures SlotsLessColumn(t, p)[y][x] == id
  {
    var x0 := if x < p then x else x + 1;
    assert Occupies(t.cells[id], x0, y);
  }

  lemma LessColumnCellFits(t: Table, p: int, id: CellId)
    requires MatrixValid(t) && 0 <= p < |t.cols| && id in CellsLessColumn(t, p)
    ensures Fits(CellsLessColumn(t, p)[id], |t.cols| - 1, |t.rows|) && id < t.nextId
  {
    assert Fits(t.cells[id], |t.cols|, |t.rows|);
  }

  lemma DeleteColumnMatrixValid(t: Table, p: int)
    requires MatrixValid(t) && 2 <= |t.cols| && 0 <= p < |t.cols|
    ensures MatrixValid(DeleteColumnRaw(t, p))
  {
    var r := DeleteColumnRaw(t, p);
    forall y, x | 0 <= y < |r.rows| && 0 <= x < |r.cols|
      ensures r.slots[y][x] in r.cells && Occupies(r.cells[r.slots[y][x]], x, y)
    {
      LessColumnSlotOwned(t, p, y, x);
    }
    forall id | id in r.cells
      ensures Fits(r.cells[id], |r.cols|, |r.rows|) && id < r.nextId
    {
      LessColumnCellFits(t, p, id);
    }
    forall id, y, x | id in r.cells && 0 <= y < |r.rows| && 0 <= x < |r.cols| && Occupies(r.cells[id], x, y)
      ensures r.slots[y][x] == id
    {
      LessColumnCellPlaced(t, p, id, y, x);
    }
  }

  /** One raw column removal keeps everything but the column ledger settled. */
  lemma DeleteColumnRawSound(t: Table, p: int)
    requires ColumnsUnsettled(t) && 2 <= |t.cols| && 0 <= p < |t.cols|
    ensures ColumnsUnsettled(DeleteColumnRaw(t, p))
  {
    var r := DeleteColumnRaw(t, p);
    DeleteColumnMatrixValid(t, p);
    RemoveLineTotal(t.cols, p);
    assert forall i | 0 <= i < |r.selection| :: r.selection[i] in r.selection;
    assert RowLedgerValid(r);
  }

  /** Settling after one raw column removal touches only the cols' ledger. */
  lemma DeleteColumnKeeps(t: Table, p: int)
    requires MatrixValid(t) && 2 <= |t.cols| && 0 <= p < |t.cols|
    ensures var r := SettleColumns(DeleteColumnRaw(t, p));
      && |r.cols| == |t.cols| - 1 && r.rows == t.rows && r.height == t.height
      && r.slots == SlotsLessColumn(t, p) && r.cells == CellsLessColumn(t, p)
      && r.selection == Without(t.selection, DestroyedByColumn(t, p))
  {
  }

  /** The settled table is valid, and the width loses the removed column's
      width unless the new last column had to be widened to the minimum. */
  lemma DeleteColumnSettled(t: Table, p: int)
    requires Valid(t) && 2 <= |t.cols| && 0 <= p < |t.cols|
    ensures var r := SettleColumns(DeleteColumnRaw(t, p));
      && Valid(r)
      && (p < |t.cols| - 1 || t.cols[p - 1].size >= t.config.minColumnWidth ==> r.width == t.width - t.cols[p].size)
  {
    var m := DeleteColumnRaw(t, p);
    DeleteColumnRawSound(t, p);
    SettleColumnsValid(m);
    RemoveLineTotal(t.cols, p);
    assert m.cols[|m.cols| - 1].size == if p < |t.cols| - 1 then t.cols[|t.cols| - 1].size else t.cols[p - 1].size;
  }

  /** `deleteColumn(p)`: `_deleteColumn(p)`, then offsets and the width are
      settled; the width loses the removed column's width unless the new last
      column had to be widened to the minimum (`DeleteColumnLines` states what
      happens to the other columns). */
  function DeleteColumn(t: Table, p: int): (r: Table)
    requires Valid(t) && 2 <= |t.cols| && 0 <= p < |t.cols|
    ensures Valid(r)
    ensures |r.cols| == |t.cols| - 1 && r.rows == t.rows && r.height == t.height
    ensures r.slots == SlotsLessColumn(t, p)
    ensures r.cells == CellsLessColumn(t, p)
    ensures r.selection == Without(t.selection, DestroyedByColumn(t, p))
    ensures p < |t.cols| - 1 || t.cols[p - 1].size >= t.config.minColumnWidth ==> r.width == t.width - t.cols[p].size
  {
    DeleteColumnSettled(t, p);
    DeleteColumnKeeps(t, p);
    SettleColumns(DeleteColumnRaw(t, p))
  }

  /** What `deleteColumn(p)` does to each cell: a cell whose only column is `p` is
      deleted and leaves the selection; every other cell survives, adjusted by
      `ColumnRemoved`; no cell is created. */
  lemma DeleteColumnCells(t: Table, p: int)
    requires Valid(t) && 2 <= |t.cols| && 0 <= p < |t.cols|
    ensures var r := DeleteColumn(t, p);
      && (forall id | id in t.cells :: (id in r.cells <==> !(t.cells[id].col == p && t.cells[id].colspan == 1)))
      && (forall id | id in r.cells :: id in t.cells && r.cells[id] == ColumnRemoved(t.cells[id], p))
      && (forall id :: id in r.selection <==> id in t.selection && id in r.cells)
  {
  }

  /** The columns after `deleteColumn(p)`: the others keep their widths and
      header flags in order, except that a new last column below the minimum is
      widened to it. */
  lemma DeleteColumnLines(t: Table, p: int)
    requires Valid(t) && 2 <= |t.cols| && 0 <= p < |t.cols|
    ensures var r := DeleteColumn(t, p);
      && (forall i | p < i < |t.cols| :: r.cols[i - 1].size == t.cols[i].size && r.cols[i - 1].header == t.cols[i].header)
      && (forall i | 0 <= i < p :: r.cols[i].header == t.cols[i].header)
      && (forall i | 0 <= i < p && (i < |t.cols| - 2 || t.cols[i].size >= t.config.minColumnWidth) ::
            r.cols[i].size == t.cols[i].size)
  {
    var m := DeleteColumnRaw(t, p);
    assert m.cols == RemoveLine(t.cols, p);
    assert DeleteColumn(t, p).cols == SettleColumns(m).cols;
    RemoveSettled(t.cols, p, m.width, t.config.minColumnWidth);
  }

  /** The loop of `deleteSelectedColumns`: `_deleteColumn(x)` for `x` from `hi`
      down to `lo`, so that each removal leaves the positions still to be
      removed in place. Columns `lo` to `hi` leave the ledger and every row of
      the matrix; every other column keeps its width, in order. */
  function DeleteColumnsDown(t: Table, lo: int, hi: int): (r: Table)
    requires ColumnsUnsettled(t) && 0 <= lo && hi < |t.cols| && hi - lo + 1 < |t.cols|
    ensures ColumnsUnsettled(r)
    ensures r.rows == t.rows && r.height == t.height && r.config == t.config
    ensures forall v | v in r.selection :: v in t.selection
    ensures hi < lo ==> r == t
    ensures lo <= hi ==> SameSizes(r.cols, t.cols[..lo] + t.cols[hi + 1..])
    ensures lo <= hi ==> forall y | 0 <= y < |t.rows| :: r.slots[y] == t.slots[y][..lo] + t.slots[y][hi + 1..]
    decreases hi - lo
  {
    if hi < lo then t
    else
      DeleteColumnRawSound(t, hi);
      var m := DeleteColumnRaw(t, hi);
      var r := DeleteColumnsDown(m, lo, hi - 1);
      DeleteColumnsDownStep(t, lo, hi, r);
      r
  }

  /** One step of `DeleteColumnsDown`: what the removal of column `hi` followed
      by the removal of `lo` to `hi - 1` leaves. */
  lemma DeleteColumnsDownStep(t: Table, lo: int, hi: int, r: Table)
    requires ColumnsUnsettled(t) && 0 <= lo <= hi < |t.cols| && hi - lo + 1 < |t.cols|
    requires var m := DeleteColumnRaw(t, hi);
      && |r.slots| == |t.rows|
      && (hi - 1 < lo ==> r == m)
      && (lo <= hi - 1 ==> SameSizes(r.cols, m.cols[..lo] + m.cols[hi..]))
      && (lo <= hi - 1 ==> forall y | 0 <= y < |t.rows| :: r.slots[y] == m.slots[y][..lo] + m.slots[y][hi..])
    ensures SameSizes(r.cols, t.cols[..lo] + t.cols[hi + 1..])
    ensures forall y | 0 <= y < |t.rows| :: r.slots[y] == t.slots[y][..lo] + t.slots[y][hi + 1..]
  {
    var m := DeleteColumnRaw(t, hi);
    var want := t.cols[..lo] + t.cols[hi + 1..];
    assert SameSizes(m.cols[..lo] + m.cols[hi..], want);
    if hi - 1 < lo {
      assert m.cols == m.cols[..lo] + m.cols[hi..];
    }
    forall y | 0 <= y < |t.rows|
      ensures r.slots[y] == t.slots[y][..lo] + t.slots[y][hi + 1..]
    {
      RemoveAtSlices(t.slots[y], hi, lo);
      assert m.slots[y] == RemoveAt(t.slots[y], hi);
    }
  }

  /** Cell `c` lies wholly within columns `lo` to `hi`. */
  predicate WithinColumns(c: Cell, lo: int, hi: int)
  {
    lo <= c.col && c.col + c.colspan - 1 <= hi
  }

  /** The cells that removing columns `lo` to `hi` deletes: those lying wholly
      within them. */
  function DestroyedByColumns(t: Table, lo: int, hi: int): set<CellId>
  {
    set id | id in t.cells && WithinColumns(t.cells[id], lo, hi)
  }

  /** A surviving cell after columns `lo` to `hi` are removed: it loses the
      columns of its span among them, and a cell to their right moves left by
      their number. A cell that began among them is anchored at `lo`, the
      position of the first column that followed them. */
  function ColumnsRemoved(c: Cell, lo: int, hi: int): Cell
  {
    if hi < lo || c.col + c.colspan - 1 < lo then c
    else if c.col > hi then c.(col := c.col - (hi - lo + 1))
    else
      var first := if c.col < lo then lo else c.col;
      var last := if c.col + c.colspan - 1 < hi then c.col + c.colspan - 1 else hi;
      c.(col := if c.col < lo then c.col else lo, colspan := c.colspan - (last - first + 1))
  }

  /** Removing column `hi` and then columns `lo` to `hi - 1` does to a cell
      what removing columns `lo` to `hi` does, and a cell survives both ways
      alike. */
  lemma ColumnsRemovedStep(c: Cell, lo: int, hi: int)
    requires lo <= hi && 1 <= c.colspan && !(c.col == hi && c.colspan == 1)
    ensures WithinColumns(ColumnRemoved(c, hi), lo, hi - 1) <==> WithinColumns(c, lo, hi)
    ensures !WithinColumns(c, lo, hi) ==> ColumnsRemoved(ColumnRemoved(c, hi), lo, hi - 1) == ColumnsRemoved(c, lo, hi)
  {
  }

  /** The cells and selection `DeleteColumnsDown` leaves: the cells lying
      wholly within columns `lo` to `hi` are deleted and leave the selection;
      every other cell survives as `ColumnsRemoved` gives it. */
  lemma {:induction false} DeleteColumnsDownCells(t: Table, lo: int, hi: int)
    requires ColumnsUnsettled(t) && 0 <= lo && hi < |t.cols| && hi - lo + 1 < |t.cols|
    ensures var r := DeleteColumnsDown(t, lo, hi);
      && (forall id :: id in r.cells <==> id in t.cells && !WithinColumns(t.cells[id], lo, hi))
      && (forall id | id in r.cells :: r.cells[id] == ColumnsRemoved(t.cells[id], lo, hi))
      && r.selection == Without(t.selection, DestroyedByColumns(t, lo, hi))
    decreases hi - lo
  {
    SpansPositive(t);
    if hi < lo {
      DeleteColumnsDownCellsNone(t, lo, hi);
    } else {
      DeleteColumnRawSound(t, hi);
      DeleteColumnsDownCells(DeleteColumnRaw(t, hi), lo, hi - 1);
      DeleteColumnsCellsStep(t, DeleteColumnRaw(t, hi), DeleteColumnsDown(t, lo, hi), lo, hi);
    }
  }

  /** Removing no columns leaves every cell and the selection as they were. */
  lemma DeleteColumnsDownCellsNone(t: Table, lo: int, hi: int)
    requires hi < lo && forall id | id in t.cells :: 1 <= t.cells[id].colspan
    ensures forall id | id in t.cells :: !WithinColumns(t.cells[id], lo, hi) && ColumnsRemoved(t.cells[id], lo, hi) == t.cells[id]
    ensures Without(t.selection, DestroyedByColumns(t, lo, hi)) == t.selection
  {
    assert DestroyedByColumns(t, lo, hi) == {};
  }

  /** One step of `DeleteColumnsDownCells`, on the cells and the selection
      alone: removing column `hi` and then columns `lo` to `hi - 1` leaves
      what removing columns `lo` to `hi` leaves. */
  lemma DeleteColumnsCellsStep(t: Table, m: Table, r: Table, lo: int, hi: int)
    requires lo <= hi && forall id | id in t.cells :: 1 <= t.cells[id].colspan
    requires m.cells == CellsLessColumn(t, hi) && m.selection == Without(t.selection, DestroyedByColumn(t, hi))
    requires forall id :: id in r.cells <==> id in m.cells && !WithinColumns(m.cells[id], lo, hi - 1)
    requires forall id | id in r.cells :: r.cells[id] == ColumnsRemoved(m.cells[id], lo, hi - 1)
    requires r.selection == Without(m.selection, DestroyedByColumns(m, lo, hi - 1))
    ensures forall id :: id in r.cells <==> id in t.cells && !WithinColumns(t.cells[id], lo, hi)
    ensures forall id | id in r.cells :: r.cells[id] == ColumnsRemoved(t.cells[id], lo, hi)
    ensures r.selection == Without(t.selection, DestroyedByColumns(t, lo, hi))
  {
    forall id | id in t.cells && id !in DestroyedByColumn(t, hi)
      ensures m.cells[id] == ColumnRemoved(t.cells[id], hi)
      ensures WithinColumns(m.cells[id], lo, hi - 1) <==> WithinColumns(t.cells[id], lo, hi)
      ensures !WithinColumns(t.cells[id], lo, hi) ==> ColumnsRemoved(m.cells[id], lo, hi - 1) == ColumnsRemoved(t.cells[id], lo, hi)
    {
      ColumnsRemovedStep(t.cells[id], lo, hi);
    }
    WithoutTwice(t.selection, DestroyedByColumn(t, hi), DestroyedByColumns(m, lo, hi - 1), DestroyedByColumns(t, lo, hi));
  }

  /** `deleteSelectedColumns`: every column the selection's bounds span is
      removed, then offsets and the width are settled once. The source calls it
      only when the context menu offered it, which `IsRemoveColumnAvailable`
      states as intended. */
  function DeleteSelectedColumns(t: Table): (r: Table)
    requires Valid(t) && IsRemoveColumnAvailable(t)
    ensures Valid(r)
    ensures |r.cols| == |t.cols| - SelectedBounds(t).w && r.rows == t.rows
    ensures forall y | 0 <= y < |t.rows| :: r.slots[y] == Excise(t.slots[y], SelectedBounds(t).x, SelectedBounds(t).x2)
    ensures ColumnsDeleted(t, SelectedBounds(t).x, SelectedBounds(t).x2, r)
  {
    DeleteColumnsRange(t, SelectedBounds(t))
  }

  /** The bounds of a non-empty selection, which lie in the grid. */
  function SelectedBounds(t: Table): (b: Bounds)
    requires MatrixValid(t) && SelectionValid(t) && t.selection != []
    ensures SelectionBounds(t) == Some(b)
    ensures 0 <= b.x <= b.x2 < |t.cols| && b.w == b.x2 - b.x + 1
    ensures 0 <= b.y <= b.y2 < |t.rows| && b.h == b.y2 - b.y + 1
  {
    BoundsInGrid(t);
    SelectionBounds(t).value
  }

  /** The columns of bounds `b` deleted and the remaining columns settled. */
  function DeleteColumnsRange(t: Table, b: Bounds): (r: Table)
    requires Valid(t) && 0 <= b.x <= b.x2 < |t.cols| && b.w == b.x2 - b.x + 1 < |t.cols|
    ensures Valid(r)
    ensures |r.cols| == |t.cols| - b.w && r.rows == t.rows
    ensures forall y | 0 <= y < |t.rows| :: r.slots[y] == Excise(t.slots[y], b.x, b.x2)
    ensures ColumnsDeleted(t, b.x, b.x2, r)
  {
    DeleteColumnsRangeSettles(t, b);
    SettleColumns(DeleteColumnsDown(t, b.x, b.x2))
  }

  /** Settling after the deletion keeps the matrix valid and the cell-level
      outcome of the deletion. */
  lemma DeleteColumnsRangeSettles(t: Table, b: Bounds)
    requires Valid(t) && 0 <= b.x <= b.x2 < |t.cols| && b.w == b.x2 - b.x + 1 < |t.cols|
    ensures var m := DeleteColumnsDown(t, b.x, b.x2);
      && Valid(SettleColumns(m)) && SettleColumns(m).slots == m.slots && ColumnsDeleted(t, b.x, b.x2, SettleColumns(m))
  {
    assert ColumnsUnsettled(t) && LastSize(t.cols) >= t.config.minColumnWidth;
    DeleteColumnsRangeCells(t, b);
    DeleteColumnsRangeWidth(t, b);
    var m := DeleteColumnsDown(t, b.x, b.x2);
    SettleColumnsValid(m);
    var r := SettleColumns(m);
    assert r.slots == m.slots && r.selection == m.selection;
  }

  /**
   * What deleting columns `lo` to `hi` of `t` must do to the cells and the
   * width for `r` to be the result: a cell inside the columns is destroyed
   * and leaves the selection, every other cell loses the deleted columns
   * from its span (and moves left when it lay to their right), and the
   * table narrows by the deleted sizes unless the new last column had to be
   * stretched to the minimum width.
   */
  ghost predicate ColumnsDeleted(t: Table, lo: int, hi: int, r: Table)
    requires 0 <= lo <= hi < |t.cols| && hi - lo + 1 < |t.cols|
  {
    && (hi < |t.cols| - 1 || t.cols[lo - 1].size >= t.config.minColumnWidth ==> r.width == t.width - Total(t.cols[lo..hi + 1]))
    && (forall id :: id in r.cells <==> id in t.cells && !WithinColumns(t.cells[id], lo, hi))
    && (forall id | id in r.cells :: r.cells[id] == ColumnsRemoved(t.cells[id], lo, hi))
    && r.selection == Without(t.selection, DestroyedByColumns(t, lo, hi))
  }

  /** The cell part of `ColumnsDeleted` for `DeleteColumnsRange`: settling leaves the cells alone. */
  lemma DeleteColumnsRangeCells(t: Table, b: Bounds)
    requires ColumnsUnsettled(t) && 0 <= b.x <= b.x2 < |t.cols| && b.w == b.x2 - b.x + 1 < |t.cols|
    ensures var r := SettleColumns(DeleteColumnsDown(t, b.x, b.x2));
      && (forall id :: id in r.cells <==> id in t.cells && !WithinColumns(t.cells[id], b.x, b.x2))
      && (forall id | id in r.cells :: r.cells[id] == ColumnsRemoved(t.cells[id], b.x, b.x2))
      && r.selection == Without(t.selection, DestroyedByColumns(t, b.x, b.x2))
  {
    DeleteColumnsDownCells(t, b.x, b.x2);
  }

  /** Settling columns whose last one is wide enough keeps the width. */
  lemma SettleColumnsKeepsWidth(m: Table)
    requires |m.cols| >= 1 && m.width == Total(m.cols)
    ensures LastSize(m.cols) >= m.config.minColumnWidth ==> SettleColumns(m).width == m.width
  {
  }

  /** The ledger `DeleteColumnsDown` leaves: the width drops by the removed
      columns, and the last column is the old last one, or the one before
      `lo` when the removed columns ended the table. */
  lemma DeleteColumnsDownLedger(t: Table, lo: int, hi: int)
    requires ColumnsUnsettled(t) && 0 <= lo <= hi < |t.cols| && hi - lo + 1 < |t.cols|
    ensures var m := DeleteColumnsDown(t, lo, hi);
      && |m.cols| >= 1 && m.width == Total(m.cols) && m.config == t.config
      && m.width == t.width - Total(t.cols[lo..hi + 1])
      && (hi < |t.cols| - 1 ==> LastSize(m.cols) == LastSize(t.cols))
      && (hi == |t.cols| - 1 ==> LastSize(m.cols) == t.cols[lo - 1].size)
  {
    ExcisedLines(t.cols, DeleteColumnsDown(t, lo, hi).cols, lo, hi);
  }

  /** The width part of `ColumnsDeleted` for `DeleteColumnsRange`. */
  lemma DeleteColumnsRangeWidth(t: Table, b: Bounds)
    requires ColumnsUnsettled(t) && 0 <= b.x <= b.x2 < |t.cols| && b.w == b.x2 - b.x + 1 < |t.cols|
    requires LastSize(t.cols) >= t.config.minColumnWidth
    ensures var r := SettleColumns(DeleteColumnsDown(t, b.x, b.x2));
      b.x2 < |t.cols| - 1 || t.cols[b.x - 1].size >= t.config.minColumnWidth ==> r.width == t.width - Total(t.cols[b.x..b.x2 + 1])
  {
    DeleteColumnsDownLedger(t, b.x, b.x2);
    SettleColumnsKeepsWidth(DeleteColumnsDown(t, b.x, b.x2));
  }

  // ---------------------------------------------------------------- rows

  /** `top === mid`, tested in the cell's anchor column. */
  predicate JoinedAbove(t: Table, p: int, id: CellId)
    requires MatrixValid(t) && 0 <= p < |t.rows| && id in t.cells
  {
    p > 0 && t.slots[p - 1][t.cells[id].col] == id
  }

  /** `bottom === mid`, tested in the cell's anchor column. */
  predicate JoinedBelow(t: Table, p: int, id: CellId)
    requires MatrixValid(t) && 0 <= p < |t.rows| && id in t.cells
  {
    p < |t.rows| - 1 && t.slots[p + 1][t.cells[id].col] == id
  }

  /** The cells `_deleteRow(p)` passes to `_deleteCell`: those whose only row is `p`. */
  function DestroyedByRow(t: Table, p: int): set<CellId>
  {
    set id | id in t.cells && t.cells[id].row == p && t.cells[id].rowspan == 1
  }

  /** A surviving cell after row `p` is removed: one row shorter if it covered
      `p`, one row higher if it lay below `p`. */
  function RowRemoved(c: Cell, p: int): Cell
  {
    if c.row > p then c.(row := c.row - 1)
    else if p < c.row + c.rowspan then c.(rowspan := c.rowspan - 1)
    else c
  }

  /** The row-wise mirror of `ColumnFates`. */
  lemma RowFates(t: Table, p: int, id: CellId)
    requires MatrixValid(t) && 0 <= p < |t.rows| && id in t.cells
    ensures (exists x | 0 <= x < |t.cols| :: t.slots[p][x] == id) <==> CoversRow(t.cells[id], p)
    ensures CoversRow(t.cells[id], p) ==>
      && (JoinedAbove(t, p, id) <==> t.cells[id].row < p)
      && (!JoinedAbove(t, p, id) ==> (JoinedBelow(t, p, id) <==> t.cells[id].rowspan > 1))
      && (id in DestroyedByRow(t, p) <==> !JoinedAbove(t, p, id) && !JoinedBelow(t, p, id))
  {
    var c := t.cells[id];
    var x := c.col;
    assert Fits(c, |t.cols|, |t.rows|);
    if exists x' | 0 <= x' < |t.cols| :: t.slots[p][x'] == id {
      var x' :| 0 <= x' < |t.cols| && t.slots[p][x'] == id;
      assert Occupies(CellAt(t, x', p), x', p);
    }
    if CoversRow(c, p) {
      assert Occupies(c, x, p);
      if p > 0 {
        assert Occupies(CellAt(t, x, p - 1), x, p - 1);
        if c.row < p {
          assert Occupies(c, x, p - 1);
        }
      }
      if p < |t.rows| - 1 {
        assert Occupies(CellAt(t, x, p + 1), x, p + 1);
        if p + 1 < c.row + c.rowspan {
          assert Occupies(c, x, p + 1);
        }
      }
    }
  }

  /** The matrix without row `p`. */
  function SlotsLessRow(t: Table, p: int): (s: seq<seq<CellId>>)
    requires Dense(t) && 0 <= p < |t.rows|
    ensures |s| == |t.rows| - 1 && forall y | 0 <= y < |s| :: |s[y]| == |t.cols|
    ensures forall y | 0 <= y < p :: s[y] == t.slots[y]
    ensures forall y | p <= y < |t.rows| - 1 :: s[y] == t.slots[y + 1]
  {
    RemoveAt(t.slots, p)
  }

  /** The surviving cells, each adjusted by `RowRemoved`. */
  function CellsLessRow(t: Table, p: int): (m: map<CellId, Cell>)
    ensures forall id :: id in m <==> id in t.cells && id !in DestroyedByRow(t, p)
    ensures forall id | id in m :: m[id] == RowRemoved(t.cells[id], p)
  {
    map id | id in t.cells && id !in DestroyedByRow(t, p) :: RowRemoved(t.cells[id], p)
  }

  /** `_deleteRow(p)`, the row-wise mirror of `DeleteColumnRaw`. */
  function DeleteRowRaw(t: Table, p: int): (r: Table)
    requires MatrixValid(t) && 0 <= p < |t.rows|
  {
    t.(rows := RemoveLine(t.rows, p), slots := SlotsLessRow(t, p), cells := CellsLessRow(t, p),
       selection := Without(t.selection, DestroyedByRow(t, p)), height := t.height - t.rows[p].size)
  }

  lemma LessRowSlotOwned(t: Table, p: int, y: int, x: int)
    requires MatrixValid(t) && 0 <= p < |t.rows| && 0 <= y < |t.rows| - 1 && 0 <= x < |t.cols|
    ensures SlotsLessRow(t, p)[y][x] in CellsLessRow(t, p)
    ensures Occupies(CellsLessRow(t, p)[SlotsLessRow(t, p)[y][x]], x, y)
  {
    var y0 := if y < p then y else y + 1;
    assert Occupies(CellAt(t, x, y0), x, y0);
  }

  lemma LessRowCellPlaced(t: Table, p: int, id: CellId, y: int, x: int)
    requires MatrixValid(t) && 0 <= p < |t.rows| && 0 <= y < |t.rows| - 1 && 0 <= x < |t.cols|
    requires id in CellsLessRow(t, p) && Occupies(CellsLessRow(t, p)[id], x, y)
    ensures SlotsLessRow(t, p)[y][x] == id
  {
    var y0 := if y < p then y else y + 1;
    assert Occupies(t.cells[id], x, y0);
  }

  lemma LessRowCellFits(t: Table, p: int, id: CellId)
    requires MatrixValid(t) && 0 <= p < |t.rows| && id in CellsLessRow(t, p)
    ensures Fits(CellsLessRow(t, p)[id], |t.cols|, |t.rows| - 1) && id < t.nextId
  {
    assert Fits(t.cells[id], |t.cols|, |t.rows|);
  }

  lemma DeleteRowMatrixValid(t: Table, p: int)
    requires MatrixValid(t) && 2 <= |t.rows| && 0 <= p < |t.rows|
    ensures MatrixValid(DeleteRowRaw(t, p))
  {
    var r := DeleteRowRaw(t, p);
    forall y, x | 0 <= y < |r.rows| && 0 <= x < |r.cols|
      ensures r.slots[y][x] in r.cells && Occupies(r.cells[r.slots[y][x]], x, y)
    {
      LessRowSlotOwned(t, p, y, x);
    }
    forall id | id in r.cells
      ensures Fits(r.cells[id], |r.cols|, |r.rows|) && id < r.nextId
    {
      LessRowCellFits(t, p, id);
    }
    forall id, y, x | id in r.cells && 0 <= y < |r.rows| && 0 <= x < |r.cols| && Occupies(r.cells[id], x, y)
      ensures r.slots[y][x] == id
    {
      LessRowCellPlaced(t, p, id, y, x);
    }
  }

  /** One raw row removal keeps everything but the row ledger settled. */
  lemma DeleteRowRawSound(t: Table, p: int)
    requires RowsUnsettled(t) && 2 <= |t.rows| && 0 <= p < |t.rows|
    ensures RowsUnsettled(DeleteRowRaw(t, p))
  {
    var r := DeleteRowRaw(t, p);
    DeleteRowMatrixValid(t, p);
    RemoveLineTotal(t.rows, p);
    assert forall i | 0 <= i < |r.selection| :: r.selection[i] in r.selection;
    assert ColumnLedgerValid(r);
  }

  /** Settling after one raw row removal touches only the rows' ledger. */
  lemma DeleteRowKeeps(t: Table, p: int)
    requires MatrixValid(t) && 2 <= |t.rows| && 0 <= p < |t.rows|
    ensures var r := SettleRows(DeleteRowRaw(t, p));
      && |r.rows| == |t.rows| - 1 && r.cols == t.cols && r.width == t.width
      && r.slots == SlotsLessRow(t, p) && r.cells == CellsLessRow(t, p)
      && r.selection == Without(t.selection, DestroyedByRow(t, p))
  {
  }

  /** The row-wise mirror of `DeleteColumnSettled`. */
  lemma DeleteRowSettled(t: Table, p: int)
    requires Valid(t) && 2 <= |t.rows| && 0 <= p < |t.rows|
    ensures var r := SettleRows(DeleteRowRaw(t, p));
      && Valid(r)
      && (p < |t.rows| - 1 || t.rows[p - 1].size >= t.config.minRowHeight ==> r.height == t.height - t.rows[p].size)
  {
    var m := DeleteRowRaw(t, p);
    DeleteRowRawSound(t, p);
    SettleRowsValid(m);
    RemoveLineTotal(t.rows, p);
    assert m.rows[|m.rows| - 1].size == if p < |t.rows| - 1 then t.rows[|t.rows| - 1].size else t.rows[p - 1].size;
  }

  /** `deleteRow(p)`: `_deleteRow(p)`, then offsets and the height are settled;
      the height loses the removed row's height unless the new last row had to
      be raised to the minimum (`DeleteRowLines` states what happens to the
      other rows). */
  function DeleteRow(t: Table, p: int): (r: Table)
    requires Valid(t) && 2 <= |t.rows| && 0 <= p < |t.rows|
    ensures Valid(r)
    ensures |r.rows| == |t.rows| - 1 && r.cols == t.cols && r.width == t.width
    ensures r.slots == SlotsLessRow(t, p)
    ensures r.cells == CellsLessRow(t, p)
    ensures r.selection == Without(t.selection, DestroyedByRow(t, p))
    ensures p < |t.rows| - 1 || t.rows[p - 1].size >= t.config.minRowHeight ==> r.height == t.height - t.rows[p].size
  {
    DeleteRowSettled(t, p);
    DeleteRowKeeps(t, p);
    SettleRows(DeleteRowRaw(t, p))
  }

  /** What `deleteRow(p)` does to each cell: a cell whose only row is `p` is
      deleted and leaves the selection; every other cell survives, adjusted by
      `RowRemoved`; no cell is created. */
  lemma DeleteRowCells(t: Table, p: int)
    requires Valid(t) && 2 <= |t.rows| && 0 <= p < |t.rows|
    ensures var r := DeleteRow(t, p);
      && (forall id | id in t.cells :: (id in r.cells <==> !(t.cells[id].row == p && t.cells[id].rowspan == 1)))
      && (forall id | id in r.cells :: id in t.cells && r.cells[id] == RowRemoved(t.cells[id], p))
      && (forall id :: id in r.selection <==> id in t.selection && id in r.cells)
  {
  }

  /** The rows after `deleteRow(p)`: the others keep their heights and header
      flags in order, except that a new last row below the minimum is raised
      to it. */
  lemma DeleteRowLines(t: Table, p: int)
    requires Valid(t) && 2 <= |t.rows| && 0 <= p < |t.rows|
    ensures var r := DeleteRow(t, p);
      && (forall i | p < i < |t.rows| :: r.rows[i - 1].size == t.rows[i].size && r.rows[i - 1].header == t.rows[i].header)
      && (forall i | 0 <= i < p :: r.rows[i].header == t.rows[i].header)
      && (forall i | 0 <= i < p && (i < |t.rows| - 2 || t.rows[i].size >= t.config.minRowHeight) ::
            r.rows[i].size == t.rows[i].size)
  {
    var m := DeleteRowRaw(t, p);
    assert m.rows == RemoveLine(t.rows, p);
    assert DeleteRow(t, p).rows == SettleRows(m).rows;
    RemoveSettled(t.rows, p, m.height, t.config.minRowHeight);
  }

  /** The loop of `deleteSelectedRows`: `_deleteRow(y)` for `y` from `hi` down
      to `lo`. Rows `lo` to `hi` leave the ledger and the matrix; every other
      row keeps its height, in order. */
  function DeleteRowsDown(t: Table, lo: int, hi: int): (r: Table)
    requires RowsUnsettled(t) && 0 <= lo && hi < |t.rows| && hi - lo + 1 < |t.rows|
    ensures RowsUnsettled(r)
    ensures r.cols == t.cols && r.width == t.width && r.config == t.config
    ensures forall v | v in r.selection :: v in t.selection
    ensures hi < lo ==> r == t
    ensures lo <= hi ==> SameSizes(r.rows, t.rows[..lo] + t.rows[hi + 1..])
    ensures lo <= hi ==> r.slots == t.slots[..lo] + t.slots[hi + 1..]
    decreases hi - lo
  {
    if hi < lo then t
    else
      DeleteRowRawSound(t, hi);
      var m := DeleteRowRaw(t, hi);
      var r := DeleteRowsDown(m, lo, hi - 1);
      DeleteRowsDownStep(t, lo, hi, r);
      r
  }

  /** One step of `DeleteRowsDown`. */
  lemma DeleteRowsDownStep(t: Table, lo: int, hi: int, r: Table)
    requires RowsUnsettled(t) && 0 <= lo <= hi < |t.rows| && hi - lo + 1 < |t.rows|
    requires var m := DeleteRowRaw(t, hi);
      && (hi - 1 < lo ==> r == m)
      && (lo <= hi - 1 ==> SameSizes(r.rows, m.rows[..lo] + m.rows[hi..]))
      && (lo <= hi - 1 ==> r.slots == m.slots[..lo] + m.slots[hi..])
    ensures SameSizes(r.rows, t.rows[..lo] + t.rows[hi + 1..])
    ensures r.slots == t.slots[..lo] + t.slots[hi + 1..]
  {
    var m := DeleteRowRaw(t, hi);
    var want := t.rows[..lo] + t.rows[hi + 1..];
    assert SameSizes(m.rows[..lo] + m.rows[hi..], want);
    if hi - 1 < lo {
      assert m.rows == m.rows[..lo] + m.rows[hi..];
    }
    RemoveAtSlices(t.slots, hi, lo);
  }

  /** `deleteSelectedRows`, the row-wise mirror of `DeleteSelectedColumns`. */
  function DeleteSelectedRows(t: Table): (r: Table)
    requires Valid(t) && IsRemoveRowAvailable(t)
    ensures Valid(r)
    ensures |r.rows| == |t.rows| - SelectedBounds(t).h && r.cols == t.cols
    ensures r.slots == Excise(t.slots, SelectedBounds(t).y, SelectedBounds(t).y2)
    ensures RowsDeleted(t, SelectedBounds(t).y, SelectedBounds(t).y2, r)
  {
    DeleteRowsRange(t, SelectedBounds(t))
  }

  /** The rows of bounds `b` deleted and the remaining rows settled. */
  function DeleteRowsRange(t: Table, b: Bounds): (r: Table)
    requires Valid(t) && 0 <= b.y <= b.y2 < |t.rows| && b.h == b.y2 - b.y + 1 < |t.rows|
    ensures Valid(r)
    ensures |r.rows| == |t.rows| - b.h && r.cols == t.cols
    ensures r.slots == Excise(t.slots, b.y, b.y2)
    ensures RowsDeleted(t, b.y, b.y2, r)
  {
    DeleteRowsRangeSettles(t, b);
    SettleRows(DeleteRowsDown(t, b.y, b.y2))
  }

  /** Settling after the deletion keeps the matrix valid and the cell-level
      outcome of the deletion. */
  lemma DeleteRowsRangeSettles(t: Table, b: Bounds)
    requires Valid(t) && 0 <= b.y <= b.y2 < |t.rows| && b.h == b.y2 - b.y + 1 < |t.rows|
    ensures var m := DeleteRowsDown(t, b.y, b.y2);
      && Valid(SettleRows(m)) && SettleRows(m).slots == m.slots && RowsDeleted(t, b.y, b.y2, SettleRows(m))
  {
    assert RowsUnsettled(t) && LastSize(t.rows) >= t.config.minRowHeight;
    DeleteRowsRangeCells(t, b);
    DeleteRowsRangeHeight(t, b);
    var m := DeleteRowsDown(t, b.y, b.y2);
    SettleRowsValid(m);
    var r := SettleRows(m);
    assert r.slots == m.slots && r.selection == m.selection;
  }

  /** The row-wise mirror of `WithinColumns`. */
  predicate WithinRows(c: Cell, lo: int, hi: int)
  {
    lo <= c.row && c.row + c.rowspan - 1 <= hi
  }

  /** The row-wise mirror of `DestroyedByColumns`. */
  function DestroyedByRows(t: Table, lo: int, hi: int): set<CellId>
  {
    set id | id in t.cells && WithinRows(t.cells[id], lo, hi)
  }

  /** The row-wise mirror of `ColumnsRemoved`. */
  function RowsRemoved(c: Cell, lo: int, hi: int): Cell
  {
    if hi < lo || c.row + c.rowspan - 1 < lo then c
    else if c.row > hi then c.(row := c.row - (hi - lo + 1))
    else
      var first := if c.row < lo then lo else c.row;
      var last := if c.row + c.rowspan - 1 < hi then c.row + c.rowspan - 1 else hi;
      c.(row := if c.row < lo then c.row else lo, rowspan := c.rowspan - (last - first + 1))
  }

  /** The row-wise mirror of `ColumnsRemovedStep`. */
  lemma RowsRemovedStep(c: Cell, lo: int, hi: int)
    requires lo <= hi && 1 <= c.rowspan && !(c.row == hi && c.rowspan == 1)
    ensures WithinRows(RowRemoved(c, hi), lo, hi - 1) <==> WithinRows(c, lo, hi)
    ensures !WithinRows(c, lo, hi) ==> RowsRemoved(RowRemoved(c, hi), lo, hi - 1) == RowsRemoved(c, lo, hi)
  {
  }

  /** The row-wise mirror of `DeleteColumnsDownCells`. */
  lemma {:induction false} DeleteRowsDownCells(t: Table, lo: int, hi: int)
    requires RowsUnsettled(t) && 0 <= lo && hi < |t.rows| && hi - lo + 1 < |t.rows|
    ensures var r := DeleteRowsDown(t, lo, hi);
      && (forall id :: id in r.cells <==> id in t.cells && !WithinRows(t.cells[id], lo, hi))
      && (forall id | id in r.cells :: r.cells[id] == RowsRemoved(t.cells[id], lo, hi))
      && r.selection == Without(t.selection, DestroyedByRows(t, lo, hi))
    decreases hi - lo
  {
    SpansPositive(t);
    if hi < lo {
      DeleteRowsDownCellsNone(t, lo, hi);
    } else {
      DeleteRowRawSound(t, hi);
      DeleteRowsDownCells(DeleteRowRaw(t, hi), lo, hi - 1);
      DeleteRowsCellsStep(t, DeleteRowRaw(t, hi), DeleteRowsDown(t, lo, hi), lo, hi);
    }
  }

  /** Removing no rows leaves every cell and the selection as they were. */
  lemma DeleteRowsDownCellsNone(t: Table, lo: int, hi: int)
    requires hi < lo && forall id | id in t.cells :: 1 <= t.cells[id].rowspan
    ensures forall id | id in t.cells :: !WithinRows(t.cells[id], lo, hi) && RowsRemoved(t.cells[id], lo, hi) == t.cells[id]
    ensures Without(t.selection, DestroyedByRows(t, lo, hi)) == t.selection
  {
    assert DestroyedByRows(t, lo, hi) == {};
  }

  /** One step of `DeleteRowsDownCells`, on the cells and the selection alone:
      removing row `hi` and then rows `lo` to `hi - 1` leaves what removing
      rows `lo` to `hi` leaves. */
  lemma DeleteRowsCellsStep(t: Table, m: Table, r: Table, lo: int, hi: int)
    requires lo <= hi && forall id | id in t.cells :: 1 <= t.cells[id].rowspan
    requires m.cells == CellsLessRow(t, hi) && m.selection == Without(t.selection, DestroyedByRow(t, hi))
    requires forall id :: id in r.cells <==> id in m.cells && !WithinRows(m.cells[id], lo, hi - 1)
    requires forall id | id in r.cells :: r.cells[id] == RowsRemoved(m.cells[id], lo, hi - 1)
    requires r.selection == Without(m.selection, DestroyedByRows(m, lo, hi - 1))
    ensures forall id :: id in r.cells <==> id in t.cells && !WithinRows(t.cells[id], lo, hi)
    ensures forall id | id in r.cells :: r.cells[id] == RowsRemoved(t.cells[id], lo, hi)
    ensures r.selection == Without(t.selection, DestroyedByRows(t, lo, hi))
  {
    forall id | id in t.cells && id !in DestroyedByRow(t, hi)
      ensures m.cells[id] == RowRemoved(t.cells[id], hi)
      ensures WithinRows(m.cells[id], lo, hi - 1) <==> WithinRows(t.cells[id], lo, hi)
      ensures !WithinRows(t.cells[id], lo, hi) ==> RowsRemoved(m.cells[id], lo, hi - 1) == RowsRemoved(t.cells[id], lo, hi)
    {
      RowsRemovedStep(t.cells[id], lo, hi);
    }
    WithoutTwice(t.selection, DestroyedByRow(t, hi), DestroyedByRows(m, lo, hi - 1), DestroyedByRows(t, lo, hi));
  }

  /** The row-wise mirror of `ColumnsDeleted`, with the height for the width. */
  ghost predicate RowsDeleted(t: Table, lo: int, hi: int, r: Table)
    requires 0 <= lo <= hi < |t.rows| && hi - lo + 1 < |t.rows|
  {
    && (hi < |t.rows| - 1 || t.rows[lo - 1].size >= t.config.minRowHeight ==> r.height == t.height - Total(t.rows[lo..hi + 1]))
    && (forall id :: id in r.cells <==> id in t.cells && !WithinRows(t.cells[id], lo, hi))
    && (forall id | id in r.cells :: r.cells[id] == RowsRemoved(t.cells[id], lo, hi))
    && r.selection == Without(t.selection, DestroyedByRows(t, lo, hi))
  }

  /** The cell part of `RowsDeleted` for `DeleteRowsRange`. */
  lemma DeleteRowsRangeCells(t: Table, b: Bounds)
    requires RowsUnsettled(t) && 0 <= b.y <= b.y2 < |t.rows| && b.h == b.y2 - b.y + 1 < |t.rows|
    ensures var r := SettleRows(DeleteRowsDown(t, b.y, b.y2));
      && (forall id :: id in r.cells <==> id in t.cells && !WithinRows(t.cells[id], b.y, b.y2))
      && (forall id | id in r.cells :: r.cells[id] == RowsRemoved(t.cells[id], b.y, b.y2))
      && r.selection == Without(t.selection, DestroyedByRows(t, b.y, b.y2))
  {
    DeleteRowsDownCells(t, b.y, b.y2);
  }

  /** The row-wise mirror of `SettleColumnsKeepsWidth`. */
  lemma SettleRowsKeepsHeight(m: Table)
    requires |m.rows| >= 1 && m.height == Total(m.rows)
    ensures LastSize(m.rows) >= m.config.minRowHeight ==> SettleRows(m).height == m.height
  {
  }

  /** The ledger `DeleteRowsDown` leaves: the height drops by the removed
      rows, and the last row is the old last one, or the one before `lo`
      when the removed rows ended the table. */
  lemma DeleteRowsDownLedger(t: Table, lo: int, hi: int)
    requires RowsUnsettled(t) && 0 <= lo <= hi < |t.rows| && hi - lo + 1 < |t.rows|
    ensures var m := DeleteRowsDown(t, lo, hi);
      && |m.rows| >= 1 && m.height == Total(m.rows) && m.config == t.config
      && m.height == t.height - Total(t.rows[lo..hi + 1])
      && (hi < |t.rows| - 1 ==> LastSize(m.rows) == LastSize(t.rows))
      && (hi == |t.rows| - 1 ==> LastSize(m.rows) == t.rows[lo - 1].size)
  {
    ExcisedLines(t.rows, DeleteRowsDown(t, lo, hi).rows, lo, hi);
  }

  /** The height part of `RowsDeleted` for `DeleteRowsRange`. */
  lemma DeleteRowsRangeHeight(t: Table, b: Bounds)
    requires RowsUnsettled(t) && 0 <= b.y <= b.y2 < |t.rows| && b.h == b.y2 - b.y + 1 < |t.rows|
    requires LastSize(t.rows) >= t.config.minRowHeight
    ensures var r := SettleRows(DeleteRowsDown(t, b.y, b.y2));
      b.y2 < |t.rows| - 1 || t.rows[b.y - 1].size >= t.config.minRowHeight ==> r.height == t.height - Total(t.rows[b.y..b.y2 + 1])
  {
    DeleteRowsDownLedger(t, b.y, b.y2);
    SettleRowsKeepsHeight(DeleteRowsDown(t, b.y, b.y2));
  }
}

=== FILE: drag.dfy ===
/** Selecting cells by dragging across them: `selectionBegin` selects the cell
    the drag starts on, `_selectionProcess` selects the range from that cell to
    the one under the pointer whenever the pointer reaches a new cell, and
    `selectionFinish` ends the drag; with `setSelection`, `clearSelection`
    and `selectCell`. */
module Drag {
  import opened Seqs
  import opened Grid
  import opened Expand

  /** The drag in progress, if any: the cell it began on (`_selectionBegin`)
      and the cell last reached (`_selectionLast`). */
  datatype Sweep = NotSweeping | Sweeping(begin: CellId, last: CellId)

  /** The cells a drag refers to are cells of the table. */
  predicate SweepIn(t: Table, s: Sweep)
  {
    s.Sweeping? ==> s.begin in t.cells && s.last in t.cells
  }

  /** The anchor slot of cell `id`: its first column and row. */
  function Anchor(t: Table, id: CellId): (p: Pos)
    requires MatrixValid(t) && id in t.cells
    ensures InGrid(t, p.x, p.y) && t.slots[p.y][p.x] == id
  {
    var c := t.cells[id];
    assert Fits(c, |t.cols|, |t.rows|) && Occupies(c, c.col, c.row);
    Pos(c.col, c.row)
  }

  /** `setSelection`: the selection becomes the given cells. */
  function SetSelection(t: Table, sel: seq<CellId>): (r: Table)
    ensures r.selection == sel && r == t.(selection := sel)
  {
    t.(selection := sel)
  }

  /** `clearSelection`: an empty selection stays as it is, any other is
      emptied. */
  function ClearSelection(t: Table): (r: Table)
    ensures r.selection == [] && r == t.(selection := [])
  {
    if |t.selection| == 0 then t else t.(selection := [])
  }

  /** `selectCell`: the selection becomes the cell in slot (`x`, `y`). */
  function SelectCell(t: Table, x: int, y: int): (r: Table)
    requires MatrixValid(t) && InGrid(t, x, y)
    ensures r == t.(selection := r.selection) && SelectionValid(r)
    ensures |r.selection| == 1 && Occupies(r.cells[r.selection[0]], x, y)
  {
    SetSelection(t, [t.slots[y][x]])
  }

  /** `selectionBegin` on cell `id` (the `selection:begin` event always
      fires): the drag begins and ends at the cell, which becomes the
      selection. */
  function SelectionBegin(t: Table, id: CellId): (r: (Table, Sweep))
    requires MatrixValid(t) && id in t.cells
    ensures r.0 == t.(selection := [id])
    ensures r.1 == Sweeping(id, id)
  {
    var a := Anchor(t, id);
    (SelectCell(t, a.x, a.y), Sweeping(id, id))
  }

  /** `_selectionProcess` with the pointer over cell `id`: outside a drag, or
      over the cell last reached, nothing happens; otherwise the
      `selection:change` event fires (the flag), the cell becomes the last
      reached, and the selection becomes the range from the cell the drag
      began on to this one. */
  function SelectionProcess(t: Table, s: Sweep, id: CellId): (r: (Table, Sweep, bool))
    requires MatrixValid(t) && SweepIn(t, s) && id in t.cells
    ensures r.1 == (if s.Sweeping? then Sweeping(s.begin, id) else s)
    ensures r.2 <==> s.Sweeping? && s.last != id
    ensures !r.2 ==> r.0 == t
    ensures r.0 == t.(selection := r.0.selection) && SweepIn(r.0, r.1)
    ensures r.2 ==> SelectionValid(r.0) && forall c :: c in r.0.selection <==>
      c in t.cells && Inside(t.cells[c], RangeRect(t, Anchor(t, s.begin), Anchor(t, id)))
  {
    if s.NotSweeping? || s.last == id then (t, s, false)
    else (SelectRange(t, Anchor(t, s.begin), Anchor(t, id)), Sweeping(s.begin, id), true)
  }

  /** `selectionFinish` (the `selection:end` event always fires): the drag,
      if any, is over; the selection stays. */
  function SelectionFinish(s: Sweep): (r: Sweep)
    ensures r.NotSweeping?
  {
    if s.NotSweeping? then s else NotSweeping
  }

  /** A drag across the cells of `path`, one `_selectionProcess` per cell. */
  function SweepPath(t: Table, s: Sweep, path: seq<CellId>): (r: (Table, Sweep))
    requires MatrixValid(t) && SweepIn(t, s)
    requires forall i | 0 <= i < |path| :: path[i] in t.cells
    decreases |path|
  {
    if path == [] then (t, s)
    else
      var r := SelectionProcess(t, s, path[0]);
      SweepPath(r.0, r.1, path[1..])
  }

  // ------------------------------------------- the range ignores the selection

  /** `u` is `t` with another selection. */
  predicate Reselected(t: Table, u: Table)
  {
    u == t.(selection := u.selection)
  }

  lemma EscapeReselected(t: Table, u: Table, r: Rect, x: int, y: int)
    requires MatrixValid(t) && Reselected(t, u) && RectIn(t, r) && r.x1 <= x && r.y1 <= y <= r.y2
    ensures Escape(u, r, x, y) == Escape(t, r, x, y)
    decreases r.x2 - x, r.y2 - y
  {
    if x > r.x2 {
    } else if !Inside(CellAt(t, x, y), r) {
    } else if y < r.y2 {
      EscapeReselected(t, u, r, x, y + 1);
    } else {
      EscapeReselected(t, u, r, x + 1, r.y1);
    }
  }

  lemma GrowReselected(t: Table, u: Table, r: Rect)
    requires MatrixValid(t) && Reselected(t, u) && RectIn(t, r)
    ensures Grow(u, r) == Grow(t, r)
    decreases Slack(t, r)
  {
    EscapeReselected(t, u, r, r.x1, r.y1);
    match Escape(t, r, r.x1, r.y1)
    case None =>
    case Some(p) =>
      var c := CellAt(t, p.x, p.y);
      assert Occupies(c, p.x, p.y) && Fits(c, |t.cols|, |t.rows|);
      GrowReselected(t, u, Hull(r, c));
  }

  lemma ColumnIdsReselected(t: Table, u: Table, r: Rect, x: int, y: int)
    requires MatrixValid(t) && Reselected(t, u) && RectIn(t, r) && r.x1 <= x <= r.x2 && r.y1 <= y
    ensures ColumnIds(u, r, x, y) == ColumnIds(t, r, x, y)
    decreases r.y2 - y
  {
    if y <= r.y2 {
      ColumnIdsReselected(t, u, r, x, y + 1);
    }
  }

  lemma RectIdsReselected(t: Table, u: Table, r: Rect, x: int)
    requires MatrixValid(t) && Reselected(t, u) && RectIn(t, r) && r.x1 <= x
    ensures RectIds(u, r, x) == RectIds(t, r, x)
    decreases r.x2 - x
  {
    if x <= r.x2 {
      ColumnIdsReselected(t, u, r, x, r.y1);
      RectIdsReselected(t, u, r, x + 1);
    }
  }

  /** `selectRange` does not read the selection it replaces. */
  lemma SelectRangeReselected(t: Table, sel: seq<CellId>, a: Pos, b: Pos)
    requires MatrixValid(t) && InGrid(t, a.x, a.y) && InGrid(t, b.x, b.y)
    ensures SelectRange(t.(selection := sel), a, b) == SelectRange(t, a, b)
  {
    var u := t.(selection := sel);
    GrowReselected(t, u, Span(a, b));
    var g := RangeRect(t, a, b);
    RectIdsReselected(t, u, g, g.x1);
  }

  // ------------------------------------------------------ the drag as a whole

  /** The rectangle a cell covers. */
  function CellRect(c: Cell): Rect
  {
    Rect(c.col, c.row, c.col + c.colspan - 1, c.row + c.rowspan - 1)
  }

  /** A cell's own rectangle is merge-closed. */
  lemma CellRectClosed(t: Table, id: CellId)
    requires MatrixValid(t) && id in t.cells
    ensures RectIn(t, CellRect(t.cells[id])) && Closed(t, CellRect(t.cells[id]))
  {
    var c := t.cells[id];
    var g := CellRect(c);
    assert Fits(c, |t.cols|, |t.rows|);
    forall y, x | g.y1 <= y <= g.y2 && g.x1 <= x <= g.x2
      ensures Inside(CellAt(t, x, y), g)
    {
      assert Occupies(c, x, y);
    }
  }

  /** The range from a cell to itself is that cell's rectangle. */
  lemma RangeRectSingle(t: Table, id: CellId)
    requires MatrixValid(t) && id in t.cells
    ensures RangeRect(t, Anchor(t, id), Anchor(t, id)) == CellRect(t.cells[id])
  {
    var a := Anchor(t, id);
    var g := RangeRect(t, a, a);
    CellRectClosed(t, id);
    GrowLeast(t, Span(a, a), CellRect(t.cells[id]));
    assert Inside(CellAt(t, a.x, a.y), g);
  }

  /** Selecting the range from a cell to itself selects exactly that cell:
      any other cell lying inside its rectangle would share its anchor slot. */
  lemma SelectRangeSingle(t: Table, id: CellId)
    requires MatrixValid(t) && id in t.cells
    ensures SelectRange(t, Anchor(t, id), Anchor(t, id)) == t.(selection := [id])
  {
    var a := Anchor(t, id);
    var sel := SelectRange(t, a, a).selection;
    var c := t.cells[id];
    RangeRectSingle(t, id);
    assert Inside(c, CellRect(c));
    assert id in sel;
    if |sel| >= 2 {
      assert sel[0] != sel[1];
    }
    forall i | 0 <= i < |sel|
      ensures sel[i] == id
    {
      var d := t.cells[sel[i]];
      assert Inside(d, CellRect(c)) && Fits(d, |t.cols|, |t.rows|);
      assert Occupies(c, d.col, d.row) && Occupies(d, d.col, d.row);
    }
    assert sel == [id];
  }

  /** One step of a drag that has reached `l` from `b`: reaching `id` selects
      the range from `b` to `id`, and reports a change unless `id` is `l`. */
  lemma ProcessStep(t: Table, b: CellId, l: CellId, id: CellId)
    requires MatrixValid(t) && b in t.cells && l in t.cells && id in t.cells
    ensures SelectionProcess(SelectRange(t, Anchor(t, b), Anchor(t, l)), Sweeping(b, l), id)
      == (SelectRange(t, Anchor(t, b), Anchor(t, id)), Sweeping(b, id), l != id)
  {
    var u := SelectRange(t, Anchor(t, b), Anchor(t, l));
    AnchorReselected(t, u, b);
    AnchorReselected(t, u, id);
    if id != l {
      SelectRangeReselected(t, u.selection, Anchor(t, b), Anchor(t, id));
    }
  }

  /** A cell's anchor does not depend on the selection. */
  lemma AnchorReselected(t: Table, u: Table, id: CellId)
    requires MatrixValid(t) && u == t.(selection := u.selection) && id in t.cells
    ensures MatrixValid(u) && Anchor(u, id) == Anchor(t, id)
  {
  }

  /** The cell last reached by a drag that had reached `l` and then crossed
      `path`. */
  function Reached(l: CellId, path: seq<CellId>): (e: CellId)
    ensures e == if path == [] then l else path[|path| - 1]
    decreases |path|
  {
    if path == [] then l else Reached(path[0], path[1..])
  }

  /** A drag that has reached `l` from `b`, continued across `path`: the
      selection is the range from `b` to the last cell reached. */
  lemma {:induction false} SweepFrom(t: Table, b: CellId, l: CellId, path: seq<CellId>)
    requires MatrixValid(t) && b in t.cells && l in t.cells
    requires forall i | 0 <= i < |path| :: path[i] in t.cells
    ensures var e := Reached(l, path);
      SweepPath(SelectRange(t, Anchor(t, b), Anchor(t, l)), Sweeping(b, l), path)
        == (SelectRange(t, Anchor(t, b), Anchor(t, e)), Sweeping(b, e))
    decreases |path|
  {
    if path != [] {
      ProcessStep(t, b, l, path[0]);
      SweepFrom(t, b, path[0], path[1..]);
    }
  }

  /** However the pointer wanders, the selection at any moment of a drag is
      the range from the cell the drag began on to the cell last reached; a
      path that never leaves the first cell keeps just that cell selected. */
  lemma SweepEnds(t: Table, b: CellId, path: seq<CellId>)
    requires MatrixValid(t) && b in t.cells
    requires forall i | 0 <= i < |path| :: path[i] in t.cells
    ensures var e := if path == [] then b else path[|path| - 1];
      var s := SelectionBegin(t, b);
      SweepPath(s.0, s.1, path) == (SelectRange(t, Anchor(t, b), Anchor(t, e)), Sweeping(b, e))
  {
    SelectRangeSingle(t, b);
    SweepFrom(t, b, b, path);
  }

  /** Reaching the same cell twice in a row changes nothing the second time. */
  lemma ProcessTwice(t: Table, s: Sweep, id: CellId)
    requires MatrixValid(t) && SweepIn(t, s) && id in t.cells
    ensures var r := SelectionProcess(t, s, id);
      SelectionProcess(r.0, r.1, id) == (r.0, r.1, false)
  {
  }
}

=== FILE: expand.dfy ===
/** `selectRange` and its helpers `_addCellToSelection`, `_addRowToSelection`
    and `_addColumnToSelection`: the rectangle between two corners is grown
    until every cell it touches lies wholly inside it, and the selection
    becomes the distinct cells of that rectangle. */
module Expand {
  import opened Wrappers
  import opened Seqs
  import opened Grid
  import opened Selection

  /** `_currentSelectionBounds`: the first and last column and row, inclusive. */
  datatype Rect = Rect(x1: int, y1: int, x2: int, y2: int)

  /** A slot position: column, row. */
  datatype Pos = Pos(x: int, y: int)

  /** A non-empty rectangle inside the grid. */
  predicate RectIn(t: Table, r: Rect)
  {
    0 <= r.x1 <= r.x2 < |t.cols| && 0 <= r.y1 <= r.y2 < |t.rows|
  }

  predicate InRect(r: Rect, x: int, y: int)
  {
    r.x1 <= x <= r.x2 && r.y1 <= y <= r.y2
  }

  /** Cell `c` lies wholly inside `r`. */
  predicate Inside(c: Cell, r: Rect)
  {
    r.x1 <= c.col && c.col + c.colspan - 1 <= r.x2 && r.y1 <= c.row && c.row + c.rowspan - 1 <= r.y2
  }

  /** Cell `c` shares at least one slot with `r`. */
  predicate Meets(c: Cell, r: Rect)
  {
    c.col <= r.x2 && r.x1 <= c.col + c.colspan - 1 && c.row <= r.y2 && r.y1 <= c.row + c.rowspan - 1
  }

  predicate Contains(outer: Rect, inner: Rect)
  {
    outer.x1 <= inner.x1 && inner.x2 <= outer.x2 && outer.y1 <= inner.y1 && inner.y2 <= outer.y2
  }

  /** Merge-closed: every cell touching the rectangle lies wholly inside it. */
  predicate Closed(t: Table, r: Rect)
    requires MatrixValid(t) && RectIn(t, r)
  {
    forall y, x | r.y1 <= y <= r.y2 && r.x1 <= x <= r.x2 :: Inside(CellAt(t, x, y), r)
  }

  /** The slots of `r` left to visit in column-major order from (`x`, `y`): the
      first one whose cell reaches outside `r`, if any. */
  function Escape(t: Table, r: Rect, x: int, y: int): (e: Option<Pos>)
    requires MatrixValid(t) && RectIn(t, r) && r.x1 <= x && r.y1 <= y <= r.y2
    ensures e.None? ==> forall y', x' | r.y1 <= y' <= r.y2 && x < x' <= r.x2 :: Inside(CellAt(t, x', y'), r)
    ensures e.None? ==> forall y' | y <= y' <= r.y2 && x <= r.x2 :: Inside(CellAt(t, x, y'), r)
    ensures e.Some? ==> InRect(r, e.value.x, e.value.y) && !Inside(CellAt(t, e.value.x, e.value.y), r)
    decreases r.x2 - x, r.y2 - y
  {
    if x > r.x2 then None
    else if !Inside(CellAt(t, x, y), r) then Some(Pos(x, y))
    else if y < r.y2 then Escape(t, r, x, y + 1)
    else Escape(t, r, x + 1, r.y1)
  }

  /** How far `r` still is from the grid's edges. */
  function Slack(t: Table, r: Rect): int
  {
    r.x1 + r.y1 + (|t.cols| - 1 - r.x2) + (|t.rows| - 1 - r.y2)
  }

  /** The four tests of `_addCellToSelection`: each side of the bounds moves out
      to cell `c`'s edge when `c` reaches past it. */
  function Hull(r: Rect, c: Cell): (h: Rect)
    ensures Contains(h, r) && Inside(c, h)
  {
    Rect(if c.col < r.x1 then c.col else r.x1,
         if c.row < r.y1 then c.row else r.y1,
         if c.col + c.colspan - 1 > r.x2 then c.col + c.colspan - 1 else r.x2,
         if c.row + c.rowspan - 1 > r.y2 then c.row + c.rowspan - 1 else r.y2)
  }

  /** The selection's bounds grown to the merge-closed rectangle: while some
      slot holds a cell reaching outside, the bounds take that cell in. Each
      step strictly grows the rectangle inside the grid, so `Slack` decreases. */
  function Grow(t: Table, r: Rect): (g: Rect)
    requires MatrixValid(t) && RectIn(t, r)
    ensures RectIn(t, g) && Contains(g, r) && Closed(t, g)
    decreases Slack(t, r)
  {
    match Escape(t, r, r.x1, r.y1)
    case None => r
    case Some(p) =>
      var c := CellAt(t, p.x, p.y);
      assert Occupies(c, p.x, p.y) && Fits(c, |t.cols|, |t.rows|);
      Grow(t, Hull(r, c))
  }

  /** The grown rectangle is the least merge-closed rectangle containing the
      start: any closed rectangle that contains the start contains it. */
  lemma {:induction false} GrowLeast(t: Table, r: Rect, s: Rect)
    requires MatrixValid(t) && RectIn(t, r) && RectIn(t, s) && Closed(t, s) && Contains(s, r)
    ensures Contains(s, Grow(t, r))
    decreases Slack(t, r)
  {
    match Escape(t, r, r.x1, r.y1)
    case None =>
    case Some(p) =>
      var c := CellAt(t, p.x, p.y);
      assert Occupies(c, p.x, p.y) && Fits(c, |t.cols|, |t.rows|);
      assert Inside(CellAt(t, p.x, p.y), s);
      GrowLeast(t, Hull(r, c), s);
  }

  /** A closed rectangle does not grow. */
  lemma GrowClosed(t: Table, r: Rect)
    requires MatrixValid(t) && RectIn(t, r) && Closed(t, r)
    ensures Grow(t, r) == r
  {
    GrowLeast(t, r, r);
  }

  /** The ids in column `x` of `r`, from row `y` down. */
  function ColumnIds(t: Table, r: Rect, x: int, y: int): (s: seq<CellId>)
    requires MatrixValid(t) && RectIn(t, r) && r.x1 <= x <= r.x2 && r.y1 <= y
    ensures forall v | v in s :: v in t.cells && Meets(t.cells[v], r)
    ensures forall y' | y <= y' <= r.y2 :: t.slots[y'][x] in s
    decreases r.y2 - y
  {
    if y > r.y2 then []
    else
      var here := t.slots[y][x];
      assert Occupies(t.cells[here], x, y);
      [here] + ColumnIds(t, r, x, y + 1)
  }

  /** The ids in the slots of `r` from column `x` on, column by column, top to
      bottom within a column. */
  function RectIds(t: Table, r: Rect, x: int): (s: seq<CellId>)
    requires MatrixValid(t) && RectIn(t, r) && r.x1 <= x
    ensures forall v | v in s :: v in t.cells && Meets(t.cells[v], r)
    ensures forall y', x' | r.y1 <= y' <= r.y2 && x <= x' <= r.x2 :: t.slots[y'][x'] in s
    decreases r.x2 - x
  {
    if x > r.x2 then []
    else
      var col, rest := ColumnIds(t, r, x, r.y1), RectIds(t, r, x + 1);
      assert forall v | v in col + rest :: v in col || v in rest;
      col + rest
  }

  /** The rectangle `selectRange(a, b)` starts from: the corners normalised
      with min and max. */
  function Span(a: Pos, b: Pos): (r: Rect)
    ensures r.x1 <= r.x2 && r.y1 <= r.y2
    ensures InRect(r, a.x, a.y) && InRect(r, b.x, b.y)
    ensures r.x1 in {a.x, b.x} && r.x2 in {a.x, b.x} && r.y1 in {a.y, b.y} && r.y2 in {a.y, b.y}
  {
    Rect(if a.x < b.x then a.x else b.x, if a.y < b.y then a.y else b.y,
         if a.x < b.x then b.x else a.x, if a.y < b.y then b.y else a.y)
  }

  /** The rectangle `selectRange(a, b)` ends with. */
  function RangeRect(t: Table, a: Pos, b: Pos): (g: Rect)
    requires MatrixValid(t) && InGrid(t, a.x, a.y) && InGrid(t, b.x, b.y)
    ensures RectIn(t, g) && Closed(t, g) && Contains(g, Span(a, b))
  {
    Grow(t, Span(a, b))
  }

  /** A cell meeting a closed rectangle lies inside it. */
  lemma MeetsClosed(t: Table, r: Rect, id: CellId)
    requires MatrixValid(t) && RectIn(t, r) && Closed(t, r) && id in t.cells && Meets(t.cells[id], r)
    ensures Inside(t.cells[id], r)
  {
    var c := t.cells[id];
    var x := if c.col < r.x1 then r.x1 else c.col;
    var y := if c.row < r.y1 then r.y1 else c.row;
    assert Fits(c, |t.cols|, |t.rows|) && Occupies(c, x, y);
    assert Inside(CellAt(t, x, y), r);
  }

  /** The distinct cells of a closed rectangle, each once, listed in
      column-major slot order: exactly the cells lying inside it. (The table
      itself pushes them in the order its rectangle growth meets them, which
      can differ; only the set is promised.) */
  function RangeSelection(t: Table, g: Rect): (sel: seq<CellId>)
    requires MatrixValid(t) && RectIn(t, g) && Closed(t, g)
    ensures Distinct(sel)
    ensures forall i | 0 <= i < |sel| :: sel[i] in t.cells
    ensures forall id :: id in sel <==> id in t.cells && Inside(t.cells[id], g)
  {
    var sel := Dedup(RectIds(t, g, g.x1), []);
    forall id | id in sel
      ensures Inside(t.cells[id], g)
    {
      MeetsClosed(t, g, id);
    }
    forall id | id in t.cells && Inside(t.cells[id], g)
      ensures id in sel
    {
      var c := t.cells[id];
      assert Occupies(c, c.col, c.row) && Fits(c, |t.cols|, |t.rows|);
    }
    sel
  }

  /** `selectRange(a, b)`: the selection becomes the distinct cells of the
      grown rectangle, each once. */
  function SelectRange(t: Table, a: Pos, b: Pos): (r: Table)
    requires MatrixValid(t) && InGrid(t, a.x, a.y) && InGrid(t, b.x, b.y)
    ensures r == t.(selection := r.selection)
    ensures SelectionValid(r)
    ensures forall id :: id in r.selection <==> id in t.cells && Inside(t.cells[id], RangeRect(t, a, b))
  {
    t.(selection := RangeSelection(t, RangeRect(t, a, b)))
  }

  /** `selectRange` does not depend on which corner comes first. */
  lemma SelectRangeSymmetric(t: Table, a: Pos, b: Pos)
    requires MatrixValid(t) && InGrid(t, a.x, a.y) && InGrid(t, b.x, b.y)
    ensures SelectRange(t, a, b) == SelectRange(t, b, a)
  {
    assert Span(a, b) == Span(b, a);
  }

  /** A selection lying inside `g` with a cell anchored at its top-left
      corner has that corner as the top-left of its bounds. */
  lemma BoundsExactLow(t: Table, g: Rect, i: int)
    requires SelectionValid(t) && 0 <= i < |t.selection|
    requires forall k | 0 <= k < |t.selection| :: Inside(t.cells[t.selection[k]], g)
    requires t.cells[t.selection[i]].col == g.x1 && t.cells[t.selection[i]].row == g.y1
    ensures var bd := SelectionBounds(t).value; bd.x == g.x1 && bd.y == g.y1
  {
    var bd := SelectionBounds(t).value;
    assert Within(t.cells[t.selection[i]], bd);
    var l, u, _, _ := SelectionBoundsTight(t);
    assert Inside(t.cells[t.selection[l]], g) && Inside(t.cells[t.selection[u]], g);
  }

  /** A selection lying inside `g` with a cell reaching its bottom-right
      corner has that corner as the bottom-right of its bounds. */
  lemma BoundsExactHigh(t: Table, g: Rect, j: int)
    requires SelectionValid(t) && 0 <= j < |t.selection|
    requires forall k | 0 <= k < |t.selection| :: Inside(t.cells[t.selection[k]], g)
    requires t.cells[t.selection[j]].col + t.cells[t.selection[j]].colspan - 1 == g.x2
    requires t.cells[t.selection[j]].row + t.cells[t.selection[j]].rowspan - 1 == g.y2
    ensures var bd := SelectionBounds(t).value; bd.x2 == g.x2 && bd.y2 == g.y2
  {
    var bd := SelectionBounds(t).value;
    assert Within(t.cells[t.selection[j]], bd);
    var _, _, r, d := SelectionBoundsTight(t);
    assert Inside(t.cells[t.selection[r]], g) && Inside(t.cells[t.selection[d]], g);
  }

  /** The bounds of a range selection are exactly the grown rectangle, so the
      selection is merge-closed. */
  lemma SelectRangeBounds(t: Table, a: Pos, b: Pos)
    requires MatrixValid(t) && InGrid(t, a.x, a.y) && InGrid(t, b.x, b.y)
    ensures var g := RangeRect(t, a, b); var bd := SelectionBounds(SelectRange(t, a, b)).value;
      bd.x == g.x1 && bd.y == g.y1 && bd.x2 == g.x2 && bd.y2 == g.y2
  {
    var r := SelectRange(t, a, b);
    var g := RangeRect(t, a, b);
    var id1, id2 := t.slots[g.y1][g.x1], t.slots[g.y2][g.x2];
    assert Occupies(t.cells[id1], g.x1, g.y1) && Occupies(t.cells[id2], g.x2, g.y2);
    assert Inside(CellAt(t, g.x1, g.y1), g) && Inside(CellAt(t, g.x2, g.y2), g);
    assert id1 in r.selection && id2 in r.selection;
    var i :| 0 <= i < |r.selection| && r.selection[i] == id1;
    var j :| 0 <= j < |r.selection| && r.selection[j] == id2;
    BoundsExactLow(r, g, i);
    BoundsExactHigh(r, g, j);
  }
}

=== FILE: geometry.dfy ===
/** The cell-extent part of `_updateCellsGeometry`: the frame (left, top, width,
    height) each cell gets from the columns and rows it spans. */
module Geometry {
  import opened Ledger
  import opened Grid
  import opened Serial

  /** Where a cell is drawn, measured from the table's top-left corner. */
  datatype Frame = Frame(left: int, top: int, width: int, height: int)

  /** The frame of cell `c`: the running totals of the lines before its anchor,
      and the extents of the lines it spans. */
  function FrameOf(t: Table, c: Cell): Frame
    requires Fits(c, |t.cols|, |t.rows|)
  {
    Frame(Total(t.cols[..c.col]), Total(t.rows[..c.row]), Extent(t.cols, c.col, c.colspan), Extent(t.rows, c.row, c.rowspan))
  }

  /** A cell's width is the sum of the widths of the columns it spans, and its
      right edge is the total of the columns up to its last one (so it meets the
      next column's left); likewise for its height and rows. */
  lemma FrameSpans(t: Table, c: Cell)
    requires Fits(c, |t.cols|, |t.rows|)
    ensures var f := FrameOf(t, c);
      && f.width == Total(t.cols[c.col..c.col + c.colspan])
      && f.height == Total(t.rows[c.row..c.row + c.rowspan])
      && f.left + f.width == Total(t.cols[..c.col + c.colspan])
      && f.top + f.height == Total(t.rows[..c.row + c.rowspan])
  {
    SpanTotal(t.cols, c.col, c.colspan);
    SpanTotal(t.rows, c.row, c.rowspan);
  }

  /** The lines before `start` and the `span` lines from it make up the prefix
      that ends after them. */
  lemma SpanTotal(ls: seq<Line>, start: int, span: int)
    requires 0 <= start && 0 <= span && start + span <= |ls|
    ensures Total(ls[..start]) + Total(ls[start..start + span]) == Total(ls[..start + span])
  {
    assert ls[..start + span] == ls[..start] + ls[start..start + span];
    TotalAppend(ls[..start], ls[start..start + span]);
  }

  /** The frames of the cells anchored before slot (`x`, `y`) in row-major order. */
  function FramesBefore(t: Table, x: int, y: int): (m: map<CellId, Frame>)
    requires MatrixValid(t)
    ensures forall id :: id in m <==> id in t.cells && Before(t.cells[id], x, y)
  {
    map id | id in t.cells && Before(t.cells[id], x, y) :: FrameOf(t, t.cells[id])
  }

  /** The frame of every cell of the table. */
  function Frames(t: Table): (m: map<CellId, Frame>)
    requires MatrixValid(t)
    ensures m.Keys == t.cells.Keys
    ensures forall id | id in m :: m[id] == FrameOf(t, t.cells[id])
  {
    var m := FramesBefore(t, 0, |t.rows|);
    assert forall id | id in t.cells :: Fits(t.cells[id], |t.cols|, |t.rows|);
    m
  }

  /** Passing slot (`x`, `y`) where a cell is anchored adds that cell's frame. */
  lemma FramesStepAnchored(t: Table, x: int, y: int)
    requires MatrixValid(t) && InGrid(t, x, y) && Anchored(t, x, y)
    ensures FramesBefore(t, x + 1, y) == FramesBefore(t, x, y)[t.slots[y][x] := FrameOf(t, CellAt(t, x, y))]
  {
    var id0 := t.slots[y][x];
    forall id | id in t.cells
      ensures Before(t.cells[id], x + 1, y) <==> Before(t.cells[id], x, y) || id == id0
    {
      var c := t.cells[id];
      if c.col == x && c.row == y {
        AnchorsUnique(t, id, id0);
      }
    }
  }

  /** Passing a slot that anchors nothing adds no frame. */
  lemma FramesStepSkipped(t: Table, x: int, y: int)
    requires MatrixValid(t) && InGrid(t, x, y) && !Anchored(t, x, y)
    ensures FramesBefore(t, x + 1, y) == FramesBefore(t, x, y)
  {
    forall id | id in t.cells
      ensures Before(t.cells[id], x + 1, y) <==> Before(t.cells[id], x, y)
    {
      var c := t.cells[id];
      if c.col == x && c.row == y {
        assert Occupies(c, x, y);
      }
    }
  }

  /** Past the last column of row `y`, the cells anchored before the scan
      position are those anchored in row `y` or above. */
  lemma FramesRowEnd(t: Table, y: int)
    requires MatrixValid(t) && 0 <= y < |t.rows|
    ensures FramesBefore(t, |t.cols|, y) == FramesBefore(t, 0, y + 1)
  {
    assert forall id | id in t.cells :: Fits(t.cells[id], |t.cols|, |t.rows|);
  }

  /** The scan of `_updateCellsGeometry` at slot (`x`, `y`): `left` and `top` are
      the running totals and `frames` holds the cells anchored before the slot. */
  ghost predicate Scanned(t: Table, frames: map<CellId, Frame>, x: int, y: int, left: int, top: int)
    requires MatrixValid(t)
  {
    && 0 <= y < |t.rows| && 0 <= x <= |t.cols|
    && left == Total(t.cols[..x]) && top == Total(t.rows[..y])
    && frames == FramesBefore(t, x, y)
  }

  /** The scan before row `y`. */
  ghost predicate RowsScanned(t: Table, frames: map<CellId, Frame>, y: int, top: int)
    requires MatrixValid(t)
  {
    0 <= y <= |t.rows| && top == Total(t.rows[..y]) && frames == FramesBefore(t, 0, y)
  }

  /** One slot of the scan where a cell is anchored: the cell gets its frame,
      and `left` moves past the column. */
  lemma ScanAnchored(t: Table, frames: map<CellId, Frame>, x: int, y: int, left: int, top: int)
    requires MatrixValid(t) && Scanned(t, frames, x, y, left, top) && x < |t.cols| && Anchored(t, x, y)
    ensures var c := t.cells[t.slots[y][x]];
      Scanned(t, frames[t.slots[y][x] := Frame(left, top, Extent(t.cols, x, c.colspan), Extent(t.rows, y, c.rowspan))],
              x + 1, y, left + t.cols[x].size, top)
  {
    TotalStep(t.cols, x);
    assert Fits(CellAt(t, x, y), |t.cols|, |t.rows|);
    FramesStepAnchored(t, x, y);
  }

  /** One slot of the scan that anchors nothing: only `left` moves. */
  lemma ScanSkipped(t: Table, frames: map<CellId, Frame>, x: int, y: int, left: int, top: int)
    requires MatrixValid(t) && Scanned(t, frames, x, y, left, top) && x < |t.cols| && !Anchored(t, x, y)
    ensures Scanned(t, frames, x + 1, y, left + t.cols[x].size, top)
  {
    TotalStep(t.cols, x);
    FramesStepSkipped(t, x, y);
  }

  /** The start of a row of the scan. */
  lemma ScanRowStart(t: Table, frames: map<CellId, Frame>, y: int, top: int)
    requires MatrixValid(t) && RowsScanned(t, frames, y, top) && y < |t.rows|
    ensures Scanned(t, frames, 0, y, 0, top)
  {
    assert t.cols[..0] == [];
  }

  /** The end of a row of the scan. */
  lemma ScanRowEnd(t: Table, frames: map<CellId, Frame>, y: int, left: int, top: int)
    requires MatrixValid(t) && Scanned(t, frames, |t.cols|, y, left, top)
    ensures RowsScanned(t, frames, y + 1, top + t.rows[y].size)
  {
    FramesRowEnd(t, y);
    TotalStep(t.rows, y);
  }

  /** The end of the scan: every cell has its frame. */
  lemma ScanEnd(t: Table, frames: map<CellId, Frame>, top: int)
    requires MatrixValid(t) && RowsScanned(t, frames, |t.rows|, top)
    ensures frames.Keys == t.cells.Keys
    ensures forall id | id in frames :: frames[id] == FrameOf(t, t.cells[id])
  {
    assert forall id | id in t.cells :: Fits(t.cells[id], |t.cols|, |t.rows|);
  }

  /** The frames after the scan passes slot (`x`, `y`): the cell anchored there,
      if any, gets its frame from the running `left` and `top`. */
  function StepFrames(t: Table, frames: map<CellId, Frame>, x: int, y: int, left: int, top: int): (m: map<CellId, Frame>)
    requires MatrixValid(t) && InGrid(t, x, y)
    ensures Anchored(t, x, y) ==> t.slots[y][x] in m
    ensures forall id | id in frames && id != t.slots[y][x] :: id in m && m[id] == frames[id]
  {
    var id := t.slots[y][x];
    var c := t.cells[id];
    if c.col == x && c.row == y then frames[id := Frame(left, top, Extent(t.cols, x, c.colspan), Extent(t.rows, y, c.rowspan))]
    else frames
  }

  /** One slot of the scan. */
  lemma ScanStep(t: Table, frames: map<CellId, Frame>, x: int, y: int, left: int, top: int)
    requires MatrixValid(t) && Scanned(t, frames, x, y, left, top) && x < |t.cols|
    ensures Scanned(t, StepFrames(t, frames, x, y, left, top), x + 1, y, left + t.cols[x].size, top)
  {
    if Anchored(t, x, y) {
      ScanAnchored(t, frames, x, y, left, top);
    } else {
      ScanSkipped(t, frames, x, y, left, top);
    }
  }

  /** The inner loop of `_updateCellsGeometry`: row `y` from left to right,
      with the running `left`. */
  method ScanRow(t: Table, frames0: map<CellId, Frame>, y: int, top: int) returns (frames: map<CellId, Frame>, left: int)
    requires MatrixValid(t) && 0 <= y < |t.rows| && Scanned(t, frames0, 0, y, 0, top)
    ensures Scanned(t, frames, |t.cols|, y, left, top)
  {
    frames := frames0;
    left := 0;
    var x := 0;
    while x < |t.cols|
      invariant Scanned(t, frames, x, y, left, top)
    {
      ScanStep(t, frames, x, y, left, top);
      frames := StepFrames(t, frames, x, y, left, top);
      left := left + t.cols[x].size;
      x := x + 1;
    }
  }

  /** `_updateCellsGeometry`: scan the matrix row by row with running `top` and
      `left`, and give every cell found at its anchor its position and the
      extents of the lines it spans. */
  method UpdateCellsGeometry(t: Table) returns (frames: map<CellId, Frame>)
    requires MatrixValid(t)
    ensures frames.Keys == t.cells.Keys
    ensures forall id | id in frames :: frames[id] == FrameOf(t, t.cells[id])
  {
    frames := map[];
    var top := 0;
    var y := 0;
    while y < |t.rows|
      invariant RowsScanned(t, frames, y, top)
    {
      ScanRowStart(t, frames, y, top);
      var left;
      frames, left := ScanRow(t, frames, y, top);
      ScanRowEnd(t, frames, y, left, top);
      top := top + t.rows[y].size;
      y := y + 1;
    }
    ScanEnd(t, frames, top);
  }
}

=== FILE: grid.dfy ===
/** The table's state: its columns and rows, the dense matrix of cell ids (a
    merged cell's id fills every slot it covers), the cells themselves, the
    selection, and the recorded width and height; with the invariants every
    operation keeps. */
module Grid {
  import opened Seqs
  import opened Ledger

  /** Identity of a cell object; slots holding the same id hold the same cell. */
  type CellId = nat

  /** A logical cell: its anchor (top-left) column and row, its spans, and its
      text, where "" stands for a cell without text. */
  datatype Cell = Cell(col: int, row: int, colspan: int, rowspan: int, text: string)

  /** The two configurable minimums the grid engine consults. */
  datatype Config = Config(minRowHeight: int, minColumnWidth: int)

  datatype Table = Table(
    cols: seq<Line>,
    rows: seq<Line>,
    slots: seq<seq<CellId>>,
    cells: map<CellId, Cell>,
    nextId: nat,
    selection: seq<CellId>,
    width: int,
    height: int,
    config: Config)

  /** Cell `c` covers slot (`x`, `y`): the rectangle of its anchor and spans contains it. */
  predicate Occupies(c: Cell, x: int, y: int)
  {
    c.col <= x < c.col + c.colspan && c.row <= y < c.row + c.rowspan
  }

  /** Cell `c` has positive spans and lies within a grid of `w` columns and `h` rows. */
  predicate Fits(c: Cell, w: int, h: int)
  {
    1 <= c.colspan && 1 <= c.rowspan && 0 <= c.col && c.col + c.colspan <= w && 0 <= c.row && c.row + c.rowspan <= h
  }

  /** The matrix has one slot sequence per row, each as long as there are columns. */
  predicate Dense(t: Table)
  {
    |t.slots| == |t.rows| && forall y | 0 <= y < |t.slots| :: |t.slots[y]| == |t.cols|
  }

  predicate InGrid(t: Table, x: int, y: int)
  {
    0 <= x < |t.cols| && 0 <= y < |t.rows|
  }

  /** Every slot holds a known cell that covers that slot. */
  predicate SlotsOwned(t: Table)
    requires Dense(t)
  {
    forall y, x | 0 <= y < |t.rows| && 0 <= x < |t.cols| ::
      t.slots[y][x] in t.cells && Occupies(t.cells[t.slots[y][x]], x, y)
  }

  /** Every cell fits the grid, has an id below `nextId`, and its id fills every
      slot of its rectangle. */
  predicate CellsPlaced(t: Table)
    requires Dense(t)
  {
    && (forall id | id in t.cells :: Fits(t.cells[id], |t.cols|, |t.rows|) && id < t.nextId)
    && (forall id, y, x {:trigger Occupies(t.cells[id], x, y)}
          | id in t.cells && 0 <= y < |t.rows| && 0 <= x < |t.cols| && Occupies(t.cells[id], x, y) ::
          t.slots[y][x] == id)
  }

  /** Matrix density, span closure and contiguous indices, on a grid with at least
      one column and one row. */
  predicate MatrixValid(t: Table)
  {
    && Dense(t)
    && SlotsOwned(t)
    && CellsPlaced(t)
    && Contiguous(t.cols)
    && Contiguous(t.rows)
    && |t.cols| >= 1
    && |t.rows| >= 1
  }

  /** The selection lists known cells, each once. */
  predicate SelectionValid(t: Table)
  {
    (forall i | 0 <= i < |t.selection| :: t.selection[i] in t.cells) && Distinct(t.selection)
  }

  /** Column lefts are running totals, the width is the grand total, and the
      last column is at least the minimum column width. */
  predicate ColumnLedgerValid(t: Table)
  {
    && OffsetsCurrent(t.cols)
    && t.width == Total(t.cols)
    && |t.cols| >= 1
    && t.cols[|t.cols| - 1].size >= t.config.minColumnWidth
  }

  /** Row tops are running totals, the height is the grand total, and the last
      row is at least the minimum row height. */
  predicate RowLedgerValid(t: Table)
  {
    && OffsetsCurrent(t.rows)
    && t.height == Total(t.rows)
    && |t.rows| >= 1
    && t.rows[|t.rows| - 1].size >= t.config.minRowHeight
  }

  predicate LedgerValid(t: Table)
  {
    ColumnLedgerValid(t) && RowLedgerValid(t)
  }

  predicate Valid(t: Table)
  {
    MatrixValid(t) && SelectionValid(t) && LedgerValid(t)
  }

  /** The cell in slot (`x`, `y`). */
  function CellAt(t: Table, x: int, y: int): Cell
    requires MatrixValid(t) && InGrid(t, x, y)
  {
    t.cells[t.slots[y][x]]
  }

  /** Slot (`x`, `y`) is the anchor of the cell it holds. */
  predicate Anchored(t: Table, x: int, y: int)
    requires MatrixValid(t) && InGrid(t, x, y)
  {
    CellAt(t, x, y).col == x && CellAt(t, x, y).row == y
  }

  /** Two slots hold the same cell exactly when that cell covers both. */
  lemma SameSlot(t: Table, x: int, y: int, x2: int, y2: int)
    requires MatrixValid(t) && InGrid(t, x, y) && InGrid(t, x2, y2)
    ensures t.slots[y][x] == t.slots[y2][x2] <==> Occupies(CellAt(t, x, y), x2, y2)
  {
  }

  /** Each cell has exactly one anchor slot: distinct cells have distinct anchors. */
  lemma AnchorsUnique(t: Table, a: CellId, b: CellId)
    requires MatrixValid(t) && a in t.cells && b in t.cells
    requires t.cells[a].col == t.cells[b].col && t.cells[a].row == t.cells[b].row
    ensures a == b
  {
    var c := t.cells[a];
    assert Occupies(c, c.col, c.row) && Occupies(t.cells[b], c.col, c.row);
  }

  /** `_updateColumns` followed by `_updateTableWidth`: offsets are recomputed,
      then the width is assigned the column total through the width setter's
      clamp (`ClampLast`). */
  function SettleColumns(t: Table): (r: Table)
    requires |t.cols| >= 1
    ensures r == t.(cols := r.cols, width := r.width)
    ensures |r.cols| == |t.cols| && OffsetsCurrent(r.cols)
    ensures forall i | 0 <= i < |t.cols| :: r.cols[i].index == t.cols[i].index && r.cols[i].header == t.cols[i].header
    ensures forall i | 0 <= i < |t.cols| - 1 :: r.cols[i].size == t.cols[i].size
    ensures t.width == Total(t.cols) ==>
      r.width == Total(r.cols) && r.cols[|r.cols| - 1].size >= t.config.minColumnWidth
    ensures t.cols[|t.cols| - 1].size >= t.config.minColumnWidth ==>
      SameSizes(r.cols, t.cols) && r.width == Total(t.cols)
  {
    var c := Settle(t.cols, t.width, t.config.minColumnWidth);
    t.(cols := c.lines, width := c.total)
  }

  /** `_updateRows` followed by `_updateTableHeight`, the row-wise mirror of `SettleColumns`. */
  function SettleRows(t: Table): (r: Table)
    requires |t.rows| >= 1
    ensures r == t.(rows := r.rows, height := r.height)
    ensures |r.rows| == |t.rows| && OffsetsCurrent(r.rows)
    ensures forall i | 0 <= i < |t.rows| :: r.rows[i].index == t.rows[i].index && r.rows[i].header == t.rows[i].header
    ensures forall i | 0 <= i < |t.rows| - 1 :: r.rows[i].size == t.rows[i].size
    ensures t.height == Total(t.rows) ==>
      r.height == Total(r.rows) && r.rows[|r.rows| - 1].size >= t.config.minRowHeight
    ensures t.rows[|t.rows| - 1].size >= t.config.minRowHeight ==>
      SameSizes(r.rows, t.rows) && r.height == Total(t.rows)
  {
    var c := Settle(t.rows, t.height, t.config.minRowHeight);
    t.(rows := c.lines, height := c.total)
  }

  /** A table between a column edit and the settling of its column ledger: the
      matrix, selection and rows are sound and the width is the column total,
      but offsets may be stale and the last column below the minimum. */
  predicate ColumnsUnsettled(t: Table)
  {
    MatrixValid(t) && SelectionValid(t) && RowLedgerValid(t) && t.width == Total(t.cols)
  }

  /** The row-wise mirror of `ColumnsUnsettled`. */
  predicate RowsUnsettled(t: Table)
  {
    MatrixValid(t) && SelectionValid(t) && ColumnLedgerValid(t) && t.height == Total(t.rows)
  }

  /** Settling the columns of a table whose matrix and selection are sound and
      whose width is the column total yields a valid table. */
  lemma SettleColumnsValid(t: Table)
    requires ColumnsUnsettled(t)
    ensures Valid(SettleColumns(t))
  {
    var r := SettleColumns(t);
    assert Contiguous(r.cols);
  }

  /** The row-wise mirror of `SettleColumnsValid`. */
  lemma SettleRowsValid(t: Table)
    requires RowsUnsettled(t)
    ensures Valid(SettleRows(t))
  {
    var r := SettleRows(t);
    assert Contiguous(r.rows);
  }

  /** Replacing the selection by any list of known cells without repeats keeps
      a table valid. */
  lemma ReselectValid(t: Table, sel: seq<CellId>)
    requires Valid(t) && (forall i | 0 <= i < |sel| :: sel[i] in t.cells) && Distinct(sel)
    ensures Valid(t.(selection := sel))
  {
  }
}

=== FILE: insert.dfy ===
/** `insertColumn` and `insertRow`: a new line is spliced in at `p`; in every row
    (column) the new slot joins the cell on both sides of it when that cell is
    the same, and otherwise gets a fresh 1x1 cell. */
module Insert {
  import opened Seqs
  import opened Ledger
  import opened Grid

  /** Cell `c`'s span runs across the boundary just before column `p`. */
  predicate CrossesColumn(c: Cell, p: int)
  {
    c.col < p < c.col + c.colspan
  }

  /** Cell `c`'s span runs across the boundary just before row `p`. */
  predicate CrossesRow(c: Cell, p: int)
  {
    c.row < p < c.row + c.rowspan
  }

  // ---------------------------------------------------------------- columns

  /** `middle && left === right` for row `y`: the slots on either side of a
      column inserted at `p` hold the same cell. */
  predicate ColumnAbsorbed(t: Table, p: int, y: int)
    requires Dense(t) && 0 <= p <= |t.cols| && 0 <= y < |t.rows|
  {
    0 < p < |t.cols| && t.slots[y][p - 1] == t.slots[y][p]
  }

  /** The id that fills the new slot of row `y`: the shared neighbour, or a fresh cell. */
  function NewColumnSlot(t: Table, p: int, y: int): CellId
    requires Dense(t) && 0 <= p <= |t.cols| && 0 <= y < |t.rows|
  {
    if ColumnAbsorbed(t, p, y) then t.slots[y][p - 1] else t.nextId + y
  }

  /** `expandedCells`: every cell that took the new slot in some row. */
  function ExpandedByColumn(t: Table, p: int): set<CellId>
    requires Dense(t) && 0 <= p <= |t.cols|
  {
    set y | 0 <= y < |t.rows| && ColumnAbsorbed(t, p, y) :: t.slots[y][p - 1]
  }

  /** A cell after the insertion: one more column of span if it was expanded,
      anchored one column further right if its column was at or after `p`. */
  function ColumnShifted(c: Cell, p: int, expanded: bool): Cell
  {
    c.(col := if c.col >= p then c.col + 1 else c.col,
       colspan := if expanded then c.colspan + 1 else c.colspan)
  }

  /** The slot test the source applies agrees with the span geometry: a row
      absorbs the new column exactly when its cell crosses the insertion point,
      and a cell is expanded exactly when its span crosses it. */
  lemma ExpandedByColumnCrosses(t: Table, p: int)
    requires MatrixValid(t) && 0 <= p <= |t.cols|
    ensures forall y | 0 <= y < |t.rows| ::
      ColumnAbsorbed(t, p, y) <==> 0 < p && CrossesColumn(CellAt(t, p - 1, y), p)
    ensures forall id :: id in ExpandedByColumn(t, p) <==> id in t.cells && CrossesColumn(t.cells[id], p)
  {
    forall y | 0 <= y < |t.rows|
      ensures ColumnAbsorbed(t, p, y) <==> 0 < p && CrossesColumn(CellAt(t, p - 1, y), p)
    {
      if 0 < p < |t.cols| {
        var c := CellAt(t, p - 1, y);
        assert Occupies(c, p - 1, y) && Occupies(CellAt(t, p, y), p, y);
        if CrossesColumn(c, p) {
          assert Occupies(c, p, y);
        }
      }
    }
    forall id | id in t.cells && CrossesColumn(t.cells[id], p)
      ensures id in ExpandedByColumn(t, p)
    {
      var c := t.cells[id];
      assert Occupies(c, p - 1, c.row) && Occupies(c, p, c.row);
      assert ColumnAbsorbed(t, p, c.row);
    }
  }

  /** The slot matrix after inserting a column at `p`. */
  function ColumnSlots(t: Table, p: int): (s: seq<seq<CellId>>)
    requires MatrixValid(t) && 0 <= p <= |t.cols|
    ensures |s| == |t.rows| && forall y | 0 <= y < |s| :: |s[y]| == |t.cols| + 1
    ensures forall y, x | 0 <= y < |t.rows| && 0 <= x < p :: s[y][x] == t.slots[y][x]
    ensures forall y | 0 <= y < |t.rows| :: s[y][p] == NewColumnSlot(t, p, y)
    ensures forall y, x | 0 <= y < |t.rows| && p < x <= |t.cols| :: s[y][x] == t.slots[y][x - 1]
  {
    seq(|t.rows|, y requires 0 <= y < |t.rows| => Splice(t.slots[y], p, NewColumnSlot(t, p, y)))
  }

  /** The fresh 1x1 cells for the first `n` rows that do not absorb the new
      column: row `y`'s cell gets id `nextId + y`. */
  function FreshColumnCells(t: Table, p: int, n: int): (m: map<CellId, Cell>)
    requires Dense(t) && 0 <= p <= |t.cols| && 0 <= n <= |t.rows|
    ensures forall id | id in m :: t.nextId <= id < t.nextId + n
    ensures forall y | 0 <= y < n :: (t.nextId + y in m <==> !ColumnAbsorbed(t, p, y))
    ensures forall y | 0 <= y < n && !ColumnAbsorbed(t, p, y) :: m[t.nextId + y] == Cell(p, y, 1, 1, "")
  {
    if n == 0 then map[]
    else
      var m := FreshColumnCells(t, p, n - 1);
      if ColumnAbsorbed(t, p, n - 1) then m else m[t.nextId + n - 1 := Cell(p, n - 1, 1, 1, "")]
  }

  /** The cells after inserting a column at `p`: the old ones shifted or widened,
      plus a fresh 1x1 cell for every row that did not absorb the new slot. */
  function ColumnCells(t: Table, p: int): (m: map<CellId, Cell>)
    requires MatrixValid(t) && 0 <= p <= |t.cols|
    ensures forall id | id in t.cells :: id in m && m[id] == ColumnShifted(t.cells[id], p, CrossesColumn(t.cells[id], p))
    ensures forall id | id in m && id !in t.cells :: t.nextId <= id < t.nextId + |t.rows|
    ensures forall y | 0 <= y < |t.rows| :: (t.nextId + y in m <==> !ColumnAbsorbed(t, p, y))
    ensures forall y | 0 <= y < |t.rows| && !ColumnAbsorbed(t, p, y) :: m[t.nextId + y] == Cell(p, y, 1, 1, "")
  {
    var moved := map id | id in t.cells :: ColumnShifted(t.cells[id], p, CrossesColumn(t.cells[id], p));
    moved + FreshColumnCells(t, p, |t.rows|)
  }

  lemma ColumnSlotOwnedAt(t: Table, p: int, y: int, x: int)
    requires MatrixValid(t) && 0 <= p <= |t.cols| && 0 <= y < |t.rows| && 0 <= x <= |t.cols|
    ensures ColumnSlots(t, p)[y][x] in ColumnCells(t, p)
    ensures Occupies(ColumnCells(t, p)[ColumnSlots(t, p)[y][x]], x, y)
  {
    if x < p {
      assert Occupies(CellAt(t, x, y), x, y);
    } else if x == p {
      if ColumnAbsorbed(t, p, y) {
        assert Occupies(CellAt(t, p - 1, y), p - 1, y) && Occupies(CellAt(t, p, y), p, y);
      }
    } else {
      assert Occupies(CellAt(t, x - 1, y), x - 1, y);
    }
  }

  lemma ColumnCellPlacedAt(t: Table, p: int, id: CellId, y: int, x: int)
    requires MatrixValid(t) && 0 <= p <= |t.cols| && 0 <= y < |t.rows| && 0 <= x <= |t.cols|
    requires id in ColumnCells(t, p) && Occupies(ColumnCells(t, p)[id], x, y)
    ensures ColumnSlots(t, p)[y][x] == id
  {
    if id in t.cells {
      var c := t.cells[id];
      assert Fits(c, |t.cols|, |t.rows|);
      if x < p {
        assert Occupies(c, x, y);
      } else if x == p {
        assert Occupies(c, p - 1, y) && Occupies(c, p, y);
      } else {
        assert Occupies(c, x - 1, y);
      }
    } else {
      var y0 := id - t.nextId;
      assert id == t.nextId + y0 && 0 <= y0 < |t.rows|;
      assert !ColumnAbsorbed(t, p, y0);
    }
  }

  lemma ColumnCellFits(t: Table, p: int, id: CellId)
    requires MatrixValid(t) && 0 <= p <= |t.cols| && id in ColumnCells(t, p)
    ensures Fits(ColumnCells(t, p)[id], |t.cols| + 1, |t.rows|) && id < t.nextId + |t.rows|
  {
    if id in t.cells {
      assert Fits(t.cells[id], |t.cols|, |t.rows|);
    } else {
      var y0 := id - t.nextId;
      assert id == t.nextId + y0 && 0 <= y0 < |t.rows|;
      assert !ColumnAbsorbed(t, p, y0);
    }
  }

  /** The matrix part of `insertColumn(p, w)`, before the ledger is settled. */
  function InsertColumnMatrix(t: Table, p: int, w: int): (r: Table)
    requires MatrixValid(t) && 0 <= p <= |t.cols|
  {
    t.(cols := SpliceLine(t.cols, p, w), slots := ColumnSlots(t, p), cells := ColumnCells(t, p),
       nextId := t.nextId + |t.rows|, width := t.width + w)
  }

  lemma InsertColumnMatrixValid(t: Table, p: int, w: int)
    requires MatrixValid(t) && 0 <= p <= |t.cols|
    ensures MatrixValid(InsertColumnMatrix(t, p, w))
  {
    var r := InsertColumnMatrix(t, p, w);
    forall y, x | 0 <= y < |r.rows| && 0 <= x < |r.cols|
      ensures r.slots[y][x] in r.cells && Occupies(r.cells[r.slots[y][x]], x, y)
    {
      ColumnSlotOwnedAt(t, p, y, x);
    }
    forall id | id in r.cells
      ensures Fits(r.cells[id], |r.cols|, |r.rows|) && id < r.nextId
    {
      ColumnCellFits(t, p, id);
    }
    forall id, y, x | id in r.cells && 0 <= y < |r.rows| && 0 <= x < |r.cols| && Occupies(r.cells[id], x, y)
      ensures r.slots[y][x] == id
    {
      ColumnCellPlacedAt(t, p, id, y, x);
    }
  }

  /** Every selected cell survives the insertion. */
  lemma InsertColumnKeepsSelection(t: Table, p: int, w: int)
    requires MatrixValid(t) && SelectionValid(t) && 0 <= p <= |t.cols|
    ensures SelectionValid(InsertColumnMatrix(t, p, w))
  {
    var m := ColumnCells(t, p);
    assert forall i | 0 <= i < |t.selection| :: t.selection[i] in m;
  }

  /** The settled table is valid, and the width grows by `w` unless a column
      below the minimum is appended at the end. */
  lemma InsertColumnSettled(t: Table, p: int, w: int)
    requires Valid(t) && 0 <= p <= |t.cols|
    ensures var r := SettleColumns(InsertColumnMatrix(t, p, w));
      && Valid(r)
      && (p < |t.cols| || w >= t.config.minColumnWidth ==> r.cols[p].size == w && r.width == t.width + w)
  {
    var m := InsertColumnMatrix(t, p, w);
    SpliceLineTotal(t.cols, p, w);
    InsertColumnMatrixValid(t, p, w);
    InsertColumnKeepsSelection(t, p, w);
    assert RowLedgerValid(m);
    SettleColumnsValid(m);
    InsertColumnSettledSize(t, p, w);
  }

  /** The new column keeps its size through settling unless it is appended
      below the minimum. */
  lemma InsertColumnSettledSize(t: Table, p: int, w: int)
    requires Valid(t) && 0 <= p <= |t.cols|
    ensures var r := SettleColumns(InsertColumnMatrix(t, p, w));
      p < |t.cols| || w >= t.config.minColumnWidth ==> r.cols[p].size == w && r.width == t.width + w
  {
    SpliceSettled(t.cols, p, w, t.width + w, t.config.minColumnWidth);
    SpliceLast(t.cols, p, w);
    SpliceLineTotal(t.cols, p, w);
  }

  /** `insertColumn(p, w)`: the column is spliced in, spans are widened or fresh
      cells created (as `ColumnSlots` and `ColumnCells` describe), then offsets and
      the width are settled. */
  function InsertColumn(t: Table, p: int, w: int): (r: Table)
    requires Valid(t)
    requires 0 <= p <= |t.cols|
    ensures Valid(r)
    ensures |r.cols| == |t.cols| + 1 && r.rows == t.rows && r.selection == t.selection
    ensures r.slots == ColumnSlots(t, p) && r.cells == ColumnCells(t, p)
    ensures forall i | 0 <= i < p :: r.cols[i].size == t.cols[i].size && r.cols[i].header == t.cols[i].header
    ensures forall i | p <= i < |t.cols| :: r.cols[i + 1].size == t.cols[i].size && r.cols[i + 1].header == t.cols[i].header
    ensures !r.cols[p].header
    ensures p < |t.cols| || w >= t.config.minColumnWidth ==> r.cols[p].size == w && r.width == t.width + w
  {
    InsertColumnSettled(t, p, w);
    SpliceSettled(t.cols, p, w, t.width + w, t.config.minColumnWidth);
    SettleColumns(InsertColumnMatrix(t, p, w))
  }

  /** `insertColumn()` with its default arguments: a column as wide as the last
      one, appended at the right edge. */
  function AppendColumn(t: Table): (r: Table)
    requires Valid(t)
    ensures Valid(r) && |r.cols| == |t.cols| + 1
    ensures r.width == t.width + t.cols[|t.cols| - 1].size
    ensures r.cols[|t.cols|].size == t.cols[|t.cols| - 1].size
  {
    InsertColumn(t, |t.cols|, t.cols[|t.cols| - 1].size)
  }

  // ---------------------------------------------------------------- rows

  /** `top && bottom && top === bottom` for column `x`: the slots above and below
      a row inserted at `p` hold the same cell. */
  predicate RowAbsorbed(t: Table, p: int, x: int)
    requires Dense(t) && 0 <= p <= |t.rows| && 0 <= x < |t.cols|
  {
    0 < p < |t.rows| && t.slots[p - 1][x] == t.slots[p][x]
  }

  /** The id that fills the new slot of column `x`: the shared neighbour, or a fresh cell. */
  function NewRowSlot(t: Table, p: int, x: int): CellId
    requires Dense(t) && 0 <= p <= |t.rows| && 0 <= x < |t.cols|
  {
    if RowAbsorbed(t, p, x) then t.slots[p - 1][x] else t.nextId + x
  }

  /** `expandedCells`: every cell that took the new slot in some column. */
  function ExpandedByRow(t: Table, p: int): set<CellId>
    requires Dense(t) && 0 <= p <= |t.rows|
  {
    set x | 0 <= x < |t.cols| && RowAbsorbed(t, p, x) :: t.slots[p - 1][x]
  }

  function RowShifted(c: Cell, p: int, expanded: bool): Cell
  {
    c.(row := if c.row >= p then c.row + 1 else c.row,
       rowspan := if expanded then c.rowspan + 1 else c.rowspan)
  }

  /** The row-wise mirror of `ExpandedByColumnCrosses`. */
  lemma ExpandedByRowCrosses(t: Table, p: int)
    requires MatrixValid(t) && 0 <= p <= |t.rows|
    ensures forall x | 0 <= x < |t.cols| ::
      RowAbsorbed(t, p, x) <==> 0 < p && CrossesRow(CellAt(t, x, p - 1), p)
    ensures forall id :: id in ExpandedByRow(t, p) <==> id in t.cells && CrossesRow(t.cells[id], p)
  {
    forall x | 0 <= x < |t.cols|
      ensures RowAbsorbed(t, p, x) <==> 0 < p && CrossesRow(CellAt(t, x, p - 1), p)
    {
      if 0 < p < |t.rows| {
        var c := CellAt(t, x, p - 1);
        assert Occupies(c, x, p - 1) && Occupies(CellAt(t, x, p), x, p);
        if CrossesRow(c, p) {
          assert Occupies(c, x, p);
        }
      }
    }
    forall id | id in t.cells && CrossesRow(t.cells[id], p)
      ensures id in ExpandedByRow(t, p)
    {
      var c := t.cells[id];
      assert Occupies(c, c.col, p - 1) && Occupies(c, c.col, p);
      assert RowAbsorbed(t, p, c.col);
    }
  }

  /** The slot matrix after inserting a row at `p`. */
  function RowSlots(t: Table, p: int): (s: seq<seq<CellId>>)
    requires MatrixValid(t) && 0 <= p <= |t.rows|
    ensures |s| == |t.rows| + 1 && forall y | 0 <= y < |s| :: |s[y]| == |t.cols|
    ensures forall y | 0 <= y < p :: s[y] == t.slots[y]
    ensures forall x | 0 <= x < |t.cols| :: s[p][x] == NewRowSlot(t, p, x)
    ensures forall y | p < y <= |t.rows| :: s[y] == t.slots[y - 1]
  {
    Splice(t.slots, p, seq(|t.cols|, x requires 0 <= x < |t.cols| => NewRowSlot(t, p, x)))
  }

  /** The fresh 1x1 cells for the first `n` columns that do not absorb the new
      row: column `x`'s cell gets id `nextId + x`. */
  function FreshRowCells(t: Table, p: int, n: int): (m: map<CellId, Cell>)
    requires Dense(t) && 0 <= p <= |t.rows| && 0 <= n <= |t.cols|
    ensures forall id | id in m :: t.nextId <= id < t.nextId + n
    ensures forall x | 0 <= x < n :: (t.nextId + x in m <==> !RowAbsorbed(t, p, x))
    ensures forall x | 0 <= x < n && !RowAbsorbed(t, p, x) :: m[t.nextId + x] == Cell(x, p, 1, 1, "")
  {
    if n == 0 then map[]
    else
      var m := FreshRowCells(t, p, n - 1);
      if RowAbsorbed(t, p, n - 1) then m else m[t.nextId + n - 1 := Cell(n - 1, p, 1, 1, "")]
  }

  /** The cells after inserting a row at `p`. */
  function RowCells(t: Table, p: int): (m: map<CellId, Cell>)
    requires MatrixValid(t) && 0 <= p <= |t.rows|
    ensures forall id | id in t.cells :: id in m && m[id] == RowShifted(t.cells[id], p, CrossesRow(t.cells[id], p))
    ensures forall id | id in m && id !in t.cells :: t.nextId <= id < t.nextId + |t.cols|
    ensures forall x | 0 <= x < |t.cols| :: (t.nextId + x in m <==> !RowAbsorbed(t, p, x))
    ensures forall x | 0 <= x < |t.cols| && !RowAbsorbed(t, p, x) :: m[t.nextId + x] == Cell(x, p, 1, 1, "")
  {
    var moved := map id | id in t.cells :: RowShifted(t.cells[id], p, CrossesRow(t.cells[id], p));
    moved + FreshRowCells(t, p, |t.cols|)
  }

  lemma RowSlotOwnedAt(t: Table, p: int, y: int, x: int)
    requires MatrixValid(t) && 0 <= p <= |t.rows| && 0 <= y <= |t.rows| && 0 <= x < |t.cols|
    ensures RowSlots(t, p)[y][x] in RowCells(t, p)
    ensures Occupies(RowCells(t, p)[RowSlots(t, p)[y][x]], x, y)
  {
    if y < p {
      assert Occupies(CellAt(t, x, y), x, y);
    } else if y == p {
      if RowAbsorbed(t, p, x) {
        assert Occupies(CellAt(t, x, p - 1), x, p - 1) && Occupies(CellAt(t, x, p), x, p);
      }
    } else {
      assert RowSlots(t, p)[y][x] == t.slots[y - 1][x];
      assert Occupies(CellAt(t, x, y - 1), x, y - 1);
    }
  }

  lemma RowCellPlacedAt(t: Table, p: int, id: CellId, y: int, x: int)
    requires MatrixValid(t) && 0 <= p <= |t.rows| && 0 <= y <= |t.rows| && 0 <= x < |t.cols|
    requires id in RowCells(t, p) && Occupies(RowCells(t, p)[id], x, y)
    ensures RowSlots(t, p)[y][x] == id
  {
    if id in t.cells {
      var c := t.cells[id];
      assert Fits(c, |t.cols|, |t.rows|);
      if y < p {
        assert Occupies(c, x, y);
        assert RowSlots(t, p)[y][x] == t.slots[y][x];
      } else if y == p {
        assert Occupies(c, x, p - 1) && Occupies(c, x, p);
      } else {
        assert Occupies(c, x, y - 1);
        assert RowSlots(t, p)[y][x] == t.slots[y - 1][x];
      }
    } else {
      var x0 := id - t.nextId;
      assert id == t.nextId + x0 && 0 <= x0 < |t.cols|;
      assert !RowAbsorbed(t, p, x0);
    }
  }

  lemma RowCellFits(t: Table, p: int, id: CellId)
    requires MatrixValid(t) && 0 <= p <= |t.rows| && id in RowCells(t, p)
    ensures Fits(RowCells(t, p)[id], |t.cols|, |t.rows| + 1) && id < t.nextId + |t.cols|
  {
    if id in t.cells {
      assert Fits(t.cells[id], |t.cols|, |t.rows|);
    } else {
      var x0 := id - t.nextId;
      assert id == t.nextId + x0 && 0 <= x0 < |t.cols|;
      assert !RowAbsorbed(t, p, x0);
    }
  }

  /** The matrix part of `insertRow(p, h)`, before the ledger is settled. */
  function InsertRowMatrix(t: Table, p: int, h: int): (r: Table)
    requires MatrixValid(t) && 0 <= p <= |t.rows|
  {
    t.(rows := SpliceLine(t.rows, p, h), slots := RowSlots(t, p), cells := RowCells(t, p),
       nextId := t.nextId + |t.cols|, height := t.height + h)
  }

  lemma InsertRowMatrixValid(t: Table, p: int, h: int)
    requires MatrixValid(t) && 0 <= p <= |t.rows|
    ensures MatrixValid(InsertRowMatrix(t, p, h))
  {
    var r := InsertRowMatrix(t, p, h);
    forall y, x | 0 <= y < |r.rows| && 0 <= x < |r.cols|
      ensures r.slots[y][x] in r.cells && Occupies(r.cells[r.slots[y][x]], x, y)
    {
      RowSlotOwnedAt(t, p, y, x);
    }
    forall id | id in r.cells
      ensures Fits(r.cells[id], |r.cols|, |r.rows|) && id < r.nextId
    {
      RowCellFits(t, p, id);
    }
    forall id, y, x | id in r.cells && 0 <= y < |r.rows| && 0 <= x < |r.cols| && Occupies(r.cells[id], x, y)
      ensures r.slots[y][x] == id
    {
      RowCellPlacedAt(t, p, id, y, x);
    }
  }

  /** Every selected cell survives the insertion. */
  lemma InsertRowKeepsSelection(t: Table, p: int, h: int)
    requires MatrixValid(t) && SelectionValid(t) && 0 <= p <= |t.rows|
    ensures SelectionValid(InsertRowMatrix(t, p, h))
  {
    var m := RowCells(t, p);
    assert forall i | 0 <= i < |t.selection| :: t.selection[i] in m;
  }

  /** The settled table is valid, and the height grows by `h` unless a row
      below the minimum is appended at the end. */
  lemma InsertRowSettled(t: Table, p: int, h: int)
    requires Valid(t) && 0 <= p <= |t.rows|
    ensures var r := SettleRows(InsertRowMatrix(t, p, h));
      && Valid(r)
      && (p < |t.rows| || h >= t.config.minRowHeight ==> r.rows[p].size == h && r.height == t.height + h)
  {
    var m := InsertRowMatrix(t, p, h);
    SpliceLineTotal(t.rows, p, h);
    InsertRowMatrixValid(t, p, h);
    InsertRowKeepsSelection(t, p, h);
    assert ColumnLedgerValid(m);
    SettleRowsValid(m);
    InsertRowSettledSize(t, p, h);
  }

  /** The new row keeps its size through settling unless it is appended
      below the minimum. */
  lemma InsertRowSettledSize(t: Table, p: int, h: int)
    requires Valid(t) && 0 <= p <= |t.rows|
    ensures var r := SettleRows(InsertRowMatrix(t, p, h));
      p < |t.rows| || h >= t.config.minRowHeight ==> r.rows[p].size == h && r.height == t.height + h
  {
    SpliceSettled(t.rows, p, h, t.height + h, t.config.minRowHeight);
    SpliceLast(t.rows, p, h);
    SpliceLineTotal(t.rows, p, h);
  }

  /** `insertRow(p, h)`: the row is spliced in, spans are widened or fresh
      cells created (as `RowSlots` and `RowCells` describe), then offsets and
      the height are settled. */
  function InsertRow(t: Table, p: int, h: int): (r: Table)
    requires Valid(t)
    requires 0 <= p <= |t.rows|
    ensures Valid(r)
    ensures |r.rows| == |t.rows| + 1 && r.cols == t.cols && r.selection == t.selection
    ensures r.slots == RowSlots(t, p) && r.cells == RowCells(t, p)
    ensures forall i | 0 <= i < p :: r.rows[i].size == t.rows[i].size && r.rows[i].header == t.rows[i].header
    ensures forall i | p <= i < |t.rows| :: r.rows[i + 1].size == t.rows[i].size && r.rows[i + 1].header == t.rows[i].header
    ensures !r.rows[p].header
    ensures p < |t.rows| || h >= t.config.minRowHeight ==> r.rows[p].size == h && r.height == t.height + h
  {
    InsertRowSettled(t, p, h);
    SpliceSettled(t.rows, p, h, t.height + h, t.config.minRowHeight);
    SettleRows(InsertRowMatrix(t, p, h))
  }

  /** `insertRow()` with its default arguments: a row as tall as the last one,
      appended at the bottom. */
  function AppendRow(t: Table): (r: Table)
    requires Valid(t)
    ensures Valid(r) && |r.rows| == |t.rows| + 1
    ensures r.height == t.height + t.rows[|t.rows| - 1].size
    ensures r.rows[|t.rows|].size == t.rows[|t.rows| - 1].size
  {
    InsertRow(t, |t.rows|, t.rows[|t.rows| - 1].size)
  }
}

=== FILE: layout.dfy ===
/** `__setcells` and the matrix part of `_createCell`: rows of cell data are
    laid out one by one, each cell at the first free slot of its row at or
    after a cursor, and the result becomes the table's matrix. */
module Layout {
  import opened Wrappers
  import opened Ledger
  import opened Grid
  import opened Expand
  import opened Serial

  /** A layout in progress: the created cell (by creation index) each taken
      slot holds, and the cells created so far. */
  datatype Sheet = Sheet(occ: map<Pos, nat>, made: seq<Cell>)

  /** The slots a `w` by `h` cell anchored at (`x`, `y`) takes. */
  function Footprint(x: int, y: int, w: int, h: int): (f: set<Pos>)
    ensures forall p: Pos :: p in f <==> Occupies(Cell(x, y, w, h, ""), p.x, p.y)
  {
    set px, py | x <= px < x + w && y <= py < y + h :: Pos(px, py)
  }

  /** `_createCell(x, y, spec)` on the matrix: the new cell takes every slot of
      its rectangle, over whatever held it before. */
  function Create(s: Sheet, x: int, y: int, spec: CellData): (r: Sheet)
    ensures r.made == s.made + [Cell(x, y, SpanOf(spec.colspan), SpanOf(spec.rowspan), TextOf(spec.text))]
    ensures forall p: Pos :: p in r.occ <==> p in s.occ || Occupies(r.made[|s.made|], p.x, p.y)
    ensures forall p: Pos | p in r.occ :: r.occ[p] == if Occupies(r.made[|s.made|], p.x, p.y) then |s.made| else s.occ[p]
  {
    var c := Cell(x, y, SpanOf(spec.colspan), SpanOf(spec.rowspan), TextOf(spec.text));
    var f := Footprint(x, y, c.colspan, c.rowspan);
    Sheet(map p | p in s.occ.Keys + f :: if p in f then |s.made| else s.occ[p], s.made + [c])
  }

  /** The `while` loop of `__setcells`: the first slot of row `y` at or after
      column `x` that no cell has taken. */
  function NextFree(occ: map<Pos, nat>, x: int, y: int): (r: int)
    ensures x <= r && Pos(r, y) !in occ
    ensures forall x' | x <= x' < r :: Pos(x', y) in occ
    decreases TakenFrom(occ, x, y)
  {
    if Pos(x, y) in occ then
      assert Pos(x, y) in TakenFrom(occ, x, y) && Pos(x, y) !in TakenFrom(occ, x + 1, y);
      NextFree(occ, x + 1, y)
    else x
  }

  /** The taken slots of row `y` at column `x` or later. */
  function TakenFrom(occ: map<Pos, nat>, x: int, y: int): (r: set<Pos>)
    ensures forall p :: p in r <==> p in occ && p.y == y && p.x >= x
  {
    set p | p in occ && p.y == y && p.x >= x
  }

  /** One turn of the loop of `__setcells`: the cell goes to the first free
      slot at or after the cursor, and a cell that names a colspan moves the
      cursor past its columns. Yields the layout and the new cursor. */
  function Step(s: Sheet, y: int, spec: CellData, x: int): (Sheet, int)
  {
    var at := NextFree(s.occ, x, y);
    (Create(s, at, y, spec), if spec.colspan.Some? && spec.colspan.value != 0 then at + spec.colspan.value else at)
  }

  /** One row of `__setcells`, cell by cell from the cursor `x`. */
  function LayRow(s: Sheet, y: int, specs: seq<CellData>, x: int): Sheet
    decreases |specs|
  {
    if specs == [] then s
    else
      var st := Step(s, y, specs[0], x);
      LayRow(st.0, y, specs[1..], st.1)
  }

  /** The rows of `__setcells` from row `y` on, each starting at column 0. */
  function LayRows(s: Sheet, rows: seq<seq<CellData>>, y: nat): Sheet
    decreases |rows| - y
  {
    if y >= |rows| then s else LayRows(LayRow(s, y, rows[y], 0), rows, y + 1)
  }

  /** The whole layout of `__setcells`, from an empty matrix. */
  function Layout(rows: seq<seq<CellData>>): Sheet
  {
    LayRows(Sheet(map[], []), rows, 0)
  }

  /** The layout fills exactly a `w` by `h` grid, and every created cell fits
      it and holds exactly the slots of its own rectangle: no cell was
      overwritten and nothing spills out. */
  predicate Tiles(s: Sheet, w: int, h: int)
  {
    && (forall y, x | 0 <= y < h && 0 <= x < w :: Pos(x, y) in s.occ)
    && (forall p: Pos | p in s.occ :: 0 <= p.x < w && 0 <= p.y < h && s.occ[p] < |s.made|)
    && (forall k | 0 <= k < |s.made| :: Fits(s.made[k], w, h))
    && (forall k, y, x | 0 <= k < |s.made| && 0 <= y < h && 0 <= x < w ::
          Occupies(s.made[k], x, y) <==> s.occ[Pos(x, y)] == k)
  }

  /** The matrix of a tiling layout, with creation index `k` given id `base + k`. */
  function SheetSlots(s: Sheet, w: nat, h: nat, base: nat): (m: seq<seq<CellId>>)
    requires Tiles(s, w, h)
    ensures |m| == h && forall y | 0 <= y < h :: |m[y]| == w
    ensures forall y, x | 0 <= y < h && 0 <= x < w :: m[y][x] == base + s.occ[Pos(x, y)]
  {
    seq(h, y requires 0 <= y < h => seq(w, x requires 0 <= x < w => base + s.occ[Pos(x, y)]))
  }

  /** Id `id` stands for a created cell when ids start at `base`. */
  predicate IsMade(s: Sheet, base: nat, id: CellId)
  {
    base <= id < base + |s.made|
  }

  function SheetCells(s: Sheet, base: nat): (m: map<CellId, Cell>)
    ensures forall id :: id in m <==> base <= id < base + |s.made|
    ensures forall id | id in m :: m[id] == s.made[id - base]
  {
    map id: CellId | base <= id < base + |s.made| && IsMade(s, base, id) :: s.made[id - base]
  }

  /** The column just past the rightmost created cell (0 without cells). */
  function ColReach(made: seq<Cell>): (r: nat)
    ensures forall k | 0 <= k < |made| :: made[k].col + made[k].colspan <= r
    ensures r == 0 || exists k | 0 <= k < |made| :: r == made[k].col + made[k].colspan
    decreases |made|
  {
    if made == [] then 0
    else
      var rest := ColReach(made[1..]);
      var e := made[0].col + made[0].colspan;
      assert forall k | 1 <= k < |made| :: made[k] == made[1..][k - 1];
      if e > rest then e else rest
  }

  /** The row just past the lowest created cell (0 without cells). */
  function RowReach(made: seq<Cell>): (r: nat)
    ensures forall k | 0 <= k < |made| :: made[k].row + made[k].rowspan <= r
    ensures r == 0 || exists k | 0 <= k < |made| :: r == made[k].row + made[k].rowspan
    decreases |made|
  {
    if made == [] then 0
    else
      var rest := RowReach(made[1..]);
      var e := made[0].row + made[0].rowspan;
      assert forall k | 1 <= k < |made| :: made[k] == made[1..][k - 1];
      if e > rest then e else rest
  }

  /** The number of columns after the layout `s`: `_createCell` adds a column
      for every position a cell reaches beyond the existing ones. */
  function LaidColumns(t: Table, s: Sheet): nat
  {
    if ColReach(s.made) > |t.cols| then ColReach(s.made) else |t.cols|
  }

  /** The row-wise mirror of `LaidColumns`. */
  function LaidRows(t: Table, s: Sheet): nat
  {
    if RowReach(s.made) > |t.rows| then RowReach(s.made) else |t.rows|
  }

  /** The layout `s` tiles the grid `t` grows to, which is not empty. */
  predicate TilesGrown(t: Table, s: Sheet)
  {
    LaidColumns(t, s) >= 1 && LaidRows(t, s) >= 1 && Tiles(s, LaidColumns(t, s), LaidRows(t, s))
  }

  /** The table `__setcells` leaves for a tiling layout `s`. */
  function Rebuilt(t: Table, s: Sheet): Table
    requires TilesGrown(t, s)
  {
    var w, h := LaidColumns(t, s), LaidRows(t, s);
    t.(cols := GrowLines(t.cols, w, t.config.minColumnWidth), rows := GrowLines(t.rows, h, t.config.minRowHeight),
       slots := SheetSlots(s, w, h, t.nextId), cells := SheetCells(s, t.nextId),
       nextId := t.nextId + |s.made|, selection := [])
  }

  /** What `Rebuilt` promises: a sound matrix on the grown lines whose cells
      are the created ones under fresh ids, each slot holding the cell the
      layout put there. */
  lemma RebuiltSound(t: Table, s: Sheet)
    requires Contiguous(t.cols) && Contiguous(t.rows) && TilesGrown(t, s)
    ensures var u := Rebuilt(t, s);
      && MatrixValid(u) && SelectionValid(u)
      && |u.cols| == LaidColumns(t, s) && |u.rows| == LaidRows(t, s)
      && u.cols[..|t.cols|] == t.cols && u.rows[..|t.rows|] == t.rows
      && (forall i | |t.cols| <= i < |u.cols| :: u.cols[i] == Line(i, t.config.minColumnWidth, false, 0))
      && (forall i | |t.rows| <= i < |u.rows| :: u.rows[i] == Line(i, t.config.minRowHeight, false, 0))
      && (forall y, x | 0 <= y < |u.rows| && 0 <= x < |u.cols| :: u.slots[y][x] == t.nextId + s.occ[Pos(x, y)])
      && u.nextId == t.nextId + |s.made|
      && (forall id :: id in u.cells <==> t.nextId <= id < u.nextId)
      && (forall id | id in u.cells :: u.cells[id] == s.made[id - t.nextId])
      && u.selection == [] && u.width == t.width && u.height == t.height && u.config == t.config
  {
    TiledValid(s, Rebuilt(t, s), t.nextId);
  }

  /** With no line added, a valid table stays valid: the ledger is untouched. */
  lemma RebuiltValid(t: Table, s: Sheet)
    requires Contiguous(t.cols) && Contiguous(t.rows) && TilesGrown(t, s)
    ensures Valid(t) && |Rebuilt(t, s).cols| == |t.cols| && |Rebuilt(t, s).rows| == |t.rows| ==> Valid(Rebuilt(t, s))
  {
    var u := Rebuilt(t, s);
    RebuiltSound(t, s);
    if Valid(t) && |u.cols| == |t.cols| && |u.rows| == |t.rows| {
      assert u.cols == u.cols[..|t.cols|];
      assert u.rows == u.rows[..|t.rows|];
    }
  }

  /**
   * `__setcells`: the selection is cleared, every cell is replaced by the
   * laid-out ones (with fresh ids), and a column or row of minimum size is
   * appended for every position a cell reaches beyond the existing lines.
   * The recorded width and height are left as they were. A layout that does
   * not tile the grown grid, or an empty grid, has no valid table to stand
   * for it.
   */
  function SetCells(t: Table, rows: seq<seq<CellData>>): (r: Result<Table, string>)
    requires Contiguous(t.cols) && Contiguous(t.rows)
    ensures r.Success? <==> TilesGrown(t, Layout(rows))
    ensures r.Success? ==> var u, s := r.value, Layout(rows);
      && MatrixValid(u) && SelectionValid(u)
      && |u.cols| == LaidColumns(t, s) && |u.rows| == LaidRows(t, s)
      && u.cols[..|t.cols|] == t.cols && u.rows[..|t.rows|] == t.rows
      && (forall i | |t.cols| <= i < |u.cols| :: u.cols[i] == Line(i, t.config.minColumnWidth, false, 0))
      && (forall i | |t.rows| <= i < |u.rows| :: u.rows[i] == Line(i, t.config.minRowHeight, false, 0))
      && (forall y, x | 0 <= y < |u.rows| && 0 <= x < |u.cols| :: u.slots[y][x] == t.nextId + s.occ[Pos(x, y)])
      && u.nextId == t.nextId + |s.made|
      && (forall id :: id in u.cells <==> t.nextId <= id < u.nextId)
      && (forall id | id in u.cells :: u.cells[id] == s.made[id - t.nextId])
      && u.selection == [] && u.width == t.width && u.height == t.height && u.config == t.config
    ensures r.Success? && Valid(t) && |r.value.cols| == |t.cols| && |r.value.rows| == |t.rows| ==> Valid(r.value)
  {
    var s := Layout(rows);
    if TilesGrown(t, s) then
      RebuiltSound(t, s);
      RebuiltValid(t, s);
      Success(Rebuilt(t, s))
    else Failure("the cells do not tile the grid")
  }

  /** The matrix of a tiling layout is sound whatever the lines' ledger. */
  lemma TiledValid(s: Sheet, u: Table, base: nat)
    requires |u.cols| >= 1 && |u.rows| >= 1 && Contiguous(u.cols) && Contiguous(u.rows) && Tiles(s, |u.cols|, |u.rows|)
    requires u.slots == SheetSlots(s, |u.cols|, |u.rows|, base) && u.cells == SheetCells(s, base)
    requires u.nextId == base + |s.made| && u.selection == []
    ensures MatrixValid(u) && SelectionValid(u)
  {
    forall id, y, x | id in u.cells && 0 <= y < |u.rows| && 0 <= x < |u.cols| && Occupies(u.cells[id], x, y)
      ensures u.slots[y][x] == id
    {
      assert Occupies(s.made[id - base], x, y);
    }
    forall y, x | 0 <= y < |u.rows| && 0 <= x < |u.cols|
      ensures u.slots[y][x] in u.cells && Occupies(u.cells[u.slots[y][x]], x, y)
    {
      var k := s.occ[Pos(x, y)];
      assert Occupies(s.made[k], x, y);
    }
  }

  // ----------------------------------------------------- the round trip

  /** The layout so far holds exactly the cells of `t` anchored before
      (`x`, `y`) in row-major order, each once, in the slots they hold in `t`. */
  ghost predicate RebuiltBefore(t: Table, s: Sheet, x: int, y: int)
    requires MatrixValid(t)
  {
    && (forall p: Pos :: p in s.occ <==> InGrid(t, p.x, p.y) && Before(CellAt(t, p.x, p.y), x, y))
    && (forall p: Pos | p in s.occ :: s.occ[p] < |s.made| && s.made[s.occ[p]] == CellAt(t, p.x, p.y))
    && (forall k | 0 <= k < |s.made| ::
          && InGrid(t, s.made[k].col, s.made[k].row)
          && s.made[k] == CellAt(t, s.made[k].col, s.made[k].row)
          && Pos(s.made[k].col, s.made[k].row) in s.occ
          && s.occ[Pos(s.made[k].col, s.made[k].row)] == k)
  }

  /** The cursor of row `y`, while the scan stands at column `x`: the slots
      from the cursor up to `x` are taken, and the slots from `x` up to a
      cursor that ran ahead are taken and anchor nothing. */
  ghost predicate CursorFits(t: Table, s: Sheet, y: int, cur: int, x: int)
    requires MatrixValid(t) && 0 <= y < |t.rows|
  {
    && 0 <= cur <= |t.cols| && 0 <= x
    && (forall x' | cur <= x' < x :: Pos(x', y) in s.occ)
    && (forall x' | x <= x' < cur :: Pos(x', y) in s.occ && !Anchored(t, x', y))
  }

  /** The invariant of the layout of row `y` at column `x` with cursor `cur`. */
  ghost predicate RowInvariant(t: Table, s: Sheet, y: int, x: int, cur: int)
  {
    MatrixValid(t) && 0 <= y < |t.rows| && 0 <= x <= |t.cols| && RebuiltBefore(t, s, x, y) && CursorFits(t, s, y, cur, x)
  }

  /** Passing a slot that anchors nothing changes neither the layout nor the
      data still to come. */
  lemma SkipSlot(t: Table, s: Sheet, y: int, x: int, cur: int)
    requires MatrixValid(t) && 0 <= y < |t.rows| && 0 <= x < |t.cols| && !Anchored(t, x, y)
    requires RebuiltBefore(t, s, x, y) && CursorFits(t, s, y, cur, x)
    ensures RebuiltBefore(t, s, x + 1, y) && CursorFits(t, s, y, cur, x + 1)
  {
    var c := CellAt(t, x, y);
    assert Occupies(c, x, y);
    forall p: Pos | InGrid(t, p.x, p.y)
      ensures Before(CellAt(t, p.x, p.y), x + 1, y) <==> Before(CellAt(t, p.x, p.y), x, y)
    {
      var d := CellAt(t, p.x, p.y);
      assert Occupies(d, p.x, p.y);
      if d.row == y && d.col == x {
        assert Occupies(d, x, y);
      }
    }
  }

  /** At an anchor, the first free slot at or after the cursor is the anchor itself. */
  lemma PlaceAt(t: Table, s: Sheet, y: int, x: int, cur: int)
    requires RowInvariant(t, s, y, x, cur) && x < |t.cols| && Anchored(t, x, y)
    ensures NextFree(s.occ, cur, y) == x
  {
    var c := CellAt(t, x, y);
    assert Occupies(c, x, y);
    assert Pos(x, y) !in s.occ;
  }

  /** Creating the cell anchored at (`x`, `y`) there rebuilds it in every slot it covers. */
  lemma PlaceRebuilt(t: Table, s: Sheet, y: int, x: int, cur: int)
    requires RowInvariant(t, s, y, x, cur) && x < |t.cols| && Anchored(t, x, y)
    ensures RebuiltBefore(t, Create(s, x, y, CellDataOf(CellAt(t, x, y))), x + 1, y)
  {
    var c := CellAt(t, x, y);
    var d := CellDataOf(c);
    assert Occupies(c, x, y) && Fits(c, |t.cols|, |t.rows|);
    var r := Create(s, x, y, d);
    assert r.made[|s.made|] == c;
    forall p: Pos
      ensures p in r.occ <==> InGrid(t, p.x, p.y) && Before(CellAt(t, p.x, p.y), x + 1, y)
    {
      if InGrid(t, p.x, p.y) {
        var e := CellAt(t, p.x, p.y);
        assert Occupies(e, p.x, p.y);
        if e.row == y && e.col == x {
          AnchorsUnique(t, t.slots[p.y][p.x], t.slots[y][x]);
        }
      }
    }
    forall p: Pos | p in r.occ
      ensures r.occ[p] < |r.made| && r.made[r.occ[p]] == CellAt(t, p.x, p.y)
    {
      if Occupies(c, p.x, p.y) {
        assert t.slots[p.y][p.x] == t.slots[y][x];
      }
    }
    forall k | 0 <= k < |s.made|
      ensures !Occupies(c, s.made[k].col, s.made[k].row)
    {
      var a := Pos(s.made[k].col, s.made[k].row);
      var ida, idc := t.slots[a.y][a.x], t.slots[y][x];
      assert Occupies(c, a.x, a.y) ==> ida == idc;
    }
  }

  /** After the cell anchored at (`x`, `y`) is created, the columns it spans
      are taken and anchor nothing else, so the advanced cursor fits. */
  lemma PlaceCursor(t: Table, s: Sheet, y: int, x: int, cur: int)
    requires RowInvariant(t, s, y, x, cur) && x < |t.cols| && Anchored(t, x, y)
    requires NextFree(s.occ, cur, y) == x
    ensures var st := Step(s, y, CellDataOf(CellAt(t, x, y)), cur);
      CursorFits(t, st.0, y, st.1, x + 1)
  {
    var c := CellAt(t, x, y);
    var d := CellDataOf(c);
    assert Occupies(c, x, y) && Fits(c, |t.cols|, |t.rows|);
    var r := Create(s, x, y, d);
    var next := if d.colspan.Some? && d.colspan.value != 0 then x + d.colspan.value else x;
    forall x' | x + 1 <= x' < next
      ensures Pos(x', y) in r.occ && !Anchored(t, x', y)
    {
      assert Occupies(c, x', y);
      assert t.slots[y][x'] == t.slots[y][x];
    }
  }

  /** At an anchor, the row's layout takes one step and goes on with the rest
      of the row. */
  lemma LayRowAnchored(t: Table, s: Sheet, y: int, x: int, cur: int)
    requires MatrixValid(t) && 0 <= y < |t.rows| && 0 <= x < |t.cols| && Anchored(t, x, y)
    ensures var st := Step(s, y, CellDataOf(CellAt(t, x, y)), cur);
      LayRow(s, y, AnchorData(t, y, x), cur) == LayRow(st.0, y, AnchorData(t, y, x + 1), st.1)
  {
    var d := CellDataOf(CellAt(t, x, y));
    var specs := AnchorData(t, y, x);
    assert specs == [d] + AnchorData(t, y, x + 1);
    assert specs != [] && specs[0] == d && specs[1..] == AnchorData(t, y, x + 1);
  }

  /** Past the last column, the cells anchored before the scan position are
      those anchored in this row or above. */
  lemma RowEnd(t: Table, s: Sheet, y: int)
    requires MatrixValid(t) && 0 <= y < |t.rows| && RebuiltBefore(t, s, |t.cols|, y)
    ensures RebuiltBefore(t, s, 0, y + 1)
  {
    forall p: Pos | InGrid(t, p.x, p.y)
      ensures Before(CellAt(t, p.x, p.y), |t.cols|, y) <==> Before(CellAt(t, p.x, p.y), 0, y + 1)
    {
      assert Fits(CellAt(t, p.x, p.y), |t.cols|, |t.rows|);
    }
  }

  /** Passing a slot that anchors nothing keeps the row invariant. */
  lemma SkipStep(t: Table, s: Sheet, y: int, x: int, cur: int)
    requires RowInvariant(t, s, y, x, cur) && x < |t.cols| && !Anchored(t, x, y)
    ensures RowInvariant(t, s, y, x + 1, cur)
  {
    SkipSlot(t, s, y, x, cur);
  }

  /** A slot that anchors nothing contributes no data to its row. */
  lemma SkipRest(t: Table, s: Sheet, y: int, x: int, cur: int)
    requires RowInvariant(t, s, y, x, cur) && x < |t.cols| && !Anchored(t, x, y)
    requires RebuiltBefore(t, LayRow(s, y, AnchorData(t, y, x + 1), cur), 0, y + 1)
    ensures RebuiltBefore(t, LayRow(s, y, AnchorData(t, y, x), cur), 0, y + 1)
  {
    assert AnchorData(t, y, x) == AnchorData(t, y, x + 1);
  }

  /** Laying out an anchor keeps the row invariant. */
  lemma PlaceStep(t: Table, s: Sheet, y: int, x: int, cur: int)
    requires RowInvariant(t, s, y, x, cur) && x < |t.cols| && Anchored(t, x, y)
    ensures var st := Step(s, y, CellDataOf(CellAt(t, x, y)), cur);
      RowInvariant(t, st.0, y, x + 1, st.1)
  {
    PlaceAt(t, s, y, x, cur);
    PlaceRebuilt(t, s, y, x, cur);
    PlaceCursor(t, s, y, x, cur);
  }

  /** The rest of the row after an anchor is the row's layout from that anchor on. */
  lemma PlaceRest(t: Table, s: Sheet, y: int, x: int, cur: int)
    requires RowInvariant(t, s, y, x, cur) && x < |t.cols| && Anchored(t, x, y)
    requires var st := Step(s, y, CellDataOf(CellAt(t, x, y)), cur);
      RebuiltBefore(t, LayRow(st.0, y, AnchorData(t, y, x + 1), st.1), 0, y + 1)
    ensures RebuiltBefore(t, LayRow(s, y, AnchorData(t, y, x), cur), 0, y + 1)
  {
    LayRowAnchored(t, s, y, x, cur);
  }

  /** Laying out the data of row `y` from column `x` on rebuilds every cell
      anchored in that row. */
  lemma {:induction false} LayRowRebuilds(t: Table, s: Sheet, y: int, x: int, cur: int)
    requires RowInvariant(t, s, y, x, cur)
    ensures RebuiltBefore(t, LayRow(s, y, AnchorData(t, y, x), cur), 0, y + 1)
    decreases |t.cols| - x
  {
    if x == |t.cols| {
      assert LayRow(s, y, AnchorData(t, y, x), cur) == s;
      RowEnd(t, s, y);
    } else if Anchored(t, x, y) {
      PlaceStep(t, s, y, x, cur);
      var st := Step(s, y, CellDataOf(CellAt(t, x, y)), cur);
      LayRowRebuilds(t, st.0, y, x + 1, st.1);
      PlaceRest(t, s, y, x, cur);
    } else {
      SkipStep(t, s, y, x, cur);
      LayRowRebuilds(t, s, y, x + 1, cur);
      SkipRest(t, s, y, x, cur);
    }
  }

  /** The invariant of the layout before row `y`: every cell anchored in an
      earlier row is rebuilt. */
  ghost predicate RowsInvariant(t: Table, s: Sheet, y: nat)
  {
    MatrixValid(t) && y <= |t.rows| && RebuiltBefore(t, s, 0, y)
  }

  /** Laying out the data `getCells` writes for row `y` adds that row's cells. */
  lemma RowRebuilds(t: Table, s: Sheet, y: nat, row: seq<CellData>)
    requires RowsInvariant(t, s, y) && y < |t.rows| && row == AnchorData(t, y, 0)
    ensures RowsInvariant(t, LayRow(s, y, row, 0), y + 1)
  {
    LayRowRebuilds(t, s, y, 0, 0);
  }

  /** Laying out the rows from `y` on, each the data `getCells` writes for
      it, rebuilds every cell. */
  lemma {:induction false} LayRowsRebuilds(t: Table, rows: seq<seq<CellData>>, s: Sheet, y: nat)
    requires RowsInvariant(t, s, y) && |rows| == |t.rows|
    requires forall k | y <= k < |rows| :: rows[k] == AnchorData(t, k, 0)
    ensures RowsInvariant(t, LayRows(s, rows, y), |t.rows|)
    decreases |t.rows| - y
  {
    if y < |t.rows| {
      RowRebuilds(t, s, y, rows[y]);
      LayRowsRebuilds(t, rows, LayRow(s, y, rows[y], 0), y + 1);
    }
  }

  /** A layout holding every cell of `t` at the slots `t` gives it tiles the
      grid, slot for slot as `t` does. */
  lemma RebuiltTiles(t: Table, s: Sheet)
    requires MatrixValid(t) && RebuiltBefore(t, s, 0, |t.rows|)
    ensures Tiles(s, |t.cols|, |t.rows|)
    ensures forall y, x | 0 <= y < |t.rows| && 0 <= x < |t.cols| :: s.made[s.occ[Pos(x, y)]] == CellAt(t, x, y)
  {
    forall y, x | 0 <= y < |t.rows| && 0 <= x < |t.cols|
      ensures Pos(x, y) in s.occ
    {
      assert Fits(CellAt(t, x, y), |t.cols|, |t.rows|);
    }
    RebuiltSpans(t, s);
  }

  /** In a layout holding every cell of `t` at its slots, each created cell
      holds exactly the slots of its rectangle. */
  lemma RebuiltSpans(t: Table, s: Sheet)
    requires MatrixValid(t) && RebuiltBefore(t, s, 0, |t.rows|)
    requires forall y, x | 0 <= y < |t.rows| && 0 <= x < |t.cols| :: Pos(x, y) in s.occ
    ensures forall k, y, x | 0 <= k < |s.made| && 0 <= y < |t.rows| && 0 <= x < |t.cols| ::
      Occupies(s.made[k], x, y) <==> s.occ[Pos(x, y)] == k
  {
    forall k, y, x | 0 <= k < |s.made| && 0 <= y < |t.rows| && 0 <= x < |t.cols|
      ensures Occupies(s.made[k], x, y) <==> s.occ[Pos(x, y)] == k
    {
      var a := Pos(s.made[k].col, s.made[k].row);
      if Occupies(s.made[k], x, y) {
        assert t.slots[y][x] == t.slots[a.y][a.x];
        var j := s.occ[Pos(x, y)];
        assert s.made[j] == s.made[k];
      } else {
        assert Occupies(CellAt(t, x, y), x, y);
      }
    }
  }

  /** Laying out what `getCells` writes rebuilds the matrix exactly: the
      layout tiles the grid and puts in every slot the cell `t` has there. */
  lemma LayoutRebuilds(t: Table)
    requires MatrixValid(t)
    ensures var s := Layout(GetCells(t));
      && Tiles(s, |t.cols|, |t.rows|)
      && forall y, x | 0 <= y < |t.rows| && 0 <= x < |t.cols| :: s.made[s.occ[Pos(x, y)]] == CellAt(t, x, y)
  {
    GetCellsAnchors(t);
    LayRowsRebuilds(t, Serialised(t), Sheet(map[], []), 0);
    RebuiltTiles(t, Layout(GetCells(t)));
  }

  /** A layout tiling the grid as it is reaches no position beyond it, so
      nothing is added. */
  lemma LaidWithin(t: Table, s: Sheet)
    requires |t.cols| >= 1 && |t.rows| >= 1 && Tiles(s, |t.cols|, |t.rows|)
    ensures LaidColumns(t, s) == |t.cols| && LaidRows(t, s) == |t.rows|
  {
    assert forall k | 0 <= k < |s.made| :: Fits(s.made[k], |t.cols|, |t.rows|);
  }

  /** Writing the cells out with `getCells` and setting them back with
      `__setcells` gives a valid table with the same cell in every slot, which
      writes out to the same data. */
  lemma SetCellsGetCells(t: Table)
    requires Valid(t)
    ensures SetCells(t, GetCells(t)).Success?
    ensures var u := SetCells(t, GetCells(t)).value;
      && (forall y, x | 0 <= y < |t.rows| && 0 <= x < |t.cols| :: CellAt(u, x, y) == CellAt(t, x, y))
      && GetCells(u) == GetCells(t)
  {
    LayoutRebuilds(t);
    var s := Layout(GetCells(t));
    LaidWithin(t, s);
    var u := SetCells(t, GetCells(t)).value;
    assert u.cols == t.cols && u.rows == t.rows;
    assert forall y, x | 0 <= y < |t.rows| && 0 <= x < |t.cols| :: CellAt(u, x, y) == CellAt(t, x, y);
    GetCellsAlike(t, u);
  }

  /** A single row holding one cell two columns wide is laid out at the
      origin, over the first two slots of row 0. */
  lemma WideCellLayout()
    ensures Layout([[CellData(Some(2), None, None)]]) == Sheet(map[Pos(0, 0) := 0, Pos(1, 0) := 0], [Cell(0, 0, 2, 1, "")])
  {
    var d := CellData(Some(2), None, None);
    var s0 := Sheet(map[], []);
    assert NextFree(s0.occ, 0, 0) == 0;
    var s1 := Create(s0, 0, 0, d);
    assert Footprint(0, 0, 2, 1) == {Pos(0, 0), Pos(1, 0)};
    assert s1 == Sheet(map[Pos(0, 0) := 0, Pos(1, 0) := 0], [Cell(0, 0, 2, 1, "")]);
    assert LayRow(s0, 0, [d], 0) == s1;
    assert LayRows(s1, [[d]], 1) == s1;
    assert LayRows(s0, [[d]], 0) == LayRows(LayRow(s0, 0, [d], 0), [[d]], 1);
  }

  /** That layout reaches two columns and one row, and tiles them. */
  lemma WideCellTiles()
    ensures var s := Sheet(map[Pos(0, 0) := 0, Pos(1, 0) := 0], [Cell(0, 0, 2, 1, "")]);
      ColReach(s.made) == 2 && RowReach(s.made) == 1 && Tiles(s, 2, 1)
  {
    var s := Sheet(map[Pos(0, 0) := 0, Pos(1, 0) := 0], [Cell(0, 0, 2, 1, "")]);
    assert s.made[1..] == [];
  }

  /** The layout of a single cell two columns wide. */
  function WideSheet(): Sheet
  {
    Sheet(map[Pos(0, 0) := 0, Pos(1, 0) := 0], [Cell(0, 0, 2, 1, "")])
  }

  /** Given that cell, a one-column, one-row table is rebuilt on the layout. */
  lemma WideCellRebuilt(t: Table)
    requires |t.cols| == 1 && |t.rows| == 1 && t.cols[0].index == 0 && t.rows[0].index == 0
    ensures TilesGrown(t, WideSheet()) && LaidColumns(t, WideSheet()) == 2 && LaidRows(t, WideSheet()) == 1
    ensures SetCells(t, [[CellData(Some(2), None, None)]]) == Success(Rebuilt(t, WideSheet()))
  {
    WideCellLayout();
    WideCellTiles();
  }

  /** That layout creates exactly one cell, under the first id. */
  lemma WideCellIds(base: nat)
    ensures SheetCells(WideSheet(), base) == map[base := Cell(0, 0, 2, 1, "")]
  {
    var m := SheetCells(WideSheet(), base);
    assert forall id :: id in m <==> id == base;
    assert m.Keys == {base};
  }

  /** The table rebuilt on that layout: one column appended, one cell
      spanning the row. */
  lemma WideCellShape(t: Table)
    requires |t.cols| == 1 && |t.rows| == 1 && t.cols[0].index == 0 && t.rows[0].index == 0
    requires TilesGrown(t, WideSheet()) && LaidColumns(t, WideSheet()) == 2 && LaidRows(t, WideSheet()) == 1
    ensures var u := Rebuilt(t, WideSheet());
      && u.cols == [t.cols[0], Line(1, t.config.minColumnWidth, false, 0)]
      && u.rows == t.rows
      && u.slots == [[t.nextId, t.nextId]]
      && u.cells == map[t.nextId := Cell(0, 0, 2, 1, "")]
      && u.nextId == t.nextId + 1
  {
    var s := WideSheet();
    var cols := GrowLines(t.cols, 2, t.config.minColumnWidth);
    assert cols[..1] == t.cols;
    assert GrowLines(t.rows, 1, t.config.minRowHeight) == t.rows;
    var slots := SheetSlots(s, 2, 1, t.nextId);
    assert slots[0] == [t.nextId, t.nextId];
    WideCellIds(t.nextId);
  }

  /** A one-column, one-row table given a single cell two columns wide: the
      layout reaches column 1, so a second column of the minimum width is
      appended after the existing one, and the new cell, under the next
      fresh id, fills both slots of the row. */
  lemma SetCellsGrows(t: Table)
    requires |t.cols| == 1 && |t.rows| == 1 && t.cols[0].index == 0 && t.rows[0].index == 0
    ensures var r := SetCells(t, [[CellData(Some(2), None, None)]]);
      && r.Success?
      && r.value.cols == [t.cols[0], Line(1, t.config.minColumnWidth, false, 0)]
      && r.value.rows == t.rows
      && r.value.slots == [[t.nextId, t.nextId]]
      && r.value.cells == map[t.nextId := Cell(0, 0, 2, 1, "")]
      && r.value.nextId == t.nextId + 1
  {
    WideCellRebuilt(t);
    WideCellShape(t);
  }
}

=== FILE: ledger.dfy ===
/** The geometry ledger of the table: column lefts and row tops as running totals,
    the table's width and height as grand totals, the extent of a spanning cell, and
    the clamp applied when the table's width or height is assigned. Columns and rows
    are the same concept here (a `Line`): for a column `size` is its width and
    `offset` its left, for a row they are its height and its top. */
module Ledger {

  /** One column or one row: its position `index`, its `size`, whether it is a
      header line, and its `offset` from the table's left or top edge. */
  datatype Line = Line(index: int, size: int, header: bool, offset: int)

  /** The sum of the sizes of `ls`. */
  function Total(ls: seq<Line>): int
  {
    if ls == [] then 0 else ls[0].size + Total(ls[1..])
  }

  lemma {:induction false} TotalAppend(a: seq<Line>, b: seq<Line>)
    ensures Total(a + b) == Total(a) + Total(b)
  {
    if a == [] {
      assert a + b == b;
    } else {
      assert (a + b)[1..] == a[1..] + b;
      TotalAppend(a[1..], b);
    }
  }

  lemma TotalSingleton(l: Line)
    ensures Total([l]) == l.size
  {
    assert [l][1..] == [];
  }

  lemma TotalStep(ls: seq<Line>, i: int)
    requires 0 <= i < |ls|
    ensures Total(ls[..i + 1]) == Total(ls[..i]) + ls[i].size
  {
    assert ls[..i + 1] == ls[..i] + [ls[i]];
    TotalAppend(ls[..i], [ls[i]]);
    assert Total([ls[i]]) == ls[i].size + Total([]);
  }

  /** Two line sequences of the same length whose sizes agree position by position. */
  predicate SameSizes(a: seq<Line>, b: seq<Line>)
  {
    |a| == |b| && forall i | 0 <= i < |a| :: a[i].size == b[i].size
  }

  lemma {:induction false} TotalSameSizes(a: seq<Line>, b: seq<Line>)
    requires SameSizes(a, b)
    ensures Total(a) == Total(b)
  {
    if a != [] {
      TotalSameSizes(a[1..], b[1..]);
    }
  }

  /** Every line's offset is the total of the lines before it. */
  predicate OffsetsCurrent(ls: seq<Line>)
  {
    forall i {:trigger ls[i].offset} | 0 <= i < |ls| :: ls[i].offset == Total(ls[..i])
  }

  /** Every line's `index` is its position (indices are contiguous from 0). */
  predicate Contiguous(ls: seq<Line>)
  {
    forall i | 0 <= i < |ls| :: ls[i].index == i
  }

  /** `ls` grown to `n` lines, as `_createCell` pushes a line for a position
      it finds missing: each new line has its position as index, the given
      minimum `size`, no header flag, and an offset of 0 until the next
      geometry pass. Already `n` lines or more are kept as they are. */
  function GrowLines(ls: seq<Line>, n: int, size: int): (r: seq<Line>)
    ensures |r| == if n > |ls| then n else |ls|
    ensures r[..|ls|] == ls
    ensures forall i | |ls| <= i < |r| :: r[i] == Line(i, size, false, 0)
    ensures Contiguous(ls) ==> Contiguous(r)
  {
    if n <= |ls| then ls
    else
      var r := ls + seq(n - |ls|, i requires 0 <= i < n - |ls| => Line(|ls| + i, size, false, 0));
      assert r[..|ls|] == ls;
      r
  }

  /** The loop of `_updateColumns` / `_updateRows`: walk the lines in order,
      storing the running total (begun at `start`) as each line's offset. */
  function AssignOffsets(ls: seq<Line>, start: int): (r: seq<Line>)
    ensures |r| == |ls|
    ensures forall i | 0 <= i < |ls| :: r[i] == ls[i].(offset := start + Total(ls[..i]))
    decreases |ls|
  {
    if ls == [] then []
    else
      var rest := AssignOffsets(ls[1..], start + ls[0].size);
      assert forall i | 1 <= i < |ls| :: ls[..i][1..] == ls[1..][..i - 1];
      [ls[0].(offset := start)] + rest
  }

  /** `_updateColumns` / `_updateRows`: recompute every offset from 0; nothing
      but the offsets changes. */
  function UpdateOffsets(ls: seq<Line>): (r: seq<Line>)
    ensures OffsetsCurrent(r)
    ensures SameSizes(r, ls)
    ensures forall i | 0 <= i < |ls| :: r[i].index == ls[i].index && r[i].header == ls[i].header
  {
    var r := AssignOffsets(ls, 0);
    assert forall i | 0 <= i < |ls| :: r[..i] == r[..i] && SameSizes(r[..i], ls[..i]);
    forall i | 0 <= i < |ls|
      ensures r[i].offset == Total(r[..i])
    {
      TotalSameSizes(r[..i], ls[..i]);
    }
    r
  }

  lemma UpdateOffsetsIdempotent(ls: seq<Line>)
    requires OffsetsCurrent(ls)
    ensures UpdateOffsets(ls) == ls
  {
    var r := UpdateOffsets(ls);
    assert forall i | 0 <= i < |ls| :: r[i] == ls[i];
  }

  /** The outcome of assigning a table width (or height): the lines, the total
      the table now records, and whether the source raised its
      `_columnsmodified` (or `_rowsmodified`) flag. */
  datatype Clamped = Clamped(lines: seq<Line>, total: int, changed: bool)

  /** `__setwidth` / `__setheight` once the lines exist: the requested total is
      raised to at least the sizes of all lines but the last plus `minSize`; if
      the outcome differs from the `current` total the last line takes up the
      difference and the change is flagged, otherwise nothing moves. */
  function ClampLast(ls: seq<Line>, current: int, requested: int, minSize: int): (r: Clamped)
    requires |ls| >= 1
    ensures |r.lines| == |ls|
    ensures forall i | 0 <= i < |ls| - 1 :: r.lines[i] == ls[i]
    ensures r.lines[|ls| - 1].index == ls[|ls| - 1].index && r.lines[|ls| - 1].header == ls[|ls| - 1].header
    ensures r.lines[|ls| - 1].offset == ls[|ls| - 1].offset
    ensures r.total >= Total(ls[..|ls| - 1]) + minSize
    ensures requested >= Total(ls[..|ls| - 1]) + minSize ==> r.total == requested
    ensures r.changed <==> r.total != current
    ensures !r.changed ==> r.lines == ls
    ensures r.changed ==> r.lines[|ls| - 1].size >= minSize
    ensures current == Total(ls) ==> Total(r.lines) == r.total && r.lines[|ls| - 1].size >= minSize
    ensures OffsetsCurrent(ls) ==> OffsetsCurrent(r.lines)
  {
    var n := |ls|;
    var before := Total(ls[..n - 1]);
    var v := if before + minSize > requested then before + minSize else requested;
    TotalStep(ls, n - 1);
    assert ls[..n] == ls;
    if v != current then
      var lines := ls[n - 1 := ls[n - 1].(size := v - before)];
      assert lines[..n - 1] == ls[..n - 1];
      TotalStep(lines, n - 1);
      assert lines[..n] == lines;
      assert forall i | 0 <= i < n :: lines[..i] == ls[..i];
      Clamped(lines, v, true)
    else
      Clamped(ls, current, false)
  }

  /** `_updateColumns` then `_updateTableWidth` (or the row-wise pair): offsets
      are recomputed, then the recorded total (`current`) is reassigned the line
      total through `ClampLast`. */
  function Settle(ls: seq<Line>, current: int, minSize: int): (r: Clamped)
    requires |ls| >= 1
    ensures |r.lines| == |ls| && OffsetsCurrent(r.lines)
    ensures forall i | 0 <= i < |ls| :: r.lines[i].index == ls[i].index && r.lines[i].header == ls[i].header
    ensures forall i | 0 <= i < |ls| - 1 :: r.lines[i].size == ls[i].size
    ensures current == Total(ls) ==> r.total == Total(r.lines) && r.lines[|ls| - 1].size >= minSize
    ensures ls[|ls| - 1].size >= minSize ==> SameSizes(r.lines, ls) && r.total == Total(ls)
  {
    var u := UpdateOffsets(ls);
    TotalSameSizes(u, ls);
    TotalStep(u, |u| - 1);
    assert u[..|u|] == u;
    ClampLast(u, current, Total(u), minSize)
  }

  /** Every line shifted by `d` positions. */
  function ShiftIndices(ls: seq<Line>, d: int): (r: seq<Line>)
    ensures |r| == |ls|
    ensures forall i | 0 <= i < |ls| :: r[i] == ls[i].(index := ls[i].index + d)
  {
    seq(|ls|, i requires 0 <= i < |ls| => ls[i].(index := ls[i].index + d))
  }

  /** The lines with a new line of `size` spliced in at `p`, later lines renumbered. */
  function SpliceLine(ls: seq<Line>, p: int, size: int): (r: seq<Line>)
    requires 0 <= p <= |ls|
    ensures |r| == |ls| + 1
    ensures forall i | 0 <= i < p :: r[i] == ls[i]
    ensures r[p] == Line(p, size, false, 0)
    ensures forall i | p <= i < |ls| :: r[i + 1] == ls[i].(index := ls[i].index + 1)
    ensures Contiguous(ls) ==> Contiguous(r)
  {
    ls[..p] + [Line(p, size, false, 0)] + ShiftIndices(ls[p..], 1)
  }

  /** Splicing in a line adds its size to the total. */
  lemma SpliceLineTotal(ls: seq<Line>, p: int, size: int)
    requires 0 <= p <= |ls|
    ensures Total(SpliceLine(ls, p, size)) == Total(ls) + size
  {
    var head, mid, tail := ls[..p], [Line(p, size, false, 0)], ShiftIndices(ls[p..], 1);
    TotalAppend(head + mid, tail);
    TotalAppend(head, mid);
    TotalSingleton(Line(p, size, false, 0));
    TotalSameSizes(tail, ls[p..]);
    TotalAppend(head, ls[p..]);
    assert head + ls[p..] == ls;
  }

  /** Settling lines after a splice: the other lines keep their sizes and
      header flags around the new one, which is no header and keeps its size
      unless it was appended below the minimum. */
  lemma SpliceSettled(ls: seq<Line>, p: int, size: int, current: int, minSize: int)
    requires 1 <= |ls| && 0 <= p <= |ls| && ls[|ls| - 1].size >= minSize
    ensures var r := Settle(SpliceLine(ls, p, size), current, minSize).lines;
      && (forall i | 0 <= i < p :: r[i].size == ls[i].size && r[i].header == ls[i].header)
      && (forall i | p <= i < |ls| :: r[i + 1].size == ls[i].size && r[i + 1].header == ls[i].header)
      && !r[p].header
      && (p < |ls| || size >= minSize ==> r[p].size == size)
  {
    SplicedBefore(ls, p, size, current, minSize);
    SplicedAfter(ls, p, size, current, minSize);
    SpliceLast(ls, p, size);
    SettledLine(SpliceLine(ls, p, size), current, minSize, p);
  }

  /** The settled lines before a splice point are the old ones. */
  lemma SplicedBefore(ls: seq<Line>, p: int, size: int, current: int, minSize: int)
    requires 1 <= |ls| && 0 <= p <= |ls|
    ensures var r := Settle(SpliceLine(ls, p, size), current, minSize).lines;
      forall i | 0 <= i < p :: r[i].size == ls[i].size && r[i].header == ls[i].header
  {
    var s := SpliceLine(ls, p, size);
    forall i | 0 <= i < p
      ensures Settle(s, current, minSize).lines[i].size == ls[i].size
      ensures Settle(s, current, minSize).lines[i].header == ls[i].header
    {
      SettledLine(s, current, minSize, i);
    }
  }

  /** The settled lines after a splice point are the old ones, one further on. */
  lemma SplicedAfter(ls: seq<Line>, p: int, size: int, current: int, minSize: int)
    requires 1 <= |ls| && 0 <= p <= |ls| && ls[|ls| - 1].size >= minSize
    ensures var r := Settle(SpliceLine(ls, p, size), current, minSize).lines;
      forall i | p <= i < |ls| :: r[i + 1].size == ls[i].size && r[i + 1].header == ls[i].header
  {
    var s := SpliceLine(ls, p, size);
    SpliceLast(ls, p, size);
    forall i | p <= i < |ls|
      ensures Settle(s, current, minSize).lines[i + 1].size == ls[i].size
      ensures Settle(s, current, minSize).lines[i + 1].header == ls[i].header
    {
      SettledLine(s, current, minSize, i + 1);
    }
  }

  /** A settled line keeps its header flag, and its size unless it is the
      last line and below the minimum. */
  lemma SettledLine(ls: seq<Line>, current: int, minSize: int, i: int)
    requires 0 <= i < |ls|
    ensures Settle(ls, current, minSize).lines[i].header == ls[i].header
    ensures i < |ls| - 1 || LastSize(ls) >= minSize ==> Settle(ls, current, minSize).lines[i].size == ls[i].size
  {
  }

  /** The last line after a splice: the old last line, or the new line when it
      is appended. */
  lemma SpliceLast(ls: seq<Line>, p: int, size: int)
    requires 1 <= |ls| && 0 <= p <= |ls|
    ensures SpliceLine(ls, p, size)[|ls|].size == if p < |ls| then ls[|ls| - 1].size else size
  {
  }

  /** The lines without the one at `p`, later lines renumbered one down. */
  function RemoveLine(ls: seq<Line>, p: int): (r: seq<Line>)
    requires 0 <= p < |ls|
    ensures |r| == |ls| - 1
    ensures forall i | 0 <= i < p :: r[i] == ls[i]
    ensures forall i | p <= i < |r| :: r[i] == ls[i + 1].(index := ls[i + 1].index - 1)
    ensures Contiguous(ls) ==> Contiguous(r)
  {
    ls[..p] + ShiftIndices(ls[p + 1..], -1)
  }

  /** Cutting lines `lo` to `hi` out takes their sizes off the total. */
  lemma ExciseTotal(ls: seq<Line>, lo: int, hi: int)
    requires 0 <= lo <= hi < |ls|
    ensures Total(ls[..lo] + ls[hi + 1..]) == Total(ls) - Total(ls[lo..hi + 1])
  {
    var a, b, c := ls[..lo], ls[lo..hi + 1], ls[hi + 1..];
    TotalAppend(a, c);
    assert ls == a + b + c;
    TotalAppend(a + b, c);
    TotalAppend(a, b);
  }

  /** The size of the last line. */
  function LastSize(ls: seq<Line>): int
    requires |ls| >= 1
  {
    ls[|ls| - 1].size
  }

  /** Lines sized like `ls` with `lo` to `hi` cut out: their total drops by
      the cut sizes, and their last line is the old last line, or the one
      before the cut when the cut reached the end. */
  lemma ExcisedLines(ls: seq<Line>, ms: seq<Line>, lo: int, hi: int)
    requires 0 <= lo <= hi < |ls| && hi - lo + 1 < |ls|
    requires SameSizes(ms, ls[..lo] + ls[hi + 1..])
    ensures |ms| == |ls| - (hi - lo + 1)
    ensures Total(ms) == Total(ls) - Total(ls[lo..hi + 1])
    ensures hi < |ls| - 1 ==> LastSize(ms) == LastSize(ls)
    ensures hi == |ls| - 1 ==> LastSize(ms) == ls[lo - 1].size
  {
    var kept := ls[..lo] + ls[hi + 1..];
    TotalSameSizes(ms, kept);
    ExciseTotal(ls, lo, hi);
    assert LastSize(ms) == LastSize(kept);
    if hi < |ls| - 1 {
      assert kept[|kept| - 1] == ls[|ls| - 1];
    } else {
      assert kept == ls[..lo];
    }
  }

  /** Removing a line takes its size off the total. */
  lemma RemoveLineTotal(ls: seq<Line>, p: int)
    requires 0 <= p < |ls|
    ensures Total(RemoveLine(ls, p)) == Total(ls) - ls[p].size
  {
    var head, tail := ls[..p], ShiftIndices(ls[p + 1..], -1);
    TotalAppend(head, tail);
    TotalSameSizes(tail, ls[p + 1..]);
    TotalAppend(head, ls[p..]);
    assert head + ls[p..] == ls;
    assert ls[p..][1..] == ls[p + 1..];
  }

  /** Settling lines after a removal: the lines that remain keep their sizes and
      header flags, except that the new last line keeps its size only when it is
      at least the minimum. */
  lemma RemoveSettled(ls: seq<Line>, p: int, current: int, minSize: int)
    requires 2 <= |ls| && 0 <= p < |ls| && ls[|ls| - 1].size >= minSize
    ensures var r := Settle(RemoveLine(ls, p), current, minSize).lines;
      && (forall i | 0 <= i < p :: r[i].header == ls[i].header)
      && (forall i | 0 <= i < p && (i < |ls| - 2 || ls[i].size >= minSize) :: r[i].size == ls[i].size)
      && (forall i | p < i < |ls| :: r[i - 1].size == ls[i].size && r[i - 1].header == ls[i].header)
  {
    var s := RemoveLine(ls, p);
    var n := |ls|;
    var r := Settle(s, current, minSize).lines;
    if p < n - 1 {
      assert s[n - 2].size == ls[n - 1].size;
    }
    forall i | 0 <= i < p
      ensures r[i].header == ls[i].header
    {
      assert s[i] == ls[i];
    }
    forall i | 0 <= i < p && (i < n - 2 || ls[i].size >= minSize)
      ensures r[i].size == ls[i].size
    {
      assert s[i] == ls[i];
    }
    forall i | p < i < n
      ensures r[i - 1].size == ls[i].size && r[i - 1].header == ls[i].header
    {
      assert s[i - 1] == ls[i].(index := ls[i].index - 1);
    }
  }

  /** The cell-extent loop of `_updateCellsGeometry`: the sum of the sizes of the
      `span` lines from `start`, where a position past the last line adds nothing. */
  function Extent(ls: seq<Line>, start: int, span: int): (r: int)
    requires 0 <= start
    ensures 0 <= span && start + span <= |ls| ==> r == Total(ls[start..start + span])
    ensures 0 <= span && start + span < |ls| && OffsetsCurrent(ls) ==> r == ls[start + span].offset - ls[start].offset
    decreases span
  {
    if span <= 0 then 0
    else
      var r := Extent(ls, start, span - 1) + (if start + span - 1 < |ls| then ls[start + span - 1].size else 0);
      if start + span <= |ls| then
        TotalStep(ls[start..], span - 1);
        assert ls[start..][..span] == ls[start..start + span];
        assert ls[start..][..span - 1] == ls[start..start + span - 1];
        if start + span < |ls| && OffsetsCurrent(ls) then
          assert ls[..start + span] == ls[..start] + ls[start..start + span];
          TotalAppend(ls[..start], ls[start..start + span]);
          r
        else r
      else r
  }

  /** Lines with the given sizes, numbered from 0, not headers, offsets not yet computed. */
  function LinesOfSizes(sizes: seq<int>): (r: seq<Line>)
    ensures |r| == |sizes| && Contiguous(r)
    ensures forall i | 0 <= i < |sizes| :: r[i].size == sizes[i]
  {
    seq(|sizes|, i requires 0 <= i < |sizes| => Line(i, sizes[i], false, 0))
  }

  /** The sizes of the table built in the repository's own test: six columns of
      110 make a width of 660; row heights 28, 25, 25, 25, 25, 25, 23 make 176;
      and a cell spanning all six columns is 660 wide. */
  lemma ExampleTotals()
    ensures Total(LinesOfSizes([110, 110, 110, 110, 110, 110])) == 660
    ensures Total(LinesOfSizes([28, 25, 25, 25, 25, 25, 23])) == 176
    ensures Extent(UpdateOffsets(LinesOfSizes([110, 110, 110, 110, 110, 110])), 0, 6) == 660
  {
    var cols := LinesOfSizes([110, 110, 110, 110, 110, 110]);
    var rows := LinesOfSizes([28, 25, 25, 25, 25, 25, 23]);
    assert cols[1..][1..][1..][1..][1..][1..] == [];
    assert rows[1..][1..][1..][1..][1..][1..][1..] == [];
    var u := UpdateOffsets(cols);
    assert u[0..6] == u;
    TotalSameSizes(u, cols);
  }
}

=== FILE: merge.dfy ===
/** `mergeSelection` and `unmergeSelection`. A merge turns the cell in the top
    left slot of the selection's bounds into one spanning the whole rectangle
    and deletes every other cell anchored there; an unmerge shrinks every
    selected spanning cell to one slot and fills the slots it left with new
    empty cells. */
module Merge {
  import opened Wrappers
  import opened Seqs
  import opened Grid
  import opened Selection
  import opened Expand

  /** `Array.prototype.join`: the parts with `sep` between each two. */
  function Join(parts: seq<string>, sep: string): (r: string)
    ensures parts == [] ==> r == ""
    ensures |parts| == 1 ==> r == parts[0]
    ensures |parts| >= 1 ==> parts[0] <= r
  {
    if parts == [] then ""
    else if |parts| == 1 then parts[0]
    else parts[0] + sep + Join(parts[1..], sep)
  }

  /** The selection's bounds as an inclusive rectangle. */
  function BoundsRect(b: Bounds): Rect
  {
    Rect(b.x, b.y, b.x2, b.y2)
  }

  /** What `mergeSelection` needs and the source never checks: a non-empty
      selection whose bounds are merge-closed (as `selectRange` leaves them). */
  predicate MergeReady(t: Table)
    requires MatrixValid(t) && SelectionValid(t)
  {
    t.selection != [] && RectIn(t, BoundsRect(SelectionBounds(t).value)) && Closed(t, BoundsRect(SelectionBounds(t).value))
  }

  // ---------------------------------------------------------------- merge

  /** The cells `mergeSelection` deletes: every cell other than `keep` whose
      anchor lies in `g`. */
  function MergedAway(t: Table, g: Rect, keep: CellId): set<CellId>
  {
    set id | id in t.cells && id != keep && InRect(g, t.cells[id].col, t.cells[id].row)
  }

  /** The texts the merge loop collects from (`x`, `y`) on, column by column:
      the non-empty text of each deleted cell, met at its anchor. */
  function AwayTexts(t: Table, g: Rect, keep: CellId, x: int, y: int): (s: seq<string>)
    requires MatrixValid(t) && RectIn(t, g) && g.x1 <= x && g.y1 <= y <= g.y2
    ensures forall i | 0 <= i < |s| :: s[i] != ""
    decreases g.x2 - x, g.y2 - y
  {
    if x > g.x2 then []
    else
      var id := t.slots[y][x];
      var c := t.cells[id];
      var here := if id != keep && c.col == x && c.row == y && c.text != "" then [c.text] else [];
      here + if y < g.y2 then AwayTexts(t, g, keep, x, y + 1) else AwayTexts(t, g, keep, x + 1, g.y1)
  }

  /** Every text collected belongs to a deleted cell. */
  lemma {:induction false} AwayTextsSound(t: Table, g: Rect, keep: CellId, x: int, y: int)
    requires MatrixValid(t) && RectIn(t, g) && g.x1 <= x && g.y1 <= y <= g.y2
    ensures forall s | s in AwayTexts(t, g, keep, x, y) :: exists id | id in MergedAway(t, g, keep) :: t.cells[id].text == s
    decreases g.x2 - x, g.y2 - y
  {
    if x <= g.x2 {
      var id := t.slots[y][x];
      assert id in t.cells;
      if y < g.y2 {
        AwayTextsSound(t, g, keep, x, y + 1);
      } else {
        AwayTextsSound(t, g, keep, x + 1, g.y1);
      }
    }
  }

  /** Every deleted cell anchored at or after (`x`, `y`) in scan order
      contributes its non-empty text. */
  lemma {:induction false} AwayTextsComplete(t: Table, g: Rect, keep: CellId, x: int, y: int)
    requires MatrixValid(t) && RectIn(t, g) && g.x1 <= x && g.y1 <= y <= g.y2
    ensures forall id | id in MergedAway(t, g, keep) && t.cells[id].text != "" &&
        (t.cells[id].col > x || (t.cells[id].col == x && t.cells[id].row >= y)) ::
      t.cells[id].text in AwayTexts(t, g, keep, x, y)
    decreases g.x2 - x, g.y2 - y
  {
    if x <= g.x2 {
      if y < g.y2 {
        AwayTextsComplete(t, g, keep, x, y + 1);
      } else {
        AwayTextsComplete(t, g, keep, x + 1, g.y1);
      }
      var rest := if y < g.y2 then AwayTexts(t, g, keep, x, y + 1) else AwayTexts(t, g, keep, x + 1, g.y1);
      assert forall v | v in rest :: v in AwayTexts(t, g, keep, x, y);
      forall id | id in MergedAway(t, g, keep) && t.cells[id].text != "" &&
          (t.cells[id].col > x || (t.cells[id].col == x && t.cells[id].row >= y))
        ensures t.cells[id].text in AwayTexts(t, g, keep, x, y)
      {
        var c := t.cells[id];
        if c.col == x && c.row == y {
          assert Occupies(c, x, y);
          assert t.slots[y][x] == id;
        } else {
          assert c.text in rest;
        }
      }
    }
  }

  /** The merged cell's text: the kept cell's own text, then the collected
      texts, joined with single spaces. A kept cell without text still takes
      the first place, so the result then starts with a space. */
  function MergedText(t: Table, g: Rect, keep: CellId): string
    requires MatrixValid(t) && RectIn(t, g) && keep in t.cells
  {
    Join([t.cells[keep].text] + AwayTexts(t, g, keep, g.x1, g.y1), " ")
  }

  /** The slots after the merge: every slot of `g` holds `keep`. */
  function MergedSlots(t: Table, g: Rect, keep: CellId): (s: seq<seq<CellId>>)
    requires Dense(t)
    ensures |s| == |t.rows| && forall y | 0 <= y < |s| :: |s[y]| == |t.cols|
    ensures forall y, x | 0 <= y < |t.rows| && 0 <= x < |t.cols| :: s[y][x] == if InRect(g, x, y) then keep else t.slots[y][x]
  {
    seq(|t.rows|, y requires 0 <= y < |t.rows| =>
      seq(|t.cols|, x requires 0 <= x < |t.cols| => if InRect(g, x, y) then keep else t.slots[y][x]))
  }

  /** The cells after the merge: the kept cell spans `g` and carries the merged
      text; the cells anchored elsewhere in `g` are gone. */
  function MergedCells(t: Table, g: Rect, keep: CellId): (m: map<CellId, Cell>)
    requires MatrixValid(t) && RectIn(t, g) && keep in t.cells
    ensures forall id :: id in m <==> id in t.cells && id !in MergedAway(t, g, keep)
    ensures keep in m && m[keep] == t.cells[keep].(colspan := g.x2 - g.x1 + 1, rowspan := g.y2 - g.y1 + 1, text := MergedText(t, g, keep))
    ensures forall id | id in m && id != keep :: m[id] == t.cells[id]
  {
    var merged := t.cells[keep].(colspan := g.x2 - g.x1 + 1, rowspan := g.y2 - g.y1 + 1, text := MergedText(t, g, keep));
    map id | id in t.cells && id !in MergedAway(t, g, keep) :: if id == keep then merged else t.cells[id]
  }

  /** The top left slot of a closed rectangle is the anchor of its cell, and
      under closure a cell is deleted exactly when it lies inside the rectangle. */
  lemma MergeGeometry(t: Table, g: Rect)
    requires MatrixValid(t) && RectIn(t, g) && Closed(t, g)
    ensures var keep := t.slots[g.y1][g.x1];
      && t.cells[keep].col == g.x1 && t.cells[keep].row == g.y1
      && (forall id | id in t.cells :: (InRect(g, t.cells[id].col, t.cells[id].row) <==> Inside(t.cells[id], g)))
  {
    var keep := t.slots[g.y1][g.x1];
    assert Occupies(CellAt(t, g.x1, g.y1), g.x1, g.y1) && Inside(CellAt(t, g.x1, g.y1), g);
    forall id | id in t.cells && InRect(g, t.cells[id].col, t.cells[id].row)
      ensures Inside(t.cells[id], g)
    {
      var c := t.cells[id];
      assert Occupies(c, c.col, c.row) && Fits(c, |t.cols|, |t.rows|);
      assert Inside(CellAt(t, c.col, c.row), g);
    }
  }

  /** The matrix part of `mergeSelection` on the rectangle `g`. */
  function MergeRect(t: Table, g: Rect): (r: Table)
    requires MatrixValid(t) && RectIn(t, g)
  {
    var keep := t.slots[g.y1][g.x1];
    assert Occupies(CellAt(t, g.x1, g.y1), g.x1, g.y1);
    t.(slots := MergedSlots(t, g, keep), cells := MergedCells(t, g, keep), selection := [keep])
  }

  lemma MergeSlotOwned(t: Table, g: Rect, y: int, x: int)
    requires MatrixValid(t) && RectIn(t, g) && Closed(t, g) && 0 <= y < |t.rows| && 0 <= x < |t.cols|
    ensures var r := MergeRect(t, g); r.slots[y][x] in r.cells && Occupies(r.cells[r.slots[y][x]], x, y)
  {
    MergeGeometry(t, g);
    var keep := t.slots[g.y1][g.x1];
    if !InRect(g, x, y) {
      var c := CellAt(t, x, y);
      assert Occupies(c, x, y) && Fits(c, |t.cols|, |t.rows|);
      assert Occupies(CellAt(t, g.x1, g.y1), g.x1, g.y1);
    }
  }

  lemma MergeCellPlaced(t: Table, g: Rect, id: CellId, y: int, x: int)
    requires MatrixValid(t) && RectIn(t, g) && Closed(t, g) && 0 <= y < |t.rows| && 0 <= x < |t.cols|
    requires var r := MergeRect(t, g); id in r.cells && Occupies(r.cells[id], x, y)
    ensures MergeRect(t, g).slots[y][x] == id
  {
    MergeGeometry(t, g);
    var keep := t.slots[g.y1][g.x1];
    if id != keep {
      var c := t.cells[id];
      assert Occupies(c, x, y) && Fits(c, |t.cols|, |t.rows|);
      assert InRect(g, x, y) ==> Inside(CellAt(t, x, y), g);
    }
  }

  lemma MergeCellFits(t: Table, g: Rect, id: CellId)
    requires MatrixValid(t) && RectIn(t, g) && Closed(t, g)
    requires id in MergeRect(t, g).cells
    ensures Fits(MergeRect(t, g).cells[id], |t.cols|, |t.rows|) && id < t.nextId
  {
    MergeGeometry(t, g);
    assert Fits(t.cells[id], |t.cols|, |t.rows|);
  }

  lemma MergeRectValid(t: Table, g: Rect)
    requires Valid(t) && RectIn(t, g) && Closed(t, g)
    ensures Valid(MergeRect(t, g))
  {
    MergeRectMatrixValid(t, g);
    MergeRectSelectionValid(t, g);
    MergeRectLedgerValid(t, g);
  }

  lemma MergeRectSelectionValid(t: Table, g: Rect)
    requires Valid(t) && RectIn(t, g) && Closed(t, g)
    ensures SelectionValid(MergeRect(t, g))
  {
    MergeSlotOwned(t, g, g.y1, g.x1);
  }

  lemma MergeRectLedgerValid(t: Table, g: Rect)
    requires Valid(t) && RectIn(t, g)
    ensures LedgerValid(MergeRect(t, g))
  {
    var r := MergeRect(t, g);
    assert r.cols == t.cols && r.rows == t.rows && r.width == t.width && r.height == t.height && r.config == t.config;
  }

  lemma MergeRectMatrixValid(t: Table, g: Rect)
    requires Valid(t) && RectIn(t, g) && Closed(t, g)
    ensures MatrixValid(MergeRect(t, g))
  {
    var r := MergeRect(t, g);
    forall y, x | 0 <= y < |r.rows| && 0 <= x < |r.cols|
      ensures r.slots[y][x] in r.cells && Occupies(r.cells[r.slots[y][x]], x, y)
    {
      MergeSlotOwned(t, g, y, x);
    }
    forall id | id in r.cells
      ensures Fits(r.cells[id], |r.cols|, |r.rows|) && id < r.nextId
    {
      MergeCellFits(t, g, id);
    }
    forall id, y, x | id in r.cells && 0 <= y < |r.rows| && 0 <= x < |r.cols| && Occupies(r.cells[id], x, y)
      ensures r.slots[y][x] == id
    {
      MergeCellPlaced(t, g, id, y, x);
    }
  }

  /** `mergeSelection`: every slot of the selection's bounds now holds the cell
      of its top left slot, which spans the bounds and carries the merged text;
      every other cell inside the bounds is deleted; the selection becomes the
      merged cell alone. Nothing outside the bounds changes. */
  function MergeSelection(t: Table): (r: Table)
    requires Valid(t) && MergeReady(t)
    ensures Valid(r)
    ensures r.cols == t.cols && r.rows == t.rows && r.width == t.width && r.height == t.height
    ensures var g := BoundsRect(SelectionBounds(t).value); var keep := t.slots[g.y1][g.x1];
      && r.selection == [keep]
      && (forall y, x | 0 <= y < |t.rows| && 0 <= x < |t.cols| :: r.slots[y][x] == if InRect(g, x, y) then keep else t.slots[y][x])
  {
    var g := BoundsRect(SelectionBounds(t).value);
    MergeGeometry(t, g);
    MergeRectValid(t, g);
    MergeRect(t, g)
  }

  /** The cells after `mergeSelection`: the cell of the top left slot now spans
      the bounds and carries the merged text, every other cell inside the bounds
      is gone, and every cell outside them is untouched. */
  lemma MergeSelectionCells(t: Table)
    requires Valid(t) && MergeReady(t)
    ensures var g := BoundsRect(SelectionBounds(t).value); var keep := t.slots[g.y1][g.x1]; var r := MergeSelection(t);
      && r.cells[keep] == Cell(g.x1, g.y1, g.x2 - g.x1 + 1, g.y2 - g.y1 + 1, MergedText(t, g, keep))
      && (forall id :: id in r.cells <==> id in t.cells && (id == keep || !Inside(t.cells[id], g)))
      && (forall id | id in r.cells && id != keep :: r.cells[id] == t.cells[id])
  {
    var g := BoundsRect(SelectionBounds(t).value);
    MergeGeometry(t, g);
  }

  /** Every non-empty text of a deleted cell is carried into the merged text's
      parts, and nothing else is. */
  lemma MergeKeepsTexts(t: Table)
    requires Valid(t) && MergeReady(t)
    ensures var g := BoundsRect(SelectionBounds(t).value); var keep := t.slots[g.y1][g.x1];
      var parts := AwayTexts(t, g, keep, g.x1, g.y1);
      && MergedText(t, g, keep) == Join([t.cells[keep].text] + parts, " ")
      && (forall id | id in t.cells && id != keep && Inside(t.cells[id], g) && t.cells[id].text != "" :: t.cells[id].text in parts)
      && (forall s | s in parts :: exists id | id in t.cells && id != keep && Inside(t.cells[id], g) :: t.cells[id].text == s)
  {
    var g := BoundsRect(SelectionBounds(t).value);
    var keep := t.slots[g.y1][g.x1];
    MergeGeometry(t, g);
    AwayTextsSound(t, g, keep, g.x1, g.y1);
    AwayTextsComplete(t, g, keep, g.x1, g.y1);
  }

  /** The quirk of the text join: a merge whose top left cell has no text but
      which takes in a cell with text "b" yields " b", not "b". */
  lemma MergedTextLeadingSpace()
    ensures Join([""] + ["b"], " ") == " b"
  {
    assert ([""] + ["b"])[1..] == ["b"];
  }

  // -------------------------------------------------------------- unmerge

  /** A selected cell spanning more than one slot: one `unmergeSelection` splits. */
  predicate Splits(t: Table, id: CellId)
    requires id in t.cells
  {
    id in t.selection && (t.cells[id].colspan > 1 || t.cells[id].rowspan > 1)
  }

  /** Slot (`x`, `y`) receives a new cell: a split cell covers it without being
      anchored there. */
  predicate Vacated(t: Table, x: int, y: int)
    requires MatrixValid(t) && InGrid(t, x, y)
  {
    Splits(t, t.slots[y][x]) && !Anchored(t, x, y)
  }

  /** The number of slots in the first `y` rows of a grid `w` columns wide. */
  function RowBase(w: nat, y: nat): nat
  {
    if y == 0 then 0 else RowBase(w, y - 1) + w
  }

  /** The slot at position `k` when a grid `w` columns wide is read row by row. */
  function SlotOf(w: nat, k: nat): Pos
    requires w >= 1
  {
    if k < w then Pos(k, 0) else var p := SlotOf(w, k - w); Pos(p.x, p.y + 1)
  }

  /** `SlotOf` inverts the row-by-row numbering of slots. */
  lemma {:induction false} SlotOfBase(w: nat, x: nat, y: nat)
    requires x < w
    ensures SlotOf(w, RowBase(w, y) + x) == Pos(x, y)
  {
    if y > 0 {
      SlotOfBase(w, x, y - 1);
    }
  }

  /** Every position is the number of the slot `SlotOf` gives for it. */
  lemma {:induction false} SlotOfNumbered(w: nat, k: nat)
    requires w >= 1
    ensures 0 <= SlotOf(w, k).x < w && 0 <= SlotOf(w, k).y
    ensures RowBase(w, SlotOf(w, k).y) + SlotOf(w, k).x == k
  {
    if k >= w {
      SlotOfNumbered(w, k - w);
    }
  }

  /** Every slot of a row comes before every slot of a later row. */
  lemma {:induction false} RowBaseBelow(w: nat, y: nat, h: nat)
    requires y < h
    ensures RowBase(w, y) + w <= RowBase(w, h)
  {
    if y + 1 < h {
      RowBaseBelow(w, y, h - 1);
    }
  }

  /** The id the new cell of slot (`x`, `y`) receives: one fresh id per slot,
      numbered row by row from `nextId`. */
  function FreshId(t: Table, x: nat, y: nat): CellId
  {
    t.nextId + RowBase(|t.cols|, y) + x
  }

  /** The slot an id at or above `nextId` was reserved for. */
  function FreshSlot(t: Table, id: CellId): Pos
    requires |t.cols| >= 1 && t.nextId <= id
  {
    SlotOf(|t.cols|, id - t.nextId)
  }

  /** The ids `unmergeSelection` may hand out: one per slot of the grid. */
  function FreshLimit(t: Table): nat
  {
    t.nextId + RowBase(|t.cols|, |t.rows|)
  }

  /** `FreshSlot` inverts `FreshId`, and the ids of a grid's slots stay below
      `FreshLimit`. */
  lemma FreshIdSlot(t: Table, x: int, y: int)
    requires 0 <= x < |t.cols| && 0 <= y < |t.rows|
    ensures FreshSlot(t, FreshId(t, x, y)) == Pos(x, y)
    ensures FreshId(t, x, y) < FreshLimit(t)
  {
    SlotOfBase(|t.cols|, x, y);
    RowBaseBelow(|t.cols|, y, |t.rows|);
  }

  /** Every id at or above `nextId` is the fresh id of its slot. */
  lemma FreshSlotId(t: Table, id: CellId)
    requires |t.cols| >= 1 && t.nextId <= id
    ensures FreshSlot(t, id).x >= 0 && FreshSlot(t, id).y >= 0
    ensures FreshId(t, FreshSlot(t, id).x, FreshSlot(t, id).y) == id
  {
    SlotOfNumbered(|t.cols|, id - t.nextId);
  }

  /** An id `unmergeSelection` hands out: reserved for a vacated slot. */
  predicate IsFresh(t: Table, id: CellId)
    requires MatrixValid(t)
  {
    t.nextId <= id < FreshLimit(t) &&
    InGrid(t, FreshSlot(t, id).x, FreshSlot(t, id).y) && Vacated(t, FreshSlot(t, id).x, FreshSlot(t, id).y)
  }

  function SplitSlots(t: Table): (s: seq<seq<CellId>>)
    requires MatrixValid(t)
    ensures |s| == |t.rows| && forall y | 0 <= y < |s| :: |s[y]| == |t.cols|
    ensures forall y, x | 0 <= y < |t.rows| && 0 <= x < |t.cols| ::
      s[y][x] == if Vacated(t, x, y) then FreshId(t, x, y) else t.slots[y][x]
  {
    seq(|t.rows|, y requires 0 <= y < |t.rows| =>
      seq(|t.cols|, x requires 0 <= x < |t.cols| => if Vacated(t, x, y) then FreshId(t, x, y) else t.slots[y][x]))
  }

  /** The cells after the split: split cells shrink to their anchor slot, and
      each vacated slot has a new empty cell of its own. */
  function SplitCells(t: Table): (m: map<CellId, Cell>)
    requires MatrixValid(t)
    ensures forall id :: id in m <==> id in t.cells || IsFresh(t, id)
    ensures forall id | id in t.cells :: m[id] == if Splits(t, id) then t.cells[id].(colspan := 1, rowspan := 1) else t.cells[id]
    ensures forall id | IsFresh(t, id) :: id !in t.cells && m[id] == Cell(FreshSlot(t, id).x, FreshSlot(t, id).y, 1, 1, "")
  {
    var kept := map id | id in t.cells :: if Splits(t, id) then t.cells[id].(colspan := 1, rowspan := 1) else t.cells[id];
    var added := map id | t.nextId <= id < FreshLimit(t) && IsFresh(t, id) ::
      Cell(FreshSlot(t, id).x, FreshSlot(t, id).y, 1, 1, "");
    assert forall id | id in t.cells :: id < t.nextId;
    kept + added
  }

  /** The matrix part of `unmergeSelection`, before the new selection. */
  function Split(t: Table): (r: Table)
    requires MatrixValid(t)
    ensures r.cols == t.cols && r.rows == t.rows && r.width == t.width && r.height == t.height
    ensures r.selection == t.selection && r.config == t.config
  {
    t.(slots := SplitSlots(t), cells := SplitCells(t), nextId := FreshLimit(t))
  }

  lemma SplitSlotOwned(t: Table, y: int, x: int)
    requires MatrixValid(t) && 0 <= y < |t.rows| && 0 <= x < |t.cols|
    ensures var r := Split(t); r.slots[y][x] in r.cells && Occupies(r.cells[r.slots[y][x]], x, y)
  {
    assert Occupies(CellAt(t, x, y), x, y);
    if Vacated(t, x, y) {
      FreshIdSlot(t, x, y);
    }
  }

  lemma SplitCellPlaced(t: Table, id: CellId, y: int, x: int)
    requires MatrixValid(t) && 0 <= y < |t.rows| && 0 <= x < |t.cols|
    requires var r := Split(t); id in r.cells && Occupies(r.cells[id], x, y)
    ensures Split(t).slots[y][x] == id
  {
    if id in t.cells {
      KeptCellPlaced(t, id, y, x);
    } else {
      FreshCellPlaced(t, id, y, x);
    }
  }

  lemma KeptCellPlaced(t: Table, id: CellId, y: int, x: int)
    requires MatrixValid(t) && 0 <= y < |t.rows| && 0 <= x < |t.cols|
    requires id in t.cells && Occupies(SplitCells(t)[id], x, y)
    ensures SplitSlots(t)[y][x] == id
  {
    var c := t.cells[id];
    if Splits(t, id) {
      assert x == c.col && y == c.row;
      assert Occupies(c, x, y);
      assert t.slots[y][x] == id;
    } else {
      assert SplitCells(t)[id] == c;
      assert t.slots[y][x] == id;
    }
  }

  lemma FreshCellPlaced(t: Table, id: CellId, y: int, x: int)
    requires MatrixValid(t) && 0 <= y < |t.rows| && 0 <= x < |t.cols|
    requires id !in t.cells && id in SplitCells(t) && Occupies(SplitCells(t)[id], x, y)
    ensures SplitSlots(t)[y][x] == id
  {
    assert IsFresh(t, id);
    assert Pos(x, y) == FreshSlot(t, id);
    FreshSlotId(t, id);
  }

  lemma SplitCellFits(t: Table, id: CellId)
    requires MatrixValid(t) && id in Split(t).cells
    ensures Fits(Split(t).cells[id], |t.cols|, |t.rows|) && id < Split(t).nextId
  {
    if id in t.cells {
      assert Fits(t.cells[id], |t.cols|, |t.rows|);
    }
  }

  lemma SplitValid(t: Table)
    requires Valid(t)
    ensures Valid(Split(t))
  {
    var r := Split(t);
    forall y, x | 0 <= y < |r.rows| && 0 <= x < |r.cols|
      ensures r.slots[y][x] in r.cells && Occupies(r.cells[r.slots[y][x]], x, y)
    {
      SplitSlotOwned(t, y, x);
    }
    forall id | id in r.cells
      ensures Fits(r.cells[id], |r.cols|, |r.rows|) && id < r.nextId
    {
      SplitCellFits(t, id);
    }
    forall id, y, x | id in r.cells && 0 <= y < |r.rows| && 0 <= x < |r.cols| && Occupies(r.cells[id], x, y)
      ensures r.slots[y][x] == id
    {
      SplitCellPlaced(t, id, y, x);
    }
    assert SelectionValid(r);
    assert LedgerValid(r);
  }

  /** What slot (`x`, `y`) holds after the split: a one-slot cell of its own
      when a selected spanning cell covered it (keeping that cell's text at its
      anchor, empty elsewhere), the old cell otherwise. */
  lemma SplitContents(t: Table, x: int, y: int)
    requires MatrixValid(t) && InGrid(t, x, y)
    ensures Split(t).slots[y][x] in Split(t).cells
    ensures Split(t).cells[Split(t).slots[y][x]] ==
      if Splits(t, t.slots[y][x]) then Cell(x, y, 1, 1, if Anchored(t, x, y) then CellAt(t, x, y).text else "")
      else CellAt(t, x, y)
  {
    assert Occupies(CellAt(t, x, y), x, y);
    if Vacated(t, x, y) {
      FreshIdSlot(t, x, y);
    }
  }

  /** `unmergeSelection`: every selected spanning cell is split into one-slot
      cells, then the range between the old bounds' corners is selected. The
      table stays valid and its lines do not move. */
  function UnmergeSelection(t: Table): (r: Table)
    requires Valid(t) && t.selection != []
    ensures Valid(r)
    ensures r.cols == t.cols && r.rows == t.rows && r.width == t.width && r.height == t.height
  {
    var b := SelectionBounds(t).value;
    BoundsInGrid(t);
    SplitValid(t);
    var u := Split(t);
    var r := SelectRange(u, Pos(b.x, b.y), Pos(b.x2, b.y2));
    ReselectValid(u, r.selection);
    r
  }

  /** What slot (`x`, `y`) holds after `unmergeSelection`: a one-slot cell of
      its own when a selected spanning cell covered it, carrying that cell's
      text at its anchor and no text elsewhere; the old cell otherwise. */
  lemma UnmergeContents(t: Table, x: int, y: int)
    requires Valid(t) && t.selection != [] && InGrid(t, x, y)
    ensures var r := UnmergeSelection(t);
      && r.slots[y][x] in r.cells
      && r.cells[r.slots[y][x]] ==
        if Splits(t, t.slots[y][x]) then Cell(x, y, 1, 1, if Anchored(t, x, y) then CellAt(t, x, y).text else "")
        else CellAt(t, x, y)
  {
    SplitContents(t, x, y);
  }

  /** The rectangle `unmergeSelection` selects: grown, over the split table,
      from the corners of the bounds the selection had before. */
  function UnmergeRect(t: Table): Rect
    requires Valid(t) && t.selection != []
  {
    var b := SelectionBounds(t).value;
    BoundsInGrid(t);
    SplitValid(t);
    RangeRect(Split(t), Pos(b.x, b.y), Pos(b.x2, b.y2))
  }

  /** The selection `unmergeSelection` leaves: exactly the cells inside
      `UnmergeRect`, and it covers the old bounds. */
  lemma UnmergeSelects(t: Table)
    requires Valid(t) && t.selection != []
    ensures var r := UnmergeSelection(t); var g := UnmergeRect(t); var b := SelectionBounds(t).value;
      && (forall id :: id in r.selection <==> id in r.cells && Inside(r.cells[id], g))
      && g.x1 <= b.x && b.x2 <= g.x2 && g.y1 <= b.y && b.y2 <= g.y2
  {
    BoundsInGrid(t);
    SplitValid(t);
  }

  /** With a selection of one cell, the slots `unmergeSelection` splits are
      exactly those that cell covers. */
  lemma SplitsOne(t: Table, x: int, y: int)
    requires MatrixValid(t) && |t.selection| == 1 && t.selection[0] in t.cells && InGrid(t, x, y)
    ensures var c := t.cells[t.selection[0]];
      (if Splits(t, t.slots[y][x]) then Cell(x, y, 1, 1, if Anchored(t, x, y) then CellAt(t, x, y).text else "") else CellAt(t, x, y))
      == (if Occupies(c, x, y) then Cell(x, y, 1, 1, if x == c.col && y == c.row then c.text else "") else CellAt(t, x, y))
  {
    var keep := t.selection[0];
    var c := t.cells[keep];
    assert t.selection == [keep];
    var id := t.slots[y][x];
    assert Occupies(t.cells[id], x, y);
    assert id == keep <==> Occupies(c, x, y);
  }

  /** Unmerging a selection of one cell splits that cell into one-slot cells,
      the anchor keeping its text and the others empty, and leaves every other
      slot alone. */
  lemma UnmergeOne(t: Table, x: int, y: int)
    requires Valid(t) && |t.selection| == 1 && InGrid(t, x, y)
    ensures var c := t.cells[t.selection[0]]; var u := UnmergeSelection(t);
      && u.slots[y][x] in u.cells
      && u.cells[u.slots[y][x]] ==
        if Occupies(c, x, y) then Cell(x, y, 1, 1, if x == c.col && y == c.row then c.text else "")
        else CellAt(t, x, y)
  {
    UnmergeContents(t, x, y);
    SplitsOne(t, x, y);
  }

  /** After a merge the selected cell covers exactly the merged rectangle,
      and every slot outside it holds the cell it held before. */
  lemma MergedCover(t: Table, x: int, y: int)
    requires Valid(t) && MergeReady(t) && InGrid(t, x, y)
    ensures var g := BoundsRect(SelectionBounds(t).value); var keep := t.slots[g.y1][g.x1];
      var m := MergeSelection(t); var c := m.cells[m.selection[0]];
      (if Occupies(c, x, y) then Cell(x, y, 1, 1, if x == c.col && y == c.row then c.text else "") else CellAt(m, x, y))
      == (if InRect(g, x, y) then Cell(x, y, 1, 1, if x == g.x1 && y == g.y1 then MergedText(t, g, keep) else "") else CellAt(t, x, y))
  {
    var g := BoundsRect(SelectionBounds(t).value);
    var keep := t.slots[g.y1][g.x1];
    var m := MergeSelection(t);
    MergeSelectionCells(t);
    var id := m.slots[y][x];
    assert Occupies(m.cells[id], x, y);
    assert Occupies(m.cells[keep], x, y) <==> InRect(g, x, y);
    if !InRect(g, x, y) {
      assert id == t.slots[y][x] && id != keep;
    }
  }

  /** Unmerging right after a merge splits the merged rectangle back into
      one-slot cells, the top left one carrying the merged text and the others
      empty, and leaves every slot outside the rectangle as it was before the
      merge. */
  lemma MergeThenUnmerge(t: Table, x: int, y: int)
    requires Valid(t) && MergeReady(t) && InGrid(t, x, y)
    ensures var g := BoundsRect(SelectionBounds(t).value); var keep := t.slots[g.y1][g.x1];
      var u := UnmergeSelection(MergeSelection(t));
      && u.slots[y][x] in u.cells
      && u.cells[u.slots[y][x]] ==
        if InRect(g, x, y) then Cell(x, y, 1, 1, if x == g.x1 && y == g.y1 then MergedText(t, g, keep) else "")
        else CellAt(t, x, y)
  {
    UnmergeOne(MergeSelection(t), x, y);
    MergedCover(t, x, y);
  }
}

=== FILE: options.dfy ===
/** The property batching mixed into every fabric object: the order in which
    `setOptions` applies keys, `_set` with its setter dispatch, scale flip and
    dirty marking, the re-entrancy guard of `set` / `setOptions` around
    `onSet`, and the default filtering of `toDatalessObject`. */
module Options {
  import opened Wrappers
  import opened Seqs

  // ------------------------------------------------------ setOptions order

  /** The keys of an options object, in its key order. */
  function Keys<V>(opts: seq<(string, V)>): (ks: seq<string>)
    ensures |ks| == |opts| && forall i | 0 <= i < |opts| :: ks[i] == opts[i].0
  {
    seq(|opts|, i requires 0 <= i < |opts| => opts[i].0)
  }

  /** An options object names each key once. */
  predicate KeysDistinct<V>(opts: seq<(string, V)>)
  {
    forall i, j | 0 <= i < j < |opts| :: opts[i].0 != opts[j].0
  }

  /** `options[key]`. */
  function Lookup<V>(opts: seq<(string, V)>, k: string): (v: V)
    requires k in Keys(opts)
    ensures (k, v) in opts
    ensures KeysDistinct(opts) ==> forall e | e in opts && e.0 == k :: e.1 == v
    decreases |opts|
  {
    if opts[0].0 == k then opts[0].1
    else
      assert Keys(opts) == [opts[0].0] + Keys(opts[1..]);
      Lookup(opts[1..], k)
  }

  /** The first loop of `setOptions`: the entries whose key `order` does not
      list, in the options' own order. */
  function Unlisted<V>(opts: seq<(string, V)>, order: seq<string>): (r: seq<(string, V)>)
    ensures |r| <= |opts|
    ensures forall i | 0 <= i < |r| :: r[i] in opts && r[i].0 !in order
    decreases |opts|
  {
    if opts == [] then []
    else
      var rest := Unlisted(opts[1..], order);
      assert forall e | e in opts[1..] :: e in opts;
      if opts[0].0 in order then rest else [opts[0]] + rest
  }

  /** Every entry whose key is not listed is kept. */
  lemma {:induction false} UnlistedKeeps<V>(opts: seq<(string, V)>, order: seq<string>, e: (string, V))
    requires e in opts && e.0 !in order
    ensures e in Unlisted(opts, order)
    decreases |opts|
  {
    if e != opts[0] {
      assert e in opts[1..];
      UnlistedKeeps(opts[1..], order, e);
    }
  }

  /** Filtering keeps keys distinct. */
  lemma {:induction false} UnlistedDistinct<V>(opts: seq<(string, V)>, order: seq<string>)
    requires KeysDistinct(opts)
    ensures KeysDistinct(Unlisted(opts, order))
    decreases |opts|
  {
    if opts != [] {
      UnlistedDistinct(opts[1..], order);
      var rest := Unlisted(opts[1..], order);
      forall i | 0 <= i < |rest|
        ensures rest[i].0 != opts[0].0
      {
        var j :| 0 <= j < |opts[1..]| && opts[1..][j] == rest[i];
        assert opts[j + 1] == rest[i];
      }
    }
  }

  /** When `order` lists none of the keys, the first loop applies everything in
      the options' order. */
  lemma {:induction false} UnlistedNoneListed<V>(opts: seq<(string, V)>, order: seq<string>)
    requires forall i | 0 <= i < |opts| :: opts[i].0 !in order
    ensures Unlisted(opts, order) == opts
    decreases |opts|
  {
    if opts != [] {
      UnlistedNoneListed(opts[1..], order);
    }
  }

  /** Filtering keeps the options' order: it distributes over concatenation. */
  lemma {:induction false} UnlistedAppend<V>(a: seq<(string, V)>, b: seq<(string, V)>, order: seq<string>)
    ensures Unlisted(a + b, order) == Unlisted(a, order) + Unlisted(b, order)
    decreases |a|
  {
    if a != [] {
      assert (a + b)[1..] == a[1..] + b;
      UnlistedAppend(a[1..], b, order);
    } else {
      assert a + b == b;
    }
  }

  /** The second loop of `setOptions`: for each key of `order` that the options
      name, that entry, in `order`'s order. */
  function Listed<V>(opts: seq<(string, V)>, order: seq<string>): (r: seq<(string, V)>)
    ensures |r| <= |order|
    ensures forall i | 0 <= i < |r| :: r[i] in opts && r[i].0 in order
    decreases |order|
  {
    if order == [] then []
    else
      var rest := Listed(opts, order[1..]);
      assert forall k | k in order[1..] :: k in order;
      if order[0] in Keys(opts) then [(order[0], Lookup(opts, order[0]))] + rest else rest
  }

  /** Every entry whose key is listed is applied by the second loop. */
  lemma {:induction false} ListedKeeps<V>(opts: seq<(string, V)>, order: seq<string>, e: (string, V))
    requires KeysDistinct(opts) && e in opts && e.0 in order
    ensures e in Listed(opts, order)
    decreases |order|
  {
    if order[0] == e.0 {
      assert e.0 in Keys(opts);
    } else {
      assert e.0 in order[1..];
      ListedKeeps(opts, order[1..], e);
    }
  }

  /** A listing without repeats applies each key once. */
  lemma {:induction false} ListedDistinct<V>(opts: seq<(string, V)>, order: seq<string>)
    requires Distinct(order)
    ensures KeysDistinct(Listed(opts, order))
    decreases |order|
  {
    if order != [] {
      assert Distinct(order[1..]);
      ListedDistinct(opts, order[1..]);
      var rest := Listed(opts, order[1..]);
      forall i | 0 <= i < |rest|
        ensures rest[i].0 != order[0]
      {
        var j :| 0 <= j < |order[1..]| && order[1..][j] == rest[i].0;
        assert order[j + 1] == rest[i].0;
      }
    }
  }

  /** The second loop does not depend on the options' key order. */
  lemma {:induction false} ListedOrderFree<V>(a: seq<(string, V)>, b: seq<(string, V)>, order: seq<string>)
    requires KeysDistinct(a) && KeysDistinct(b) && forall e :: e in a <==> e in b
    ensures Listed(a, order) == Listed(b, order)
    decreases |order|
  {
    if order != [] {
      ListedOrderFree(a, b, order[1..]);
      var k := order[0];
      assert k in Keys(a) <==> k in Keys(b) by {
        if k in Keys(a) { assert (k, Lookup(a, k)) in b; }
        if k in Keys(b) { assert (k, Lookup(b, k)) in a; }
      }
      if k in Keys(a) {
        assert (k, Lookup(a, k)) in b;
      }
    }
  }

  /** When the options name every key of `order`, the second loop applies
      exactly `order`. */
  lemma {:induction false} ListedAll<V>(opts: seq<(string, V)>, order: seq<string>)
    requires forall i | 0 <= i < |order| :: order[i] in Keys(opts)
    ensures |Listed(opts, order)| == |order|
    ensures forall i | 0 <= i < |order| :: Listed(opts, order)[i].0 == order[i]
    decreases |order|
  {
    if order != [] {
      ListedAll(opts, order[1..]);
      var rest := Listed(opts, order[1..]);
      assert Listed(opts, order) == [(order[0], Lookup(opts, order[0]))] + rest;
    }
  }

  /** Where key `k` first stands in `order`. */
  function IndexIn(order: seq<string>, k: string): (n: nat)
    requires k in order
    ensures n < |order| && order[n] == k
    decreases |order|
  {
    if order[0] == k then 0 else 1 + IndexIn(order[1..], k)
  }

  /** The second loop applies keys in `order`'s order: of two applied keys, the
      earlier stands earlier in `order`. */
  lemma {:induction false} ListedFollowsOrder<V>(opts: seq<(string, V)>, order: seq<string>)
    requires Distinct(order)
    ensures forall i, j | 0 <= i < j < |Listed(opts, order)| ::
      IndexIn(order, Listed(opts, order)[i].0) < IndexIn(order, Listed(opts, order)[j].0)
    decreases |order|
  {
    if order != [] {
      var r, rest := Listed(opts, order), Listed(opts, order[1..]);
      assert Distinct(order[1..]);
      ListedFollowsOrder(opts, order[1..]);
      if order[0] in Keys(opts) {
        assert r == [(order[0], Lookup(opts, order[0]))] + rest;
        forall i, j | 0 <= i < j < |r|
          ensures IndexIn(order, r[i].0) < IndexIn(order, r[j].0)
        {
          assert r[j] == rest[j - 1];
          IndexTail(order, rest[j - 1].0);
          if i > 0 {
            assert r[i] == rest[i - 1];
            IndexTail(order, rest[i - 1].0);
            assert IndexIn(order[1..], rest[i - 1].0) < IndexIn(order[1..], rest[j - 1].0);
          } else {
            assert IndexIn(order, order[0]) == 0;
          }
        }
      } else {
        assert r == rest;
        forall i, j | 0 <= i < j < |r|
          ensures IndexIn(order, r[i].0) < IndexIn(order, r[j].0)
        {
          IndexTail(order, rest[i].0);
          IndexTail(order, rest[j].0);
          assert IndexIn(order[1..], rest[i].0) < IndexIn(order[1..], rest[j].0);
        }
      }
    }
  }

  /** Past the head of a sequence without repeats, positions shift by one. */
  lemma IndexTail(order: seq<string>, k: string)
    requires Distinct(order) && |order| >= 1 && k in order[1..]
    ensures IndexIn(order, k) == 1 + IndexIn(order[1..], k)
  {
    var m := IndexIn(order[1..], k);
    assert order[m + 1] == k;
  }

  /** The entries `setOptions` hands to `_set`, in order: the keys
      `propertyApplyOrder` does not list, in the options' order, then the
      listed keys in `propertyApplyOrder`'s order; with no
      `propertyApplyOrder`, every key in the options' order. */
  function Schedule<V>(opts: seq<(string, V)>, order: Option<seq<string>>): (s: seq<(string, V)>)
    ensures forall i | 0 <= i < |s| :: s[i] in opts
    ensures order.Some? ==> forall i, j | 0 <= i < j < |s| && s[j].0 !in order.value :: s[i].0 !in order.value
  {
    match order
    case None => opts
    case Some(o) => Unlisted(opts, o) + Listed(opts, o)
  }

  /** With distinct keys (and a `propertyApplyOrder` without repeats), every
      entry of the options is applied, and exactly once. */
  lemma ScheduleOnce<V>(opts: seq<(string, V)>, order: Option<seq<string>>)
    requires KeysDistinct(opts) && (order.Some? ==> Distinct(order.value))
    ensures multiset(Schedule(opts, order)) == multiset(opts)
  {
    if order.Some? {
      var o := order.value;
      SplitDistinct(opts, o);
      SplitCovers(opts, o);
      KeysDistinctEntries(opts);
      DistinctMultiset(Schedule(opts, order), opts);
    }
  }

  /** Distinct keys make distinct entries. */
  lemma KeysDistinctEntries<V>(opts: seq<(string, V)>)
    requires KeysDistinct(opts)
    ensures Distinct(opts)
  {
    forall i, j | 0 <= i < j < |opts|
      ensures opts[i] != opts[j]
    {
      assert opts[i].0 != opts[j].0;
    }
  }

  /** The two loops together apply no entry twice. */
  lemma SplitDistinct<V>(opts: seq<(string, V)>, o: seq<string>)
    requires KeysDistinct(opts) && Distinct(o)
    ensures Distinct(Unlisted(opts, o) + Listed(opts, o))
  {
    var u, l := Unlisted(opts, o), Listed(opts, o);
    var s := u + l;
    UnlistedDistinct(opts, o);
    ListedDistinct(opts, o);
    forall i, j | 0 <= i < j < |s|
      ensures s[i] != s[j]
    {
      if j < |u| {
        assert s[i] == u[i] && s[j] == u[j];
      } else if i >= |u| {
        assert s[i] == l[i - |u|] && s[j] == l[j - |u|];
      } else {
        assert s[i] == u[i] && s[j] == l[j - |u|];
      }
    }
  }

  /** The two loops together apply every entry. */
  lemma SplitCovers<V>(opts: seq<(string, V)>, o: seq<string>)
    requires KeysDistinct(opts)
    ensures forall e | e in opts :: e in Unlisted(opts, o) + Listed(opts, o)
  {
    forall e | e in opts
      ensures e in Unlisted(opts, o) + Listed(opts, o)
    {
      if e.0 in o {
        ListedKeeps(opts, o, e);
      } else {
        UnlistedKeeps(opts, o, e);
      }
    }
  }

  /** When `propertyApplyOrder` lists every key of the options, the order in
      which the options name their keys makes no difference. */
  lemma ScheduleOrderFree<V>(a: seq<(string, V)>, b: seq<(string, V)>, order: seq<string>)
    requires KeysDistinct(a) && KeysDistinct(b) && forall e :: e in a <==> e in b
    requires forall i | 0 <= i < |a| :: a[i].0 in order
    ensures Schedule(a, Some(order)) == Schedule(b, Some(order))
  {
    ListedOrderFree(a, b, order);
    UnlistedAllListed(a, order);
    forall i | 0 <= i < |b|
      ensures b[i].0 in order
    {
      assert b[i] in a;
    }
    UnlistedAllListed(b, order);
  }

  /** When `propertyApplyOrder` lists every key of the options, each option is
      applied once, in the order the list gives. */
  lemma ScheduleAllListed<V>(opts: seq<(string, V)>, order: seq<string>)
    requires KeysDistinct(opts) && Distinct(order)
    requires forall i | 0 <= i < |opts| :: opts[i].0 in order
    ensures var s := Schedule(opts, Some(order));
      && multiset(s) == multiset(opts)
      && forall i, j | 0 <= i < j < |s| :: IndexIn(order, s[i].0) < IndexIn(order, s[j].0)
  {
    ScheduleOnce(opts, Some(order));
    UnlistedAllListed(opts, order);
    ListedFollowsOrder(opts, order);
    assert Schedule(opts, Some(order)) == Listed(opts, order);
  }

  /** The first loop applies nothing when every key is listed. */
  lemma {:induction false} UnlistedAllListed<V>(opts: seq<(string, V)>, order: seq<string>)
    requires forall i | 0 <= i < |opts| :: opts[i].0 in order
    ensures Unlisted(opts, order) == []
    decreases |opts|
  {
    if opts != [] {
      UnlistedAllListed(opts[1..], order);
    }
  }

  /** Two sequences without repeats holding the same elements hold them as the
      same multiset. */
  lemma {:induction false} DistinctMultiset<T>(a: seq<T>, b: seq<T>)
    requires Distinct(a) && Distinct(b) && forall e :: e in a <==> e in b
    ensures multiset(a) == multiset(b)
    decreases |a|
  {
    if a != [] {
      var x := a[0];
      assert x in b;
      var i :| 0 <= i < |b| && b[i] == x;
      var b' := RemoveAt(b, i);
      RemoveAtFacts(b, i);
      forall e
        ensures e in a[1..] <==> e in b'
      {
        if e in a[1..] {
          var k :| 0 <= k < |a[1..]| && a[1..][k] == e;
          assert a[k + 1] == e && a[0] == x;
        }
      }
      assert Distinct(a[1..]);
      DistinctMultiset(a[1..], b');
      assert a == [x] + a[1..];
    } else {
      forall e
        ensures multiset(b)[e] == 0
      {
        assert e !in b;
      }
      assert multiset(b) == multiset{};
    }
  }

  /** Removing position `p` from a sequence without repeats removes exactly its
      element, once. */
  lemma RemoveAtFacts<T>(s: seq<T>, p: int)
    requires 0 <= p < |s| && Distinct(s)
    ensures multiset(s) == multiset(RemoveAt(s, p)) + multiset{s[p]}
    ensures Distinct(RemoveAt(s, p))
    ensures forall e :: e in RemoveAt(s, p) <==> e in s && e != s[p]
  {
    var r := RemoveAt(s, p);
    assert r == s[..p] + s[p + 1..];
    assert s == s[..p] + [s[p]] + s[p + 1..];
    forall e | e in s && e != s[p]
      ensures e in r
    {
      var k :| 0 <= k < |s| && s[k] == e;
      assert r[if k < p then k else k - 1] == e;
    }
    forall i, j | 0 <= i < j < |r|
      ensures r[i] != r[j]
    {
      assert r[i] == s[if i < p then i else i + 1];
      assert r[j] == s[if j < p then j else j + 1];
    }
  }

  // ------------------------------------------------------------- _set

  /** A property value, with JavaScript's strict equality: numbers and strings
      compare by value, objects by identity. */
  datatype Val = Undefined | Bool(b: bool) | Num(n: real) | Text(s: string) | Ref(id: nat)

  type Props = map<string, Val>

  /** `this[key]`. */
  function Get(p: Props, k: string): Val
  {
    if k in p then p[k] else Undefined
  }

  /** JavaScript truthiness. */
  predicate Truthy(v: Val)
  {
    match v
    case Undefined => false
    case Bool(b) => b
    case Num(n) => n != 0.0
    case Text(s) => s != ""
    case Ref(_) => true
  }

  /** What `_set` consults on the object: the keys that have a `__set<key>`
      setter and that setter, `_constrainScale`, and `cacheProperties`. */
  datatype Hooks = Hooks(
    setters: set<string>,
    setter: (Props, string, Val) -> Props,
    constrainScale: Val -> Val,
    cacheProperties: set<string>)

  predicate Negative(v: Val)
  {
    v.Num? && v.n < 0.0
  }

  /** A negative scale stored as its magnitude, with the flip toggled. */
  function Unflipped(p: Props, flip: string, v: Val): (r: (Props, Val))
    requires Negative(v)
    ensures Truthy(Get(r.0, flip)) == !Truthy(Get(p, flip))
    ensures r.1.Num? && r.1.n > 0.0
  {
    (p[flip := Bool(!Truthy(Get(p, flip)))], Num(-v.n))
  }

  /** `_set(key, value)`: whether the value changes is judged on the value as
      given; a scale is constrained, and a negative one toggles the flip and
      is stored negated; then the setter runs if there is one, otherwise the
      value is assigned; a change of a cached property marks the object dirty. */
  function SetProp(h: Hooks, p: Props, key: string, value: Val): (r: Props)
    ensures key !in h.setters && key != "scaleX" && key != "scaleY" && key != "dirty" ==> Get(r, key) == value
    ensures key !in h.setters && key != "scaleX" && key != "scaleY" && key != "dirty" ==>
      forall k | k != key && k != "dirty" :: Get(r, k) == Get(p, k)
    ensures Get(p, key) != value && key in h.cacheProperties ==> Get(r, "dirty") == Bool(true)
    ensures key == "scaleX" && key !in h.setters && Negative(h.constrainScale(value)) ==>
      && Truthy(Get(r, "flipX")) == !Truthy(Get(p, "flipX"))
      && Get(r, "scaleX") == Num(-h.constrainScale(value).n)
  {
    var changed := Get(p, key) != value;
    var v := if key == "scaleX" || key == "scaleY" then h.constrainScale(value) else value;
    var (base, stored) := if key == "scaleX" && Negative(v) then Unflipped(p, "flipX", v)
                          else if key == "scaleY" && Negative(v) then Unflipped(p, "flipY", v)
                          else (p, v);
    var written := if key in h.setters then h.setter(base, key, stored) else base[key := stored];
    if changed && key in h.cacheProperties then written["dirty" := Bool(true)] else written
  }

  /** Setting a plain property to the same value twice is the same as setting
      it once. */
  lemma SetPropTwice(h: Hooks, p: Props, key: string, value: Val)
    requires key !in h.setters && key != "scaleX" && key != "scaleY" && key != "dirty"
    ensures SetProp(h, SetProp(h, p, key, value), key, value) == SetProp(h, p, key, value)
  {
    var q := SetProp(h, p, key, value);
    assert Get(q, key) == value;
    assert q[key := value] == q;
  }

  /** Setting `scaleX` to the same negative value twice flips the object twice,
      back to how it was. */
  lemma NegativeScaleTwice(h: Hooks, p: Props, value: Val)
    requires "scaleX" !in h.setters && Negative(h.constrainScale(value))
    ensures Truthy(Get(SetProp(h, SetProp(h, p, "scaleX", value), "scaleX", value), "flipX")) == Truthy(Get(p, "flipX"))
  {
  }

  /** `_set` over a sequence of entries, in order. */
  function ApplyAll(h: Hooks, p: Props, entries: seq<(string, Val)>): (r: Props)
    ensures entries == [] ==> r == p
    decreases |entries|
  {
    if entries == [] then p else ApplyAll(h, SetProp(h, p, entries[0].0, entries[0].1), entries[1..])
  }

  // ------------------------------------------------------ the onSet guard

  /** A fabric object as the mixin sees it: its properties and whether its
      `onSet` is running. */
  datatype Obj = Obj(props: Props, onSetRunning: bool)

  /** The guard shared by `set` and `setOptions`: after the properties are
      applied, `onSet` runs unless it is absent or already running; it runs
      with the guard raised, and the guard is cleared afterwards. The number
      is how many times `onSet` was entered. */
  function Guarded(onSet: Option<Obj -> Obj>, o: Obj, applied: Props): (r: (Obj, nat))
    ensures r.1 <= 1
    ensures r.1 == 1 <==> onSet.Some? && !o.onSetRunning
    ensures r.1 == 1 ==> r.0 == onSet.value(Obj(applied, true)).(onSetRunning := false)
    ensures r.1 == 0 ==> r.0 == Obj(applied, o.onSetRunning)
  {
    if onSet.Some? && !o.onSetRunning then (onSet.value(Obj(applied, true)).(onSetRunning := false), 1)
    else (Obj(applied, o.onSetRunning), 0)
  }

  /** `set(key, value)`. */
  function Set(h: Hooks, onSet: Option<Obj -> Obj>, o: Obj, key: string, value: Val): (r: (Obj, nat))
    ensures r.1 == 1 <==> onSet.Some? && !o.onSetRunning
    ensures r.1 <= 1 && (r.1 == 0 ==> r.0.onSetRunning == o.onSetRunning)
    ensures r.1 == 1 ==> !r.0.onSetRunning
  {
    Guarded(onSet, o, SetProp(h, o.props, key, value))
  }

  /** `set(object)` and `setOptions(options)`: the entries in `Schedule`'s
      order, then the guarded `onSet`. */
  function SetOptions(h: Hooks, onSet: Option<Obj -> Obj>, o: Obj, opts: seq<(string, Val)>, order: Option<seq<string>>): (r: (Obj, nat))
    ensures r.1 == 1 <==> onSet.Some? && !o.onSetRunning
    ensures r.1 <= 1 && (r.1 == 0 ==> r.0.onSetRunning == o.onSetRunning)
    ensures r.1 == 1 ==> !r.0.onSetRunning
  {
    Guarded(onSet, o, ApplyAll(h, o.props, Schedule(opts, order)))
  }

  /** A `set` issued while `onSet` runs (as `onSet`'s own nested sets are)
      does not enter `onSet` again and leaves the guard raised. */
  lemma NestedSetSkipsOnSet(h: Hooks, onSet: Option<Obj -> Obj>, o: Obj, key: string, value: Val)
    requires o.onSetRunning
    ensures Set(h, onSet, o, key, value).1 == 0 && Set(h, onSet, o, key, value).0.onSetRunning
  {
  }

  /** An outermost `set` hands `onSet` an object with the guard raised, so
      every `set` inside it skips `onSet`; `onSet` is entered once in all. */
  lemma OutermostSetOnce(h: Hooks, f: Obj -> Obj, o: Obj, key: string, value: Val, key2: string, value2: Val)
    requires !o.onSetRunning
    ensures var inner := Obj(SetProp(h, o.props, key, value), true);
      Set(h, Some(f), o, key, value).1 == 1 && Set(h, Some(f), inner, key2, value2).1 == 0
  {
  }

  // --------------------------------------------------- toDatalessObject

  /** The value a property falls back to when left out: its default if that is
      truthy, otherwise the `fabric.Rect` prototype's value. */
  function Fallback(defaults: Props, proto: Props, k: string): Val
  {
    if Truthy(Get(defaults, k)) then defaults[k] else Get(proto, k)
  }

  /** `toDatalessObject`: `version` is dropped, `type` is always kept, and any
      other property equal to its fallback is dropped. */
  function Dataless(obj: Props, defaults: Props, proto: Props): (r: Props)
    ensures "version" !in r
    ensures "type" in obj ==> "type" in r && r["type"] == obj["type"]
    ensures forall k | k in r :: k in obj && r[k] == obj[k]
    ensures forall k | k in obj && k != "version" && k != "type" :: k in r <==> obj[k] != Fallback(defaults, proto, k)
  {
    map k | k in obj && k != "version" && (k == "type" || obj[k] != Fallback(defaults, proto, k)) :: obj[k]
  }

  /** What `toDatalessObject` leaves out can be restored: every property but
      `version` is either kept or equal to its fallback. */
  lemma DatalessRestores(obj: Props, defaults: Props, proto: Props)
    ensures var r := Dataless(obj, defaults, proto);
      forall k | k in obj && k != "version" :: obj[k] == if k in r then r[k] else Fallback(defaults, proto, k)
  {
  }

  /** Filtering twice is filtering once. */
  lemma DatalessIdempotent(obj: Props, defaults: Props, proto: Props)
    ensures Dataless(Dataless(obj, defaults, proto), defaults, proto) == Dataless(obj, defaults, proto)
  {
  }
}

=== FILE: resize.dfy ===
/** Interactive resizing of one column or row by dragging its far edge:
    `columnResizingBegin` / `rowResizingBegin` record the line, the nearest
    the edge may come to the line's near edge and the starting size;
    `columnResizing` / `rowResizing` move the edge to the pointer and settle
    the ledger; `columnResizingFinish` / `rowResizingFinish` report whether
    the drag changed anything. The ledger part is shared by columns and
    rows. */
module Resize {
  import opened Ledger
  import opened Grid

  /** The resize in progress, if any: the line being dragged (`_modifiedColumn`
      or `_modifiedRow`), the lowest position its far edge may take
      (`_scalingMinX` / `_scalingMinY`) and its size when the drag began
      (`_columnInitialWidth` / `_rowInitialHeight`). */
  datatype Resize = Idle | Active(line: nat, scalingMin: int, initial: int)

  /** The outcome of one drag step: the lines, the recorded total, and whether
      the `column` (or `row`) event fires. */
  datatype Stretched = Stretched(lines: seq<Line>, total: int, fired: bool)

  /** A ledger as `Grid.ColumnLedgerValid` (or `RowLedgerValid`) demands it:
      offsets are running totals, the recorded total is the sum, and the last
      line is at least the minimum. */
  predicate Ready(ls: seq<Line>, total: int, minSize: int)
  {
    |ls| >= 1 && OffsetsCurrent(ls) && total == Total(ls) && ls[|ls| - 1].size >= minSize
  }

  /** The resize in progress refers to an existing line, and its lowest edge
      position is still that line's offset plus the minimum size. */
  predicate Tracks(ls: seq<Line>, r: Resize, minSize: int)
  {
    r.Active? ==> r.line < |ls| && r.scalingMin == ls[r.line].offset + minSize
  }

  /** `columnResizingBegin` on line `i`. Which line the grabbed handle names
      is decided by the caller. */
  function Begin(ls: seq<Line>, i: nat, minSize: int): (r: Resize)
    requires i < |ls|
    ensures r.Active? && r.line == i && r.initial == ls[i].size
    ensures Tracks(ls, r, minSize)
  {
    Active(i, ls[i].offset + minSize, ls[i].size)
  }

  /** `columnResizing` with the pointer at `p` (in the table's own unscaled
      coordinates): the line's size becomes the distance from its offset to
      the pointer, held at least at the lowest edge position; then the
      offsets and the total are settled as `_updateColumns` and
      `_updateTableWidth` do. The event fires when the line's size changed. */
  function Stretch(ls: seq<Line>, total: int, r: Resize, p: int, minSize: int): (s: Stretched)
    requires r.Active? && r.line < |ls|
    ensures |s.lines| == |ls|
    ensures forall j | 0 <= j < |ls| :: s.lines[j].index == ls[j].index && s.lines[j].header == ls[j].header
    ensures s.fired <==> s.lines[r.line].size != ls[r.line].size
  {
    var i := r.line;
    var c := Settle(Resized(ls, i, Edge(r, p) - ls[i].offset), total, minSize);
    Stretched(c.lines, c.total, ls[i].size != c.lines[i].size)
  }

  /** Where the far edge goes: the pointer, but not below the lowest edge
      position (`Math.max`). */
  function Edge(r: Resize, p: int): (e: int)
    requires r.Active?
    ensures e >= p && e >= r.scalingMin && (e == p || e == r.scalingMin)
  {
    if p > r.scalingMin then p else r.scalingMin
  }

  /** `columnResizingFinish`: with a resize in progress, the table reports a
      modification when the line's size differs from its size at the start;
      either way no resize is in progress afterwards. */
  function Finish(ls: seq<Line>, r: Resize): (f: (Resize, bool))
    requires r.Active? ==> r.line < |ls|
    ensures f.0 == Idle
    ensures f.1 ==> r.Active?
  {
    if r.Idle? then (Idle, false)
    else (Idle, ls[r.line].size != r.initial)
  }

  /** The line `i` of `ls` set to size `size`. */
  function Resized(ls: seq<Line>, i: nat, size: int): (v: seq<Line>)
    requires i < |ls|
  {
    ls[i := ls[i].(size := size)]
  }

  /** One drag step: the dragged line's far edge lands on
      the pointer, or, when that would make the line smaller than the
      minimum, the line takes the minimum; no other line changes size. */
  lemma StretchSizes(ls: seq<Line>, total: int, r: Resize, p: int, minSize: int)
    requires |ls| >= 1 && ls[|ls| - 1].size >= minSize && r.Active? && Tracks(ls, r, minSize)
    ensures var s := Stretch(ls, total, r, p, minSize);
      && s.lines[r.line].size >= minSize
      && s.lines[r.line].size == Edge(r, p) - ls[r.line].offset
      && (p >= r.scalingMin ==> ls[r.line].offset + s.lines[r.line].size == p)
      && (p < r.scalingMin ==> s.lines[r.line].size == minSize)
      && forall j | 0 <= j < |ls| && j != r.line :: s.lines[j].size == ls[j].size
  {
    StretchSettles(ls, total, r, p, minSize);
  }

  /** A drag step on a ledger whose last line is at least the minimum sets the
      dragged line's size and settles the rest without changing any size. */
  lemma StretchSettles(ls: seq<Line>, total: int, r: Resize, p: int, minSize: int)
    requires |ls| >= 1 && ls[|ls| - 1].size >= minSize && r.Active? && Tracks(ls, r, minSize)
    ensures var s := Stretch(ls, total, r, p, minSize);
      var v := Resized(ls, r.line, Edge(r, p) - ls[r.line].offset);
      && Ready(s.lines, s.total, minSize) && SameSizes(s.lines, v)
  {
    var v := Resized(ls, r.line, Edge(r, p) - ls[r.line].offset);
    assert v[|v| - 1].size >= minSize;
    SettleSized(v, total, minSize);
    StretchUnfold(ls, total, r, p, minSize);
  }

  /** A drag step is the settling of the ledger with the dragged line resized. */
  lemma StretchUnfold(ls: seq<Line>, total: int, r: Resize, p: int, minSize: int)
    requires r.Active? && r.line < |ls|
    ensures var c := Settle(Resized(ls, r.line, Edge(r, p) - ls[r.line].offset), total, minSize);
      Stretch(ls, total, r, p, minSize).lines == c.lines && Stretch(ls, total, r, p, minSize).total == c.total
  {
  }

  /** The sizes before line `i` are unchanged, so its offset is too. */
  lemma OffsetKept(a: seq<Line>, b: seq<Line>, i: nat)
    requires OffsetsCurrent(a) && OffsetsCurrent(b) && |a| == |b| && i < |a|
    requires forall j | 0 <= j < i :: a[j].size == b[j].size
    ensures a[i].offset == b[i].offset
  {
    assert SameSizes(a[..i], b[..i]);
    TotalSameSizes(a[..i], b[..i]);
  }

  /** A drag step keeps the ledger ready and the resize in progress tracking
      its line: the lines before the dragged one keep their sizes, so its
      offset, and with it the lowest edge position, stays put. */
  lemma StretchReady(ls: seq<Line>, total: int, r: Resize, p: int, minSize: int)
    requires |ls| >= 1 && OffsetsCurrent(ls) && ls[|ls| - 1].size >= minSize
    requires r.Active? && Tracks(ls, r, minSize)
    ensures var s := Stretch(ls, total, r, p, minSize);
      Ready(s.lines, s.total, minSize) && Tracks(s.lines, r, minSize)
  {
    StretchTotal(ls, total, r, p, minSize);
    var s := Stretch(ls, total, r, p, minSize);
    StretchSizes(ls, total, r, p, minSize);
    OffsetKept(s.lines, ls, r.line);
  }

  /** After a drag step the offsets are current and the recorded total is
      the sum of the sizes. */
  lemma StretchTotal(ls: seq<Line>, total: int, r: Resize, p: int, minSize: int)
    requires |ls| >= 1 && ls[|ls| - 1].size >= minSize && r.Active? && Tracks(ls, r, minSize)
    ensures var s := Stretch(ls, total, r, p, minSize); Ready(s.lines, s.total, minSize)
  {
    StretchSettles(ls, total, r, p, minSize);
  }

  /** Settling lines whose last is at least the minimum leaves the sizes
      alone, makes the offsets current and records the sum. */
  lemma SettleSized(v: seq<Line>, total: int, minSize: int)
    requires |v| >= 1 && v[|v| - 1].size >= minSize
    ensures var c := Settle(v, total, minSize); Ready(c.lines, c.total, minSize) && SameSizes(c.lines, v)
  {
    TotalSameSizes(Settle(v, total, minSize).lines, v);
  }

  /** Settling a ready ledger changes nothing. */
  lemma SettleReady(ls: seq<Line>, total: int, minSize: int)
    requires Ready(ls, total, minSize)
    ensures Settle(ls, total, minSize) == Clamped(ls, total, false)
  {
    UpdateOffsetsIdempotent(ls);
  }

  /** A drag step that would give the dragged line the size it has changes
      nothing on a ready ledger. */
  lemma StretchInPlace(ls: seq<Line>, total: int, r: Resize, p: int, minSize: int)
    requires Ready(ls, total, minSize) && r.Active? && r.line < |ls|
    requires ls[r.line].size == Edge(r, p) - ls[r.line].offset
    ensures Stretch(ls, total, r, p, minSize) == Stretched(ls, total, false)
  {
    assert Resized(ls, r.line, Edge(r, p) - ls[r.line].offset) == ls;
    SettleReady(ls, total, minSize);
  }

  /** A second drag step to the same pointer position changes nothing and
      fires no event. */
  lemma StretchTwice(ls: seq<Line>, total: int, r: Resize, p: int, minSize: int)
    requires |ls| >= 1 && OffsetsCurrent(ls) && ls[|ls| - 1].size >= minSize
    requires r.Active? && Tracks(ls, r, minSize)
    ensures var s := Stretch(ls, total, r, p, minSize);
      Stretch(s.lines, s.total, r, p, minSize) == Stretched(s.lines, s.total, false)
  {
    var s := Stretch(ls, total, r, p, minSize);
    StretchReady(ls, total, r, p, minSize);
    StretchSizes(ls, total, r, p, minSize);
    StretchInPlace(s.lines, s.total, r, p, minSize);
  }

  /** Dragging further never makes the line smaller. */
  lemma StretchMonotone(ls: seq<Line>, total: int, r: Resize, p: int, q: int, minSize: int)
    requires |ls| >= 1 && ls[|ls| - 1].size >= minSize && r.Active? && Tracks(ls, r, minSize) && p <= q
    ensures Stretch(ls, total, r, p, minSize).lines[r.line].size <= Stretch(ls, total, r, q, minSize).lines[r.line].size
  {
    StretchSizes(ls, total, r, p, minSize);
    StretchSizes(ls, total, r, q, minSize);
  }

  /** Dragging the edge back to where it started, after any number of steps,
      undoes the resize: finishing then reports no modification. (A line that
      began below the minimum cannot return to its size.) */
  lemma ReturnUnmodified(ls: seq<Line>, total: int, r: Resize, minSize: int)
    requires |ls| >= 1 && ls[|ls| - 1].size >= minSize && r.Active? && Tracks(ls, r, minSize)
    requires r.initial >= minSize
    ensures var s := Stretch(ls, total, r, r.scalingMin - minSize + r.initial, minSize);
      !Finish(s.lines, r).1
  {
    StretchSizes(ls, total, r, r.scalingMin - minSize + r.initial, minSize);
  }

  /** Finishing right after beginning reports no modification. */
  lemma BeginFinish(ls: seq<Line>, i: nat, minSize: int)
    requires i < |ls|
    ensures Finish(ls, Begin(ls, i, minSize)) == (Idle, false)
  {
  }

  // ------------------------------------------------------------ the table

  /** `columnResizingBegin` on column `i`. */
  function ColumnResizingBegin(t: Table, i: nat): (r: Resize)
    requires i < |t.cols|
    ensures r.Active? && r.line == i && r.initial == t.cols[i].size
    ensures Tracks(t.cols, r, t.config.minColumnWidth)
  {
    Begin(t.cols, i, t.config.minColumnWidth)
  }

  /** `rowResizingBegin` on row `i`. */
  function RowResizingBegin(t: Table, i: nat): (r: Resize)
    requires i < |t.rows|
    ensures r.Active? && r.line == i && r.initial == t.rows[i].size
    ensures Tracks(t.rows, r, t.config.minRowHeight)
  {
    Begin(t.rows, i, t.config.minRowHeight)
  }

  /** `columnResizing`: the columns and the width after the step, and whether
      the `column` event fires. The cell frames follow from the new columns
      (`Geometry.Frames`). */
  function ColumnResizing(t: Table, r: Resize, p: int): (res: (Table, bool))
    requires r.Active? && r.line < |t.cols|
    ensures res.0 == t.(cols := res.0.cols, width := res.0.width)
    ensures |res.0.cols| == |t.cols|
    ensures res.1 <==> res.0.cols[r.line].size != t.cols[r.line].size
  {
    var s := Stretch(t.cols, t.width, r, p, t.config.minColumnWidth);
    (t.(cols := s.lines, width := s.total), s.fired)
  }

  /** `rowResizing`, the row-wise mirror of `ColumnResizing`. */
  function RowResizing(t: Table, r: Resize, p: int): (res: (Table, bool))
    requires r.Active? && r.line < |t.rows|
    ensures res.0 == t.(rows := res.0.rows, height := res.0.height)
    ensures |res.0.rows| == |t.rows|
    ensures res.1 <==> res.0.rows[r.line].size != t.rows[r.line].size
  {
    var s := Stretch(t.rows, t.height, r, p, t.config.minRowHeight);
    (t.(rows := s.lines, height := s.total), s.fired)
  }

  /** `columnResizingFinish`: the resize ends, and the `modified` event fires
      when the column's width differs from its width at the start. */
  function ColumnResizingFinish(t: Table, r: Resize): (f: (Resize, bool))
    requires r.Active? ==> r.line < |t.cols|
    ensures f.0 == Idle
    ensures f.1 <==> r.Active? && t.cols[r.line].size != r.initial
  {
    Finish(t.cols, r)
  }

  /** `rowResizingFinish`, the row-wise mirror of `ColumnResizingFinish`. */
  function RowResizingFinish(t: Table, r: Resize): (f: (Resize, bool))
    requires r.Active? ==> r.line < |t.rows|
    ensures f.0 == Idle
    ensures f.1 <==> r.Active? && t.rows[r.line].size != r.initial
  {
    Finish(t.rows, r)
  }

  /** A column drag step keeps a valid table valid, and the resize in progress
      keeps tracking its column. */
  lemma ColumnResizingValid(t: Table, r: Resize, p: int)
    requires Valid(t) && r.Active? && Tracks(t.cols, r, t.config.minColumnWidth)
    ensures var u := ColumnResizing(t, r, p).0;
      Valid(u) && Tracks(u.cols, r, t.config.minColumnWidth)
  {
    var s := Stretch(t.cols, t.width, r, p, t.config.minColumnWidth);
    StretchReady(t.cols, t.width, r, p, t.config.minColumnWidth);
    ColumnsReplacedValid(t, s.lines, s.total);
  }

  /** Replacing the columns of a valid table by as many, numbered in order,
      with a ready ledger, keeps it valid. */
  lemma ColumnsReplacedValid(t: Table, cols: seq<Line>, width: int)
    requires Valid(t) && Ready(cols, width, t.config.minColumnWidth) && |cols| == |t.cols|
    requires forall j | 0 <= j < |cols| :: cols[j].index == t.cols[j].index
    ensures Valid(t.(cols := cols, width := width))
  {
    assert Contiguous(cols);
  }

  /** The row-wise mirror of `ColumnsReplacedValid`. */
  lemma RowsReplacedValid(t: Table, rows: seq<Line>, height: int)
    requires Valid(t) && Ready(rows, height, t.config.minRowHeight) && |rows| == |t.rows|
    requires forall j | 0 <= j < |rows| :: rows[j].index == t.rows[j].index
    ensures Valid(t.(rows := rows, height := height))
  {
    assert Contiguous(rows);
  }

  /** The row-wise mirror of `ColumnResizingValid`. */
  lemma RowResizingValid(t: Table, r: Resize, p: int)
    requires Valid(t) && r.Active? && Tracks(t.rows, r, t.config.minRowHeight)
    ensures var u := RowResizing(t, r, p).0;
      Valid(u) && Tracks(u.rows, r, t.config.minRowHeight)
  {
    var s := Stretch(t.rows, t.height, r, p, t.config.minRowHeight);
    StretchReady(t.rows, t.height, r, p, t.config.minRowHeight);
    RowsReplacedValid(t, s.lines, s.total);
  }

  /** A column drag step sets the column's width to the pointer's distance
      from its left edge, at least the minimum column width, and leaves the
      other widths alone; the table width grows or shrinks by the same
      amount. */
  lemma ColumnResizingWidth(t: Table, r: Resize, p: int)
    requires Valid(t) && r.Active? && Tracks(t.cols, r, t.config.minColumnWidth)
    ensures var u := ColumnResizing(t, r, p).0; var i := r.line;
      && u.cols[i].size == (if p - t.cols[i].offset > t.config.minColumnWidth then p - t.cols[i].offset else t.config.minColumnWidth)
      && (forall j | 0 <= j < |t.cols| && j != i :: u.cols[j].size == t.cols[j].size)
      && u.width == t.width + u.cols[i].size - t.cols[i].size
  {
    var min := t.config.minColumnWidth;
    StretchSizes(t.cols, t.width, r, p, min);
    StretchReady(t.cols, t.width, r, p, min);
    var u := ColumnResizing(t, r, p).0;
    SizeChangeTotal(t.cols, u.cols, r.line);
  }

  /** The row-wise mirror of `ColumnResizingWidth`. */
  lemma RowResizingHeight(t: Table, r: Resize, p: int)
    requires Valid(t) && r.Active? && Tracks(t.rows, r, t.config.minRowHeight)
    ensures var u := RowResizing(t, r, p).0; var i := r.line;
      && u.rows[i].size == (if p - t.rows[i].offset > t.config.minRowHeight then p - t.rows[i].offset else t.config.minRowHeight)
      && (forall j | 0 <= j < |t.rows| && j != i :: u.rows[j].size == t.rows[j].size)
      && u.height == t.height + u.rows[i].size - t.rows[i].size
  {
    var min := t.config.minRowHeight;
    StretchSizes(t.rows, t.height, r, p, min);
    StretchReady(t.rows, t.height, r, p, min);
    var u := RowResizing(t, r, p).0;
    SizeChangeTotal(t.rows, u.rows, r.line);
  }

  /** Changing the size of one line changes the total by the same amount. */
  lemma SizeChangeTotal(a: seq<Line>, b: seq<Line>, i: nat)
    requires |a| == |b| && i < |a|
    requires forall j | 0 <= j < |a| && j != i :: a[j].size == b[j].size
    ensures Total(b) == Total(a) + b[i].size - a[i].size
  {
    assert a == a[..i] + [a[i]] + a[i + 1..];
    assert b == b[..i] + [b[i]] + b[i + 1..];
    TotalAppend(a[..i] + [a[i]], a[i + 1..]);
    TotalAppend(a[..i], [a[i]]);
    TotalAppend(b[..i] + [b[i]], b[i + 1..]);
    TotalAppend(b[..i], [b[i]]);
    TotalSingleton(a[i]);
    TotalSingleton(b[i]);
    assert SameSizes(a[..i], b[..i]) && SameSizes(a[i + 1..], b[i + 1..]);
    TotalSameSizes(a[..i], b[..i]);
    TotalSameSizes(a[i + 1..], b[i + 1..]);
  }
}

=== FILE: selection.dfy ===
/** The pure queries over the selection: `getSelectionBounds` and the
    `isSelection*` / `is*AvailableForSelection` predicates the context menu
    consults. */
module Selection {
  import opened Wrappers
  import opened Seqs
  import opened Ledger
  import opened Grid

  /** What `getSelectionBounds` returns: the first column and row, the number of
      columns and rows, and the last column and row. */
  datatype Bounds = Bounds(x: int, y: int, w: int, h: int, x2: int, y2: int)

  /** `vals.reduce((min, v) => v < min ? v : min, acc)`. */
  function FoldMin(vals: seq<int>, acc: int): (r: int)
    ensures r <= acc && forall i | 0 <= i < |vals| :: r <= vals[i]
    ensures r == acc || exists i | 0 <= i < |vals| :: r == vals[i]
    decreases |vals|
  {
    if vals == [] then acc
    else
      var r := FoldMin(vals[1..], if vals[0] < acc then vals[0] else acc);
      assert forall i | 1 <= i < |vals| :: vals[i] == vals[1..][i - 1];
      r
  }

  /** `vals.reduce((max, v) => v > max ? v : max, acc)`. */
  function FoldMax(vals: seq<int>, acc: int): (r: int)
    ensures r >= acc && forall i | 0 <= i < |vals| :: r >= vals[i]
    ensures r == acc || exists i | 0 <= i < |vals| :: r == vals[i]
    decreases |vals|
  {
    if vals == [] then acc
    else
      var r := FoldMax(vals[1..], if vals[0] > acc then vals[0] else acc);
      assert forall i | 1 <= i < |vals| :: vals[i] == vals[1..][i - 1];
      r
  }

  /** The cells of the selection, in selection order. */
  function Selected(t: Table): (cs: seq<Cell>)
    requires SelectionValid(t)
    ensures |cs| == |t.selection|
    ensures forall i | 0 <= i < |t.selection| :: cs[i] == t.cells[t.selection[i]]
  {
    seq(|t.selection|, i requires 0 <= i < |t.selection| => t.cells[t.selection[i]])
  }

  /** The anchor column of each selected cell, in selection order. */
  function Lefts(t: Table): (v: seq<int>)
    requires SelectionValid(t)
    ensures |v| == |t.selection| && forall i | 0 <= i < |v| :: v[i] == t.cells[t.selection[i]].col
  {
    seq(|t.selection|, i requires 0 <= i < |t.selection| => t.cells[t.selection[i]].col)
  }

  /** The last column of each selected cell. */
  function Rights(t: Table): (v: seq<int>)
    requires SelectionValid(t)
    ensures |v| == |t.selection|
    ensures forall i | 0 <= i < |v| :: v[i] == t.cells[t.selection[i]].col + t.cells[t.selection[i]].colspan - 1
  {
    seq(|t.selection|, i requires 0 <= i < |t.selection| => t.cells[t.selection[i]].col + t.cells[t.selection[i]].colspan - 1)
  }

  /** The anchor row of each selected cell. */
  function Tops(t: Table): (v: seq<int>)
    requires SelectionValid(t)
    ensures |v| == |t.selection| && forall i | 0 <= i < |v| :: v[i] == t.cells[t.selection[i]].row
  {
    seq(|t.selection|, i requires 0 <= i < |t.selection| => t.cells[t.selection[i]].row)
  }

  /** The last row of each selected cell. */
  function Bottoms(t: Table): (v: seq<int>)
    requires SelectionValid(t)
    ensures |v| == |t.selection|
    ensures forall i | 0 <= i < |v| :: v[i] == t.cells[t.selection[i]].row + t.cells[t.selection[i]].rowspan - 1
  {
    seq(|t.selection|, i requires 0 <= i < |t.selection| => t.cells[t.selection[i]].row + t.cells[t.selection[i]].rowspan - 1)
  }

  /** Cell `c` lies inside the rectangle `b`. */
  predicate Within(c: Cell, b: Bounds)
  {
    b.x <= c.col && c.col + c.colspan - 1 <= b.x2 && b.y <= c.row && c.row + c.rowspan - 1 <= b.y2
  }

  /** `getSelectionBounds`: `None` (the source's `null`) for an empty selection;
      otherwise the four folds over the selected cells, each started from the
      first selected cell. */
  function SelectionBounds(t: Table): (r: Option<Bounds>)
    requires SelectionValid(t)
    ensures r.None? <==> t.selection == []
    ensures r.Some? ==> r.value.w == r.value.x2 - r.value.x + 1 && r.value.h == r.value.y2 - r.value.y + 1
    ensures r.Some? ==> forall i | 0 <= i < |t.selection| :: Within(t.cells[t.selection[i]], r.value)
  {
    if t.selection == [] then None
    else
      var xmin := FoldMin(Lefts(t), Lefts(t)[0]);
      var xmax := FoldMax(Rights(t), Rights(t)[0]);
      var ymin := FoldMin(Tops(t), Tops(t)[0]);
      var ymax := FoldMax(Bottoms(t), Bottoms(t)[0]);
      Some(Bounds(xmin, ymin, xmax - xmin + 1, ymax - ymin + 1, xmax, ymax))
  }

  /** Some value equals the minimum a fold started at the first value reaches. */
  lemma FoldMinReached(vals: seq<int>)
    requires vals != []
    ensures exists i | 0 <= i < |vals| :: vals[i] == FoldMin(vals, vals[0])
  {
    if FoldMin(vals, vals[0]) == vals[0] {
      assert vals[0] == FoldMin(vals, vals[0]);
    }
  }

  lemma FoldMaxReached(vals: seq<int>)
    requires vals != []
    ensures exists i | 0 <= i < |vals| :: vals[i] == FoldMax(vals, vals[0])
  {
    if FoldMax(vals, vals[0]) == vals[0] {
      assert vals[0] == FoldMax(vals, vals[0]);
    }
  }

  /** The bounds are tight: selected cell `l` starts in the first column, `r`
      ends in the last, and `u` and `d` do the same for rows. */
  lemma SelectionBoundsTight(t: Table) returns (l: nat, u: nat, r: nat, d: nat)
    requires SelectionValid(t) && t.selection != []
    ensures l < |t.selection| && u < |t.selection| && r < |t.selection| && d < |t.selection|
    ensures var b := SelectionBounds(t).value;
      && t.cells[t.selection[l]].col == b.x
      && t.cells[t.selection[u]].row == b.y
      && t.cells[t.selection[r]].col + t.cells[t.selection[r]].colspan - 1 == b.x2
      && t.cells[t.selection[d]].row + t.cells[t.selection[d]].rowspan - 1 == b.y2
  {
    var b := SelectionBounds(t).value;
    var ls, rs, ts, bs := Lefts(t), Rights(t), Tops(t), Bottoms(t);
    FoldMinReached(ls);
    l :| 0 <= l < |ls| && ls[l] == b.x;
    FoldMinReached(ts);
    u :| 0 <= u < |ts| && ts[u] == b.y;
    FoldMaxReached(rs);
    r :| 0 <= r < |rs| && rs[r] == b.x2;
    FoldMaxReached(bs);
    d :| 0 <= d < |bs| && bs[d] == b.y2;
  }

  /** The bounds of a non-empty selection lie inside the grid. */
  lemma BoundsInGrid(t: Table)
    requires MatrixValid(t) && SelectionValid(t) && t.selection != []
    ensures var b := SelectionBounds(t).value;
      0 <= b.x <= b.x2 < |t.cols| && 0 <= b.y <= b.y2 < |t.rows| && 1 <= b.w <= |t.cols| && 1 <= b.h <= |t.rows|
  {
    var b := SelectionBounds(t).value;
    var l, u, r, d := SelectionBoundsTight(t);
    var c0 := t.cells[t.selection[0]];
    assert Within(c0, b) && Fits(c0, |t.cols|, |t.rows|);
    assert Fits(t.cells[t.selection[l]], |t.cols|, |t.rows|);
    assert Fits(t.cells[t.selection[u]], |t.cols|, |t.rows|);
    assert Fits(t.cells[t.selection[r]], |t.cols|, |t.rows|);
    assert Fits(t.cells[t.selection[d]], |t.cols|, |t.rows|);
  }

  /** `isSelectionMergeble`: more than one cell is selected. */
  predicate IsSelectionMergeable(t: Table)
  {
    |t.selection| > 1
  }

  /** A mergeable selection spans more than one slot, since two different
      cells never share an anchor. */
  lemma MergeableSpansSeveralSlots(t: Table)
    requires MatrixValid(t) && SelectionValid(t) && IsSelectionMergeable(t)
    ensures var b := SelectionBounds(t).value; b.w > 1 || b.h > 1
  {
    var b := SelectionBounds(t).value;
    if b.w <= 1 && b.h <= 1 {
      var a, c := t.cells[t.selection[0]], t.cells[t.selection[1]];
      assert Within(a, b) && Within(c, b) && Fits(a, |t.cols|, |t.rows|) && Fits(c, |t.cols|, |t.rows|);
      AnchorsUnique(t, t.selection[0], t.selection[1]);
      assert false;
    }
  }

  /** `!!selection.find(pred)` for the span test of `isSelectionUnmergeble`:
      scans the selected cells in order for one wider or taller than a slot. */
  function FindSpanning(cs: seq<Cell>): (r: bool)
    ensures r <==> exists i | 0 <= i < |cs| :: cs[i].colspan > 1 || cs[i].rowspan > 1
  {
    if cs == [] then false
    else if cs[0].colspan > 1 || cs[0].rowspan > 1 then true
    else
      assert forall i | 1 <= i < |cs| :: cs[i] == cs[1..][i - 1];
      FindSpanning(cs[1..])
  }

  /** `isSelectionUnmergeble`: some selected cell spans more than one slot. */
  function IsSelectionUnmergeable(t: Table): (r: bool)
    requires SelectionValid(t)
    ensures r <==> exists i | 0 <= i < |t.selection| ::
      t.cells[t.selection[i]].colspan > 1 || t.cells[t.selection[i]].rowspan > 1
  {
    FindSpanning(Selected(t))
  }

  /** The first index from `i` on whose value differs from `v`, if any
      (`selection.find(cell => cell.c.index !== selection[0].c.index)`). */
  function FindOther(vals: seq<int>, v: int, i: nat): (r: Option<nat>)
    requires i <= |vals|
    ensures r.None? <==> forall j | i <= j < |vals| :: vals[j] == v
    ensures r.Some? ==> i <= r.value < |vals| && vals[r.value] != v
    decreases |vals| - i
  {
    if i == |vals| then None
    else if vals[i] != v then Some(i)
    else FindOther(vals, v, i + 1)
  }

  /** `isInsertColumnAvailableForSelection`: false for an empty selection, true
      for a single cell, otherwise true when no selected cell is anchored in a
      column other than the first selected cell's. */
  function IsInsertColumnAvailable(t: Table): (r: bool)
    requires SelectionValid(t)
    ensures r <==> (t.selection != [] &&
      forall i | 0 <= i < |t.selection| :: t.cells[t.selection[i]].col == t.cells[t.selection[0]].col)
    ensures r ==> SelectionBounds(t).value.x == t.cells[t.selection[0]].col
  {
    if |t.selection| == 0 then false
    else if |t.selection| == 1 then true
    else
      FindOther(Lefts(t), Lefts(t)[0], 0).None?
  }

  /** `isInsertRowAvailableForSelection`, the row-wise mirror. */
  function IsInsertRowAvailable(t: Table): (r: bool)
    requires SelectionValid(t)
    ensures r <==> (t.selection != [] &&
      forall i | 0 <= i < |t.selection| :: t.cells[t.selection[i]].row == t.cells[t.selection[0]].row)
    ensures r ==> SelectionBounds(t).value.y == t.cells[t.selection[0]].row
  {
    if |t.selection| == 0 then false
    else if |t.selection| == 1 then true
    else
      FindOther(Tops(t), Tops(t)[0], 0).None?
  }

  /** `isRemoveColumnAvailableForSelection` as written: it compares the number
      of ROWS with the number of selected columns. */
  function IsRemoveColumnAvailableAsWritten(t: Table): (r: bool)
    requires SelectionValid(t)
    ensures r <==> t.selection != [] && |t.rows| != SelectionBounds(t).value.w
  {
    var b := SelectionBounds(t);
    if b.None? then false
    else if |t.rows| == b.value.w then false
    else |t.selection| != 0
  }

  /** `isRemoveColumnAvailableForSelection` as evidently intended: removing the
      selected columns must leave at least one column. */
  function IsRemoveColumnAvailable(t: Table): (r: bool)
    requires MatrixValid(t) && SelectionValid(t)
    ensures r <==> t.selection != [] && SelectionBounds(t).value.w < |t.cols|
  {
    var b := SelectionBounds(t);
    if b.None? then false
    else
      BoundsInGrid(t);
      if |t.cols| == b.value.w then false
      else |t.selection| != 0
  }

  /** `isRemoveRowAvailableForSelection`: removing the selected rows must leave
      at least one row. */
  function IsRemoveRowAvailable(t: Table): (r: bool)
    requires MatrixValid(t) && SelectionValid(t)
    ensures r <==> t.selection != [] && SelectionBounds(t).value.h < |t.rows|
  {
    var b := SelectionBounds(t);
    if b.None? then false
    else
      BoundsInGrid(t);
      if |t.rows| == b.value.h then false
      else |t.selection| != 0
  }

  /** A one-row table of two 100-wide columns, both cells selected. */
  function TwoColumnsSelected(): Table
  {
    Table([Line(0, 100, false, 0), Line(1, 100, false, 100)], [Line(0, 30, false, 0)],
          [[0, 1]], map[0 := Cell(0, 0, 1, 1, ""), 1 := Cell(1, 0, 1, 1, "")], 2,
          [0, 1], 200, 30, Config(10, 10))
  }

  lemma TwoColumnsSelectedValid()
    ensures Valid(TwoColumnsSelected())
  {
    var t := TwoColumnsSelected();
    assert t.cols[..0] == [] && t.cols[..1] == [t.cols[0]] && t.cols[1..] == [t.cols[1]];
    assert t.rows[..0] == [];
    TotalSingleton(t.cols[0]);
    TotalSingleton(t.cols[1]);
    TotalSingleton(t.rows[0]);
    assert Occupies(t.cells[0], 0, 0) && Occupies(t.cells[1], 1, 0);
  }

  /** The as-written check offers to remove every column of a valid table,
      which the corrected check refuses. */
  lemma RemoveColumnCheckLetsAllThrough()
    ensures Valid(TwoColumnsSelected())
    ensures var t := TwoColumnsSelected();
      IsRemoveColumnAvailableAsWritten(t) && SelectionBounds(t).value.w == |t.cols| && !IsRemoveColumnAvailable(t)
  {
    TwoColumnsSelectedValid();
    var t := TwoColumnsSelected();
    assert Lefts(t) == [0, 1] && Rights(t) == [0, 1];
    assert FoldMin([0, 1], 0) == 0 && FoldMax([0, 1], 0) == 1;
  }
}

=== FILE: seqs.dfy ===
/** Sequence edits the grid engine performs with `Array.prototype.splice`, and
    the removal of a set of elements that `_deleteCell` applies to the selection. */
module Seqs {

  /** Every element of `s` is different from every other. */
  predicate Distinct<T(==)>(s: seq<T>)
  {
    forall i, j | 0 <= i < j < |s| :: s[i] != s[j]
  }

  /** `s` with `v` spliced in at position `p`. */
  function Splice<T>(s: seq<T>, p: int, v: T): (r: seq<T>)
    requires 0 <= p <= |s|
    ensures |r| == |s| + 1
    ensures forall i | 0 <= i < p :: r[i] == s[i]
    ensures r[p] == v
    ensures forall i | p < i <= |s| :: r[i] == s[i - 1]
  {
    s[..p] + [v] + s[p..]
  }

  /** `s` without its element at position `p` (`s.splice(p, 1)`). */
  function RemoveAt<T>(s: seq<T>, p: int): (r: seq<T>)
    requires 0 <= p < |s|
    ensures |r| == |s| - 1
    ensures forall i | 0 <= i < p :: r[i] == s[i]
    ensures forall i | p <= i < |r| :: r[i] == s[i + 1]
  {
    s[..p] + s[p + 1..]
  }

  /** `s` without its elements `lo` to `hi`. */
  function Excise<T>(s: seq<T>, lo: int, hi: int): (r: seq<T>)
    requires 0 <= lo <= hi < |s|
    ensures |r| == |s| - (hi - lo + 1)
  {
    s[..lo] + s[hi + 1..]
  }

  /** What `RemoveAt(s, p)` keeps on either side of `p`. */
  lemma RemoveAtSlices<T>(s: seq<T>, p: int, lo: int)
    requires 0 <= lo <= p < |s|
    ensures RemoveAt(s, p)[..lo] == s[..lo] && RemoveAt(s, p)[p..] == s[p + 1..]
  {
  }

  /** `s` with every element of `gone` taken out, the others kept in order. */
  function Without<T(==, !new)>(s: seq<T>, gone: set<T>): (r: seq<T>)
    ensures |r| <= |s|
    ensures forall v :: v in r <==> v in s && v !in gone
    ensures Distinct(s) ==> Distinct(r)
    ensures (forall v | v in s :: v !in gone) ==> r == s
  {
    if s == [] then []
    else
      var rest := Without(s[1..], gone);
      assert forall v | v in s[1..] :: v in s;
      if s[0] in gone then rest else [s[0]] + rest
  }

  /** Taking out `a` and then `b` takes out, of the elements of `s`, those
      in `both`. */
  lemma {:induction false} WithoutTwice<T(!new)>(s: seq<T>, a: set<T>, b: set<T>, both: set<T>)
    requires forall v | v in s :: (v in both <==> v in a || v in b)
    ensures Without(Without(s, a), b) == Without(s, both)
    decreases |s|
  {
    if s != [] {
      assert forall v | v in s[1..] :: v in s;
      WithoutTwice(s[1..], a, b, both);
    }
  }

  /** The elements of `s` appended to `acc` in order, each unless it is
      already there (the `includes` / `push` pattern). */
  function Dedup<T(==, !new)>(s: seq<T>, acc: seq<T>): (r: seq<T>)
    ensures Distinct(acc) ==> Distinct(r)
    ensures forall v :: v in r <==> v in acc || v in s
    ensures acc <= r
    decreases |s|
  {
    if s == [] then acc
    else
      var r := Dedup(s[1..], if s[0] in acc then acc else acc + [s[0]]);
      assert forall v | v in s[1..] :: v in s;
      assert forall v | v in s :: v == s[0] || v in s[1..];
      r
  }
}

=== FILE: serial.dfy ===
/** `getCells` and `_getCellData`: the table's cells written out row by row,
    each distinct cell once, where the scan first meets it. */
module Serial {
  import opened Wrappers
  import opened Grid

  /** What `_getCellData` writes for a cell by default (position, offsets,
      sizes and coordinates are written only on request). An omitted span
      means 1, omitted text means none. */
  datatype CellData = CellData(colspan: Option<int>, rowspan: Option<int>, text: Option<string>)

  /** A span as `_createCell` reads it, `colspan || 1`: absent or zero means 1. */
  function SpanOf(o: Option<int>): int
  {
    if o.Some? && o.value != 0 then o.value else 1
  }

  /** Text as `_setCellText` leaves it on a new cell: absent means none. */
  function TextOf(o: Option<string>): string
  {
    o.GetOr("")
  }

  /** `_getCellData`: spans of 1 and empty text are left out. Reading the data
      back gives the cell's spans and text again, and nothing is written
      that reading would treat as a default. */
  function CellDataOf(c: Cell): (d: CellData)
    ensures c.colspan >= 1 ==> SpanOf(d.colspan) == c.colspan
    ensures c.rowspan >= 1 ==> SpanOf(d.rowspan) == c.rowspan
    ensures TextOf(d.text) == c.text
    ensures d.colspan != Some(1) && d.rowspan != Some(1) && d.text != Some("")
  {
    CellData(
      if c.colspan != 1 then Some(c.colspan) else None,
      if c.rowspan != 1 then Some(c.rowspan) else None,
      if c.text != "" then Some(c.text) else None)
  }

  /** One row of `getCells` from column `x` on: the data of each cell not yet
      in `processed`, with `processed` grown by those cells. */
  function ScanRow(t: Table, y: int, x: int, processed: seq<CellId>): (seq<CellData>, seq<CellId>)
    requires MatrixValid(t) && 0 <= y < |t.rows| && 0 <= x <= |t.cols|
    decreases |t.cols| - x
  {
    if x == |t.cols| then ([], processed)
    else
      var id := t.slots[y][x];
      if id !in processed then
        var rest := ScanRow(t, y, x + 1, processed + [id]);
        ([CellDataOf(t.cells[id])] + rest.0, rest.1)
      else ScanRow(t, y, x + 1, processed)
  }

  /** The rows of `getCells` from row `y` on. */
  function ScanRows(t: Table, y: int, processed: seq<CellId>): seq<seq<CellData>>
    requires MatrixValid(t) && 0 <= y <= |t.rows|
    decreases |t.rows| - y
  {
    if y == |t.rows| then []
    else
      var row := ScanRow(t, y, 0, processed);
      [row.0] + ScanRows(t, y + 1, row.1)
  }

  /** `getCells`. */
  function GetCells(t: Table): seq<seq<CellData>>
    requires MatrixValid(t)
  {
    ScanRows(t, 0, [])
  }

  /** Cell `c` is anchored before slot (`x`, `y`) in row-major order. */
  predicate Before(c: Cell, x: int, y: int)
  {
    c.row < y || (c.row == y && c.col < x)
  }

  /** The data of the cells anchored in row `y` at column `x` or later, left to
      right: the reference reading of one row of `getCells`. */
  function AnchorData(t: Table, y: int, x: int): seq<CellData>
    requires MatrixValid(t) && 0 <= y < |t.rows| && 0 <= x <= |t.cols|
    decreases |t.cols| - x
  {
    if x == |t.cols| then []
    else (if Anchored(t, x, y) then [CellDataOf(CellAt(t, x, y))] else []) + AnchorData(t, y, x + 1)
  }

  /** The reference reading of `getCells`: row by row, the cells anchored there. */
  function Serialised(t: Table): (s: seq<seq<CellData>>)
    requires MatrixValid(t)
    ensures |s| == |t.rows|
  {
    seq(|t.rows|, y requires 0 <= y < |t.rows| => AnchorData(t, y, 0))
  }

  /** `processed` lists exactly the cells anchored before (`x`, `y`). */
  ghost predicate ProcessedBefore(t: Table, processed: seq<CellId>, x: int, y: int)
  {
    forall id :: id in processed <==> id in t.cells && Before(t.cells[id], x, y)
  }

  /** The cell in a slot has been met before exactly when the slot is not its
      anchor: a cell's anchor is the first of its slots in row-major order. */
  lemma MetUnlessAnchor(t: Table, processed: seq<CellId>, x: int, y: int)
    requires MatrixValid(t) && InGrid(t, x, y) && ProcessedBefore(t, processed, x, y)
    ensures t.slots[y][x] in processed <==> !Anchored(t, x, y)
    ensures !Anchored(t, x, y) ==> ProcessedBefore(t, processed, x + 1, y)
    ensures Anchored(t, x, y) ==> ProcessedBefore(t, processed + [t.slots[y][x]], x + 1, y)
  {
    var id := t.slots[y][x];
    assert Occupies(CellAt(t, x, y), x, y);
    if Anchored(t, x, y) {
      forall id2
        ensures id2 in processed + [id] <==> id2 in t.cells && Before(t.cells[id2], x + 1, y)
      {
        if id2 in t.cells && t.cells[id2].row == y && t.cells[id2].col == x {
          AnchorsUnique(t, id, id2);
        }
      }
    } else {
      forall id2 | id2 in t.cells && t.cells[id2].row == y && t.cells[id2].col == x
        ensures id == id2
      {
        assert Occupies(t.cells[id2], x, y);
      }
    }
  }

  /** One row of the scan yields the anchored cells of that row and leaves
      `processed` listing every cell anchored in that row or above. */
  lemma {:induction false} ScanRowAnchors(t: Table, y: int, x: int, processed: seq<CellId>)
    requires MatrixValid(t) && 0 <= y < |t.rows| && 0 <= x <= |t.cols| && ProcessedBefore(t, processed, x, y)
    ensures ScanRow(t, y, x, processed).0 == AnchorData(t, y, x)
    ensures ProcessedBefore(t, ScanRow(t, y, x, processed).1, 0, y + 1)
    decreases |t.cols| - x
  {
    if x == |t.cols| {
      forall id | id in t.cells
        ensures Before(t.cells[id], x, y) <==> Before(t.cells[id], 0, y + 1)
      {
        assert Fits(t.cells[id], |t.cols|, |t.rows|);
      }
    } else {
      MetUnlessAnchor(t, processed, x, y);
      if Anchored(t, x, y) {
        ScanRowAnchors(t, y, x + 1, processed + [t.slots[y][x]]);
      } else {
        ScanRowAnchors(t, y, x + 1, processed);
      }
    }
  }

  lemma {:induction false} ScanRowsAnchors(t: Table, y: int, processed: seq<CellId>)
    requires MatrixValid(t) && 0 <= y <= |t.rows| && ProcessedBefore(t, processed, 0, y)
    ensures ScanRows(t, y, processed) == Serialised(t)[y..]
    decreases |t.rows| - y
  {
    if y < |t.rows| {
      ScanRowAnchors(t, y, 0, processed);
      ScanRowsAnchors(t, y + 1, ScanRow(t, y, 0, processed).1);
    }
  }

  /** `getCells` writes, for each row, the cells anchored in it from left to
      right: each distinct cell once, at its anchor. */
  lemma GetCellsAnchors(t: Table)
    requires MatrixValid(t)
    ensures GetCells(t) == Serialised(t)
  {
    ScanRowsAnchors(t, 0, []);
  }

  /** Two tables whose slots hold the same cells serialise alike. */
  lemma {:induction false} AnchorDataAlike(t: Table, u: Table, y: int, x: int)
    requires MatrixValid(t) && MatrixValid(u) && |t.cols| == |u.cols| && |t.rows| == |u.rows|
    requires forall y', x' | 0 <= y' < |t.rows| && 0 <= x' < |t.cols| :: CellAt(t, x', y') == CellAt(u, x', y')
    requires 0 <= y < |t.rows| && 0 <= x <= |t.cols|
    ensures AnchorData(t, y, x) == AnchorData(u, y, x)
    decreases |t.cols| - x
  {
    if x < |t.cols| {
      AnchorDataAlike(t, u, y, x + 1);
    }
  }

  /** `getCells` depends only on which cell each slot holds, not on the ids. */
  lemma GetCellsAlike(t: Table, u: Table)
    requires MatrixValid(t) && MatrixValid(u) && |t.cols| == |u.cols| && |t.rows| == |u.rows|
    requires forall y, x | 0 <= y < |t.rows| && 0 <= x < |t.cols| :: CellAt(t, x, y) == CellAt(u, x, y)
    ensures GetCells(t) == GetCells(u)
  {
    GetCellsAnchors(t);
    GetCellsAnchors(u);
    forall y | 0 <= y < |t.rows|
      ensures Serialised(t)[y] == Serialised(u)[y]
    {
      AnchorDataAlike(t, u, y, 0);
    }
  }
}

=== FILE: setters.dfy ===
/** The property setters of the grid's lines and size: `__setcolumns` /
    `__setrows` (the `columns` and `rows` properties) and `__setwidth` /
    `__setheight` (the `width` and `height` properties). */
module Setters {
  import opened Wrappers
  import opened Ledger
  import opened Grid

  /** One entry of the `columns` (or `rows`) property, as `getColumns` (or
      `getRows`) writes it: the width (or height), if any, and the header flag. */
  datatype LineSpec = LineSpec(size: Option<int>, header: bool)

  /** The size entry is truthy: present and not zero. */
  predicate Given(o: Option<int>)
  {
    o.Some? && o.value != 0
  }

  /** Line `x` after `__setcolumns`: an existing line keeps its index and
      offset, takes the given size if it is truthy, and takes the header flag;
      a new line is numbered `x`. Its offset is settled later. */
  function SetLine(ls: seq<Line>, value: seq<LineSpec>, x: int): Line
    requires 0 <= x < |value| && (x < |ls| || Given(value[x].size))
  {
    var size := if Given(value[x].size) then value[x].size.value else ls[x].size;
    if x < |ls| then ls[x].(size := size, header := value[x].header)
    else Line(x, size, value[x].header, 0)
  }

  /** `__setcolumns` / `__setrows` on the lines: as many lines as entries, each
      updated by its entry. A new line whose entry gives no size would have an
      undefined size in the source; here it is an error. */
  function SetLines(ls: seq<Line>, value: seq<LineSpec>): (r: Result<seq<Line>, string>)
    ensures r.Success? <==> forall x | |ls| <= x < |value| :: Given(value[x].size)
    ensures r.Success? ==> |r.value| == |value|
    ensures r.Success? ==> forall x | 0 <= x < |value| ::
      && r.value[x].header == value[x].header
      && (Given(value[x].size) ==> r.value[x].size == value[x].size.value)
      && (!Given(value[x].size) ==> x < |ls| && r.value[x].size == ls[x].size)
    ensures r.Success? && Contiguous(ls) ==> Contiguous(r.value)
  {
    if exists x | |ls| <= x < |value| :: !Given(value[x].size) then Failure("a new line has no size")
    else Success(seq(|value|, x requires 0 <= x < |value| => SetLine(ls, value, x)))
  }

  /** `getColumns` / `getRows`: each line's size and header flag. */
  function GetLines(ls: seq<Line>): (r: seq<LineSpec>)
    ensures |r| == |ls|
    ensures forall i | 0 <= i < |ls| :: r[i].size == Some(ls[i].size) && r[i].header == ls[i].header
  {
    seq(|ls|, i requires 0 <= i < |ls| => LineSpec(Some(ls[i].size), ls[i].header))
  }

  /** `getColumns` reads only the sizes and header flags. */
  lemma GetLinesAlike(a: seq<Line>, b: seq<Line>)
    requires |a| == |b| && forall i | 0 <= i < |a| :: a[i].size == b[i].size && a[i].header == b[i].header
    ensures GetLines(a) == GetLines(b)
  {
  }

  /** Setting the lines to what `getColumns` (or `getRows`) writes changes
      nothing, a zero size included (it is falsy, so the old size stays). */
  lemma SetLinesGetLines(ls: seq<Line>)
    ensures SetLines(ls, GetLines(ls)) == Success(ls)
  {
    var g := GetLines(ls);
    var lines := seq(|g|, x requires 0 <= x < |g| => SetLine(ls, g, x));
    assert SetLines(ls, g) == Success(lines);
    assert forall x | 0 <= x < |ls| :: lines[x] == ls[x];
    assert lines == ls;
  }

  /** `__setwidth` once the columns exist, through `ClampLast`; the flag says
      whether `_columnsmodified` was raised. */
  function SetWidth(t: Table, w: int): (r: (Table, bool))
    requires |t.cols| >= 1
    ensures r.0 == t.(cols := r.0.cols, width := r.0.width)
    ensures r.0.width >= Total(t.cols[..|t.cols| - 1]) + t.config.minColumnWidth
    ensures w >= Total(t.cols[..|t.cols| - 1]) + t.config.minColumnWidth ==> r.0.width == w
    ensures r.1 <==> r.0.width != t.width
    ensures |r.0.cols| == |t.cols| && (r.1 ==> r.0.cols[|t.cols| - 1].size >= t.config.minColumnWidth)
    ensures !r.1 ==> r.0 == t
    ensures Contiguous(t.cols) ==> Contiguous(r.0.cols)
  {
    var c := ClampLast(t.cols, t.width, w, t.config.minColumnWidth);
    (t.(cols := c.lines, width := c.total), c.changed)
  }

  /** `__setheight` once the rows exist: the row-wise mirror of `SetWidth`. */
  function SetHeight(t: Table, h: int): (r: (Table, bool))
    requires |t.rows| >= 1
    ensures r.0 == t.(rows := r.0.rows, height := r.0.height)
    ensures r.0.height >= Total(t.rows[..|t.rows| - 1]) + t.config.minRowHeight
    ensures h >= Total(t.rows[..|t.rows| - 1]) + t.config.minRowHeight ==> r.0.height == h
    ensures r.1 <==> r.0.height != t.height
    ensures |r.0.rows| == |t.rows| && (r.1 ==> r.0.rows[|t.rows| - 1].size >= t.config.minRowHeight)
    ensures !r.1 ==> r.0 == t
    ensures Contiguous(t.rows) ==> Contiguous(r.0.rows)
  {
    var c := ClampLast(t.rows, t.height, h, t.config.minRowHeight);
    (t.(rows := c.lines, height := c.total), c.changed)
  }

  /** Assigning the width keeps the table valid: the last column takes up the
      difference, so the width is still the sum of the column widths and the
      last column is still at least the minimum. */
  lemma SetWidthValid(t: Table, w: int)
    requires Valid(t)
    ensures Valid(SetWidth(t, w).0)
  {
    var u := SetWidth(t, w).0;
    assert Contiguous(u.cols);
  }

  lemma SetHeightValid(t: Table, h: int)
    requires Valid(t)
    ensures Valid(SetHeight(t, h).0)
  {
    var u := SetHeight(t, h).0;
    assert Contiguous(u.rows);
  }

  /** Assigning the same width twice: the second assignment changes nothing
      and raises no flag. */
  lemma SetWidthTwice(t: Table, w: int)
    requires |t.cols| >= 1
    ensures var u := SetWidth(t, w).0; SetWidth(u, w) == (u, false)
  {
    var u := SetWidth(t, w).0;
    assert u.cols[..|u.cols| - 1] == t.cols[..|t.cols| - 1];
  }

  lemma SetHeightTwice(t: Table, h: int)
    requires |t.rows| >= 1
    ensures var u := SetHeight(t, h).0; SetHeight(u, h) == (u, false)
  {
    var u := SetHeight(t, h).0;
    assert u.rows[..|u.rows| - 1] == t.rows[..|t.rows| - 1];
  }
}

=== FILE: wrappers.dfy ===
/** Optional values and fallible results, used where the table returns `null`,
    leaves a property out of its serialised form, or cannot represent a state. */
module Wrappers {

  datatype Option<+T> = None | Some(value: T) {

    /** The wrapped value, or `default` when there is none. */
    function GetOr(default: T): T {
      match this
      case Some(v) => v
      case None => default
    }
  }

  datatype Result<+R, +E> = Success(value: R) | Failure(error: E)
}
